=== FILE: README.md ===
# Project Central Grid: the service and form logic, modelled in Dafny

Project Central Grid is a project-management front end. It keeps clients,
projects, tasks, task lists, time entries, issues, files, team members and
chat messages in a hosted record store. Each entity has a service module
that turns loosely shaped input into an allow-listed write record, builds
where-clauses for queries, and reads the store's reply into a result.
Around these sit a few pure pieces:

- the dashboard counters;
- the team-member card's colours and percentages;
- the project form's validator;
- the in-memory chat channel and reaction mock.

This project models that layer as pure Dafny functions and proves what it
promises. Four abstractions make that possible:

- **JavaScript values.** `Values.Value` has null, booleans, integers, NaN,
  strings and objects. An input object is a `map<string, Value>`, in which
  a missing key is `undefined`. Truthiness, `||`, `parseInt`, `Number` and
  `String` are defined on it.
- **The store.** A reply is a value: either the error a call threw, or a
  response with a success flag, a message, an optional list of per-record
  results and optional data. Each service's rule for reading a reply is a
  function of that value (`Remote`).
- **Write payloads.** The `if (d.x !== undefined) out.y = conv(d.x)` chains
  of the update builders are a list of rules run in order (`Payload`). A
  reference definition, "the last source supplied", is proved to agree with
  them. The undefined-stripping object literals of the issue service are
  `Payload.Obj`.
- **Time.** The current time and today's date are parameters. So is the
  date parser the dashboard's overdue test uses.

Modules follow the source files:

| module | source file |
|---|---|
| `TaskService` | `taskService.js` |
| `TaskListService` | `taskListService.js` |
| `ProjectService` | `projectService.js` |
| `ClientService` | `clientService.js` |
| `TimeEntryService` | `timeEntryService.js` |
| `TimeSummary` | `getTimeSummaryByProject` in `timeEntryService.js` |
| `IssueService` | `issueService.js` |
| `FileService` | `fileService.js` |
| `TeamMemberService` | `teamMemberService.js` |
| `ChatService` | `chatService.js` |
| `Dashboard` | `Dashboard.jsx` |
| `TeamMemberCard` | `TeamMemberCard.jsx` |
| `ProjectForm` | `ProjectForm.jsx` |

`Values`, `Text`, `Seqs`, `Payload`, `Remote` and `Filters` hold what these
modules share.

Where a description of the system and its code disagree, the model follows
the code. The cases are:

- The create builders prefer the storage-suffixed name (`a_c || a`). The
  update builders let the alias win, because the alias is assigned on the
  later line (`TaskService.CreateUpdateDisagree`).
- The time-entry update parses a `null` project id to NaN. It does not map
  it to null (`TimeEntryService.UpdateNullProject`).
- `getTimeSummaryByProject` returns its groups with integer-like project
  keys first, in ascending numeric order, and the other keys after them in
  order of first appearance. This is JavaScript's property order, not
  first-seen order (`TimeSummary.SummaryIndexFirst`).
- A key that names an inherited `Object.prototype` member behaves
  differently from an ordinary key:
  - in the card's status table it yields that member, not the Inactive
    class (`TeamMemberCard.StatusBadge`);
  - in the reaction and time-summary groupings it makes the grouping throw
    (`ChatService.MessageReactions`, `TimeSummary.Summary`).

## Model

Source paths are relative to the repository root.

| member | source | states |
|---|---|---|
| Values.ParseInt | src/services/api/taskService.js:175 | `parseInt` always gives a number or NaN; a number passes through unchanged, and a value that is neither a number nor text is NaN |
| Values.ParseIntOfString | src/services/api/taskListService.js:255-261 | parsing the decimal text of any integer gives that integer back (`parseInt(String(n)) === n`) |
| Values.ToNumber | src/services/api/teamMemberService.js:55-58 | `Number(v)` always gives a number or NaN, and a number is itself |
| Values.ToNumberOfString | src/services/api/teamMemberService.js:45-60 | `Number(String(n)) === n` for every integer |
| Values.ParseFloat | src/services/api/teamMemberService.js:59 | `parseFloat` always gives a number or NaN |
| Values.RoundDiv | src/services/api/teamMemberService.js:455-456 | `Math.round(a / b)` for a positive divisor is the integer nearest the quotient, with halves rounded up |
| Text.Trim | src/services/api/issueService.js:308 | the trimmed text is empty or has no white space at either end |
| Text.TrimKeeps | src/services/api/timeEntryService.js:577 | trimming text that has no white space at either end leaves it unchanged |
| Text.TrimEmptyIffAllSpace | src/services/api/timeEntryService.js:576-578 | a term trims to "" exactly when every character of it is white space |
| Text.ToLower | src/services/api/teamMemberService.js:342 | lower-casing keeps the length and maps each character to its lower-case form |
| Text.ToLowerIdempotent | src/services/api/chatService.js:414 | lower-casing twice is lower-casing once |
| Text.Contains | src/services/api/chatService.js:414 | `includes` holds exactly when the needle occurs at some offset of the text |
| Text.StrLeTotal | src/services/api/timeEntryService.js:562 | the default sort order on strings compares any two strings one way or the other |
| Seqs.FilterMembers | src/services/api/taskService.js:235 | `filter` keeps exactly the elements that pass the test |
| Seqs.FilterIndices | src/services/api/chatService.js:94-97 | `filter` keeps the survivors in their original order |
| Seqs.FilterMultiplicity | src/services/api/clientService.js:100-103 | `filter` keeps each passing element as often as it occurs and drops every other |
| Seqs.NoDupPermuted | src/services/api/timeEntryService.js:562 | a rearrangement of a list without duplicates has none either |
| Payload.LastSupplied | src/services/api/taskService.js:159-161 | a chain of "if this input is defined, write it" statements for one field is decided by the last of its sources the input defines; with none defined, nothing is written |
| Payload.ApplySrcsLastWins | src/services/api/taskService.js:159-161 | running the chain leaves the converted value of the last defined source, or the field as it was when no source is defined |
| Payload.ApplyEachRule | src/services/api/taskService.js:155-176 | when every field has its own chain, each field is decided by its own chain alone, and keys no chain writes are left as they were |
| Payload.Build | src/services/api/projectService.js:179-197 | an update payload holds, at each target, what its own rule writes, and keeps every other key of the starting object |
| Payload.Stamped | src/services/api/clientService.js:173-193 | the update payload always carries the given `Id`, and no rule overwrites it |
| Payload.StampedPair | src/services/api/taskService.js:163-176 | for a field written from a storage name and then from an alias, the alias's value wins when both are defined, the storage name's when only it is, and the field is absent when neither is |
| Payload.StampedSingle | src/services/api/taskListService.js:152-158 | a field with one source is sent exactly when that source is defined, converted |
| Payload.StampedKeys | src/services/api/timeEntryService.js:252-267 | when the supplied input keys can reach only the allowed fields, the update payload holds no key but `Id` and those fields |
| Payload.StampedSupplied | src/services/api/timeEntryService.js:252-267 | a field other than `Id` is sent only when one of its sources is defined in the input |
| Payload.FireIffSupplied | src/services/api/taskService.js:163-176 | a rule writes something exactly when one of its sources is defined |
| Payload.ApplyKeys | src/services/api/clientService.js:173-193 | when the supplied input keys can reach only the allowed fields, running the rules adds no key outside them |
| Payload.OrAll | src/services/api/taskService.js:100 | `a \|\| b \|\| c` is the first truthy operand, or the last operand when none is truthy |
| Payload.OrKeysIsOrChain | src/services/api/taskService.js:100-108 | a field built as `d.a \|\| d.b \|\| dflt` is exactly the JavaScript `\|\|` chain over those operands |
| Payload.FirstTruthy | src/services/api/taskService.js:109 | the first of the named inputs that holds a truthy value, with no truthy one before it |
| Payload.OrKeysFirstTruthy | src/services/api/timeEntryService.js:194-197 | `d.a \|\| d.b \|\| dflt` is the first truthy input's value, and the default when no input is truthy |
| Payload.ParsedOrNullFirstTruthy | src/services/api/timeEntryService.js:200-201 | `d.a ? parseInt(d.a) : (d.b ? parseInt(d.b) : null)` parses the first truthy input, and is null when neither is truthy |
| Payload.Obj | src/services/api/issueService.js:136-140 | an object literal as sent: a key appears only when some entry for it is defined |
| Payload.ObjEntry | src/services/api/issueService.js:118-140 | an object literal's key holds its last entry's value when that is defined, and is absent when the last entry is undefined; an explicit null is kept |
| Payload.Picked | src/services/api/issueService.js:119-131 | copying `k: d.k` for each listed key gives each key its input value, undefined where the input lacks it |
| Payload.PickedEntry | src/services/api/issueService.js:119-140 | a copied key that nothing later repeats is sent with its input value, null included, when the input has it, and is left out when it does not |
| Payload.ParsedIfTruthy | src/services/api/issueService.js:132 | `v ? parseInt(v) : undefined` is defined exactly when `v` is truthy |
| Payload.FixedEntry | src/services/api/issueService.js:186-211 | an entry that no later entry repeats decides its key in the literal |
| Payload.ObjPrepend | src/services/api/issueService.js:188-189 | putting `Id: id` in front of an object literal that never repeats `Id` gives the literal's object plus that key |
| Remote.Successes | src/services/api/taskService.js:235 | the successful per-record results are exactly the successful ones of the list, and all of them are there only when every result succeeded |
| Remote.FirstSuccess | src/services/api/clientService.js:139 | the position of the first successful result, with none before it, or none at all |
| Remote.SuccessesHead | src/services/api/clientService.js:152 | `successfulRecords[0]` is the first successful result, and exists exactly when some result succeeded |
| Remote.SuccessesCount | src/services/api/timeEntryService.js:367-377 | the filtered successes number exactly the positions of the result list that hold a successful record |
| Remote.WriteResult | src/services/api/clientService.js:132-155 | a create or update yields the first successful record's data; it yields null for a failed call, a missing result list, or no success |
| Remote.AnySucceeded | src/services/api/clientService.js:245-265 | a delete answers true exactly when the call succeeded with a result list and some record in it succeeded |
| Remote.CountMatches | src/services/api/timeEntryService.js:360-380 | a bulk delete answers true exactly when the call succeeded with a result list and the number of successful records equals the number of ids, whatever the list's length; with one result per id, that means every entry succeeded |
| Remote.AllOfSome | src/services/api/issueService.js:276-289 | true exactly when the call succeeded with a result list, at least one id was given, and the successful records number the ids; it then implies that some record succeeded |
| Remote.FirstResult | src/services/api/issueService.js:481-483 | the comment result is the first result's data, and is present only when that first result succeeded |
| Remote.FirstResultVersusWriteResult | src/services/api/issueService.js:481-483 | reading only `results[0]` agrees with the first-success rule when the first result succeeded, and gives null where the first-success rule would still find a later success |
| Remote.FoundOrNull | src/services/api/taskService.js:76-88 | a read yields the response data exactly when the call returned truthy data, and null otherwise, including when it threw |
| Remote.FoundOrRaise | src/services/api/taskListService.js:70-82 | a read yields the data when it is found and otherwise raises the given not-found message, including when the call threw |
| Remote.DataIfSuccess | src/services/api/teamMemberService.js:105-111 | a read yields the response's data whenever the call succeeded, and nothing otherwise |
| Remote.FirstFailureMessage | src/services/api/teamMemberService.js:245-247 | the message of the first failed record, in list order, that carries a truthy message: every record before it succeeded or has no truthy message; none exactly when no failed record carries one |
| Remote.DeleteEvery | src/services/api/teamMemberService.js:234-255 | a delete is true exactly when the call succeeded and either returned no result list or every record succeeded; a thrown call or a failed call raises its error or message, and a failed record with a message raises the first such message in list order, and with no such record the answer is whether every record succeeded |
| Remote.FirstRecordError | src/services/api/teamMemberService.js:144-151 | the error a failed-record scan throws comes from the first failed record, in list order, that has a field error or a truthy message; it reads `label: message` from the first field error, else the record's message; none exactly when no failed record has either |
| Remote.WriteOrRaise | src/services/api/teamMemberService.js:133-158 | a write that does not raise yields the first-success data; a thrown call, a failed call, or a failed record with a field error or message raises, the first failed record in list order that explains itself deciding the message; with no such record the answer is the first-success data; a write where every record succeeded never raises |
| Filters.ByParsedId | src/services/api/taskListService.js:255-261 | the where-clause is a single EqualTo on the field with the parsed id, and a numeric id is used as it is |
| Filters.ByParsedIdOfText | src/services/api/taskListService.js:297-303 | an id given as the decimal text of an integer filters on that integer |
| TaskService.GetById | src/services/api/taskService.js:76-88 | the task is returned exactly when the store returned truthy data; otherwise the answer is null and nothing is raised |
| TaskService.CreateFields | src/services/api/taskService.js:99-110 | the create record holds exactly its allow-listed fields besides the name, is stamped with the current time, and takes the project id from a truthy `project_id_c`, else a truthy `projectId`, else null |
| TaskService.CreateDefaults | src/services/api/taskService.js:101-108 | tags, completion, priority and status fall back to "", false, "Medium" and "To Do", each taking the truthy storage name before the alias |
| TaskService.CreateTextDefaults | src/services/api/taskService.js:102-106 | description and due date fall back to "", and the start date to today, each taking the truthy storage name before the alias |
| TaskService.Create | src/services/api/taskService.js:99-110 | the name is the first truthy of `Name` and `title`, else `name` as given, and is left out when that is undefined; every other field is as the create builder gives it |
| TaskService.Update | src/services/api/taskService.js:150-176 | the update payload carries `Id = parseInt(id)` and otherwise what the rules write |
| TaskService.UpdateKeys | src/services/api/taskService.js:155-176 | the update payload holds `Id` and only allow-listed fields, whatever else the input holds |
| TaskService.UpdateWritesOnlySupplied | src/services/api/taskService.js:159-176 | a field other than `Id` is written only when one of its sources was supplied |
| TaskService.UpdateName | src/services/api/taskService.js:159-161 | for the name, `title` overrides `name`, which overrides `Name` |
| TaskService.UpdateAliasWins | src/services/api/taskService.js:163-176 | in every other pair the alias overrides the storage name when both are given |
| TaskService.CreateUpdateDisagree | src/services/api/taskService.js:100 | with a truthy `Name` and a `name` both supplied, create sends `Name` but update sends `name` |
| TaskService.MarkComplete | src/services/api/taskService.js:305-307 | marking complete sends `completed_c = true` with the id |
| TaskService.MarkCompleteOnly | src/services/api/taskService.js:305-307 | marking complete writes no other field |
| TaskService.IsDoneStatusIff | src/services/api/taskService.js:313 | a status counts as done exactly when it is "Done" or "Completed" |
| TaskService.UpdateStatus | src/services/api/taskService.js:310-315 | a status update sends the status, and `completed_c` true exactly for a done status |
| TaskService.UpdateStatusOnly | src/services/api/taskService.js:310-315 | a status update writes only the id, the status and the completion flag |
| TaskService.Delete | src/services/api/taskService.js:219-255 | deleting a task answers true exactly when some record deletion succeeded |
| TaskListService.CreateFields | src/services/api/taskListService.js:91-100 | the create record holds exactly its allow-listed fields besides the name, is stamped with the current time, and takes the milestone and project ids from the truthy storage name, else the truthy alias, else null |
| TaskListService.CreateDefaults | src/services/api/taskListService.js:94-96 | tags, description and tasks fall back to "", the description taking `description_c` before `description` |
| TaskListService.Create | src/services/api/taskListService.js:93 | the name is `Name` when truthy, else `name` as given, and is left out when that is undefined; every other field is as the create builder gives it |
| TaskListService.Update | src/services/api/taskListService.js:145-158 | the update payload carries the parsed id and what the rules write |
| TaskListService.UpdateWritesOnlySupplied | src/services/api/taskListService.js:145-158 | a field other than `Id` is written only when one of its sources was supplied |
| TaskListService.UpdateAliasWins | src/services/api/taskListService.js:145-158 | the alias overrides the storage name when both are given |
| TaskListService.ByMilestone | src/services/api/taskListService.js:242-281 | the task lists of a milestone are fetched with one EqualTo on `milestone_id_c`, and a numeric id is compared as it is |
| TaskListService.ByProject | src/services/api/taskListService.js:284-323 | the task lists of a project are fetched with one EqualTo on `project_id_c`, and a numeric id is compared as it is |
| TaskListService.ByIdOfText | src/services/api/taskListService.js:255-261 | a milestone or project id given as the decimal text of an integer selects the same task lists as that integer |
| TaskListService.GetById | src/services/api/taskListService.js:68-82 | the task list is returned when found; otherwise "Task list not found" is raised, including when the store threw |
| TaskListService.Delete | src/services/api/taskListService.js:216-230 | deleting a task list answers true exactly when some record deletion succeeded |
| ProjectService.LookupNames | src/services/api/projectService.js:22-26 | the names of the schema fields typed "Lookup", in schema order |
| ProjectService.IdentifyLookupFields | src/services/api/projectService.js:22-26 | without a schema or its field list the lookup fields are `["client_id_c"]`; otherwise they are exactly the Lookup-typed names |
| ProjectService.NoLookupsNoDefault | src/services/api/projectService.js:22-26 | a schema with no Lookup fields yields no lookup fields, not the default |
| ProjectService.PrepareField | src/services/api/projectService.js:30-34 | a lookup value that is a non-null object with a truthy `Id` becomes that `Id`; any other value is kept |
| ProjectService.PrepareLookupFields | src/services/api/projectService.js:28-36 | preparing keeps the keys and every non-lookup field, and replaces each lookup field as above |
| ProjectService.PrepareLookupOnce | src/services/api/projectService.js:28-36 | a lookup field the list names once comes out unwrapped exactly once: null stays null, an object with a truthy `Id` becomes that `Id`, and any other value is kept |
| ProjectService.PreparePlainUnchanged | src/services/api/projectService.js:28-36 | preparing a record whose lookup fields already hold plain ids, with no object carrying a truthy `Id`, changes nothing |
| ProjectService.CheckId | src/services/api/projectService.js:75-82 | the id is accepted exactly when it is present, parses to a number, and that number is positive; otherwise "Valid project ID is required" is raised |
| ProjectService.CheckIdIffPositive | src/services/api/projectService.js:78-82 | a numeric id passes the check exactly when it is positive |
| ProjectService.GetById | src/services/api/projectService.js:74-114 | a bad id raises the id message before the store is read; a good id yields the record when found and "Project not found" otherwise |
| ProjectService.CreateFields | src/services/api/projectService.js:123-135 | the create record holds exactly its allow-listed fields besides the name, is stamped with the current time, keeps a supplied chat flag and defaults it to true, and parses the client id from a truthy storage name or alias, else null |
| ProjectService.CreateDefaults | src/services/api/projectService.js:126-130 | the status falls back to "Planning" and the text fields to "", each taking the truthy storage name before the alias |
| ProjectService.CreateKeepsChatOff | src/services/api/projectService.js:132 | chat is on unless the input explicitly supplies false, which is kept |
| ProjectService.Create | src/services/api/projectService.js:125 | the name is `Name` when truthy, else `name` as given, and is left out when that is undefined; every other field is as the create builder gives it |
| ProjectService.Update | src/services/api/projectService.js:179-197 | the update payload carries the id and what the rules write |
| ProjectService.UpdateWritesOnlySupplied | src/services/api/projectService.js:179-197 | a field other than `Id` is written only when one of its sources was supplied |
| ProjectService.UpdateAliasWins | src/services/api/projectService.js:183-197 | the alias (`name`, `status`, `chatEnabled`, `clientId`, and the others) overrides the storage name when both are given |
| ClientService.GetById | src/services/api/clientService.js:56-92 | a falsy id raises "Client ID is required"; otherwise the record is returned when found and "Client not found" is raised when it is not |
| ClientService.ProjectsOfClient | src/services/api/clientService.js:96-107 | a null project makes the filter throw and the answer []; otherwise the projects kept are exactly those whose client link equals the parsed id, each as many times as it was listed |
| ClientService.ProjectsOfClientOrder | src/services/api/clientService.js:100-103 | the kept projects appear in the order the store listed them |
| ClientService.LinksToNumber | src/services/api/clientService.js:100-103 | a project links to a client when its `client_id_c` is that number, either raw or as the `Id` of a lookup object |
| ClientService.ProjectsOfUnparsedClient | src/services/api/clientService.js:100-103 | an id that parses to NaN matches no project |
| ClientService.CreateFields | src/services/api/clientService.js:117-128 | the create record holds exactly its allow-listed fields besides the name, stamped with the current time |
| ClientService.CreateStatus | src/services/api/clientService.js:119-126 | tags and company fall back to "" and the status to "Active", each taking the truthy storage name before the alias |
| ClientService.CreateContactDefaults | src/services/api/clientService.js:121-123 | email, phone and website take the truthy storage name, else the truthy alias, else "" |
| ClientService.CreateOtherDefaults | src/services/api/clientService.js:124-125 | address and industry take the truthy storage name, else the truthy alias, else "" |
| ClientService.Create | src/services/api/clientService.js:118 | the name is `Name` when truthy, else `name` as given, and is left out when that is undefined; every other field is as the create builder gives it |
| ClientService.Update | src/services/api/clientService.js:173-193 | the update payload carries the id and what the rules write |
| ClientService.UpdateWritesOnlySupplied | src/services/api/clientService.js:173-193 | a field other than `Id` is written only when one of its sources was supplied |
| ClientService.UpdateAliasWins | src/services/api/clientService.js:173-193 | the alias overrides the storage name when both are given |
| ClientService.Delete | src/services/api/clientService.js:245-265 | deleting a client answers true exactly when some record deletion succeeded |
| TimeEntryService.GetById | src/services/api/timeEntryService.js:61-91 | the entry is returned when found; otherwise "Time entry not found" is raised, including when the store threw |
| TimeEntryService.Create | src/services/api/timeEntryService.js:192-201 | the create record holds exactly its allow-listed fields, stamped with the current time, and the project and task ids take a truthy storage name, else a truthy alias, else null |
| TimeEntryService.CreateDefaults | src/services/api/timeEntryService.js:194-197 | the name falls back to "Time Entry", the description to `description` then "", and the date to today |
| TimeEntryService.CreateDuration | src/services/api/timeEntryService.js:198 | the duration is the parsed truthy storage name or alias, and 0 otherwise |
| TimeEntryService.Update | src/services/api/timeEntryService.js:252-267 | the update payload always carries `Id = parseInt(id)` |
| TimeEntryService.UpdateKeys | src/services/api/timeEntryService.js:252-267 | the update payload holds `Id` and only allow-listed fields |
| TimeEntryService.UpdateWritesOnlySupplied | src/services/api/timeEntryService.js:256-267 | a field other than `Id` is written only when one of its sources was supplied |
| TimeEntryService.UpdateAliasWins | src/services/api/timeEntryService.js:258-267 | the alias overrides the storage name when both are given |
| TimeEntryService.UpdateNullProject | src/services/api/timeEntryService.js:264-265 | a null `projectId` is sent as NaN, not as null, whatever `project_id_c` holds, since the alias is written last |
| TimeEntryService.UpdateFalsyTask | src/services/api/timeEntryService.js:266-267 | a falsy `taskId` is sent as null, whatever `task_id_c` holds, since the alias is written last |
| TimeEntryService.Delete | src/services/api/timeEntryService.js:310-345 | deleting an entry answers true exactly when some record deletion succeeded |
| TimeEntryService.BulkDelete | src/services/api/timeEntryService.js:351-380 | true exactly when the call succeeded with a result list whose successful records number the ids, however many results came back; with one result per id it is true exactly when all succeeded; without results it is false |
| TimeEntryService.BulkDeleteOfNothing | src/services/api/timeEntryService.js:366-377 | deleting no ids with an empty successful reply answers true |
| TimeEntryService.TimesByProject | src/services/api/timeEntryService.js:426-451 | the project EqualTo comes first, then `date_c >= start` only for a truthy start, then `date_c <= end` only for a truthy end |
| TimeEntryService.TimesByDateRange | src/services/api/timeEntryService.js:503-514 | the range filter is `date_c >= start` followed by `date_c <= end`, each compared against its bound as given, an undefined bound sent as null |
| TimeEntryService.SearchEntries | src/services/api/timeEntryService.js:574-598 | an absent, falsy or blank term lists everything; any other text term filters with one Contains on `description_c` holding the trimmed term |
| TimeEntryService.SearchBlankListsAll | src/services/api/timeEntryService.js:576-578 | a term of only white space lists everything |
| TimeSummary.Groups | src/services/api/timeEntryService.js:543-559 | the reduction gives one group per distinct project key |
| TimeSummary.GroupsKeys | src/services/api/timeEntryService.js:544-552 | a group exists exactly for each project key some entry carries |
| TimeSummary.GroupsDates | src/services/api/timeEntryService.js:556 | each group collects the dates of exactly its own entries, in entry order |
| TimeSummary.GroupsOrder | src/services/api/timeEntryService.js:545-552 | groups are created in the order their keys first appear |
| TimeSummary.GroupsProjectId | src/services/api/timeEntryService.js:546-551 | a group's project id is the one of the first entry with its key |
| TimeSummary.GroupsTotal | src/services/api/timeEntryService.js:555 | the entry counts of the groups add up to the number of entries |
| TimeSummary.SortByIndex | src/services/api/timeEntryService.js:566 | integer-like keys are put in ascending numeric order, as a permutation |
| TimeSummary.ObjectValues | src/services/api/timeEntryService.js:566 | `Object.values` lists the integer-like keys first, then the others |
| TimeSummary.ObjectValuesPermutes | src/services/api/timeEntryService.js:566 | `Object.values` lists every group exactly once |
| TimeSummary.ObjectValuesOrder | src/services/api/timeEntryService.js:566 | the integer-like groups come first, in ascending order, followed by the named groups |
| TimeSummary.ObjectValuesIndexFirst | src/services/api/timeEntryService.js:566 | no named group comes before an integer-like group |
| TimeSummary.ObjectValuesNamedOrder | src/services/api/timeEntryService.js:566 | the named groups keep their insertion order |
| TimeSummary.InsertDate | src/services/api/timeEntryService.js:562 | inserting a date into a sorted list keeps it sorted and adds exactly that date |
| TimeSummary.SortDates | src/services/api/timeEntryService.js:562 | sorting gives a sorted permutation |
| TimeSummary.Finalize | src/services/api/timeEntryService.js:561-564 | finalising a group keeps its key, project id and entry count |
| TimeSummary.FinalizeDates | src/services/api/timeEntryService.js:562 | a group's final dates are sorted, without duplicates, and exactly the dates it collected |
| TimeSummary.Summary | src/services/api/timeEntryService.js:539-571 | the summary is empty when a key hits an inherited member; otherwise it has one group per distinct key, in property order |
| TimeSummary.SummaryGroupAt | src/services/api/timeEntryService.js:543-566 | each summary group holds its key's first project id, its entry count, and its entries' dates, sorted and de-duplicated |
| TimeSummary.SummaryCovers | src/services/api/timeEntryService.js:543-566 | every project key of the entries has a group in the summary |
| TimeSummary.SummaryIndexFirst | src/services/api/timeEntryService.js:566 | integer-like keys come before the others, in ascending order |
| TimeSummary.SummaryNamedOrder | src/services/api/timeEntryService.js:566 | a named key appears before each later key in first-appearance order |
| IssueService.Create | src/services/api/issueService.js:115-140 | the create record holds only the issue fields and the project id |
| IssueService.CreateCopies | src/services/api/issueService.js:119-131 | each issue field is sent exactly when the input has it, null included, with its input value |
| IssueService.CreateProject | src/services/api/issueService.js:132 | the project id is sent, parsed, exactly when it is truthy |
| IssueService.Update | src/services/api/issueService.js:185-211 | the update payload always carries the given `Id` |
| IssueService.UpdateIsCreateWithId | src/services/api/issueService.js:188-211 | the update payload is the create record plus `Id` |
| IssueService.CreateComment | src/services/api/issueService.js:448-467 | the comment record holds only the comment fields, the edit flag and the task and parent ids |
| IssueService.CreateCommentCopies | src/services/api/issueService.js:451-457 | each comment field is sent exactly when the input has it, with its input value |
| IssueService.CreateCommentEdited | src/services/api/issueService.js:458 | the edit flag is always sent, and is false unless the input's flag is truthy |
| IssueService.CreateCommentRefs | src/services/api/issueService.js:459-460 | the task and parent ids are sent, parsed, exactly when they are truthy |
| IssueService.UpdateComment | src/services/api/issueService.js:500-517 | the comment update holds only its id, the editable fields, the time, the mentions and the edit flag |
| IssueService.UpdateCommentEdited | src/services/api/issueService.js:510 | the edit flag is always true |
| IssueService.UpdateCommentStamped | src/services/api/issueService.js:508 | the update time is always the current time |
| IssueService.UpdateCommentId | src/services/api/issueService.js:503 | the update carries the comment id |
| IssueService.UpdateCommentCopies | src/services/api/issueService.js:504-509 | each editable field and the mentions are copied from the input |
| IssueService.UpdateCommentIgnoresStamps | src/services/api/issueService.js:502-511 | the input's own edit flag and time do not affect the update |
| IssueService.RecordIds | src/services/api/issueService.js:258 | a single id becomes a one-element list, and a list is used as it is |
| IssueService.Remove | src/services/api/issueService.js:256-289 | a removal answers true exactly when the call succeeded with a result list, at least one id was sent, and the successful records number the ids; removing no ids is false; for one id it is true exactly when one record succeeded |
| IssueService.FilterCondition | src/services/api/issueService.js:317-347 | a filter adds one EqualTo on its field exactly when its value is truthy |
| IssueService.SearchIssues | src/services/api/issueService.js:303-347 | the conditions are built unless the term is truthy and not text, which makes `trim` throw |
| IssueService.SearchIssuesOrder | src/services/api/issueService.js:305-347 | the conditions come in the fixed order title, status, priority, type, project, and no condition is on any other field |
| IssueService.SearchIssuesFields | src/services/api/issueService.js:305-347 | every condition of the search is on the title or on one of the four filter fields |
| IssueService.SearchIssuesFilter | src/services/api/issueService.js:317-347 | the condition on each filter field is exactly that filter's own condition |
| IssueService.SearchIssuesTitle | src/services/api/issueService.js:308-314 | a term that is not blank puts a Contains on the title, holding the trimmed term, first |
| IssueService.SearchIssuesTitleIff | src/services/api/issueService.js:308-314 | whatever the filters, there is a title condition exactly when the term is text that trims to something, and it is a Contains on the trimmed text; an absent, falsy or blank term gives none |
| IssueService.SearchIssuesNothing | src/services/api/issueService.js:305-314 | with no term or a blank one, and no filters, there are no conditions |
| IssueService.WordRun | src/services/api/issueService.js:584 | the longest run of word characters at the start of the text |
| IssueService.ExtractMentions | src/services/api/issueService.js:583-593 | every mention is a non-empty run of word characters |
| IssueService.ExtractMentionsAtEachAt | src/services/api/issueService.js:583-593 | the mentions are, in order, the word run after each "@" that has one, scanning on past each match |
| IssueService.ExtractMentionsBound | src/services/api/issueService.js:583-593 | there are never more mentions than "@" characters |
| FileService.CheckId | src/services/api/fileService.js:62-64 | an id passes exactly when it is a non-zero number, so NaN and every non-number fail; a failing id raises the kind's "Valid … ID is required" message |
| FileService.GetById | src/services/api/fileService.js:61-101 | a bad id raises before the store is read; a good id yields exactly the truthy data the store returned, and "File not found" when there is none or the store threw |
| FileService.FilesOf | src/services/api/fileService.js:105-134 | the task, project or comment lookup raises its id message for a bad id, and otherwise filters on that owner field with the id |
| FileService.UploadCheck | src/services/api/fileService.js:271-285 | the first failing check decides the error: data object, then numeric uploader, then a file with a name, then a task or project id |
| FileService.LastSegment | src/services/api/fileService.js:292 | the extension text is the longest dot-free tail of the name |
| FileService.PlainTail | src/services/api/fileService.js:293 | the longest tail with neither "." nor "/" |
| FileService.BaseNameIsRegexReplace | src/services/api/fileService.js:293 | the base name strips a final "." plus a non-empty tail free of "." and "/", and is the whole name when there is none |
| FileService.BaseDotExtension | src/services/api/fileService.js:292-293 | for a name with a plain extension, base, ".", and extension give the name back |
| FileService.NoDotName | src/services/api/fileService.js:292-293 | a name without a dot keeps its whole name as base and its lower-cased whole name as extension |
| FileService.CanPreviewIff | src/services/api/fileService.js:405-411 | a file can be previewed exactly when its type is one of the nine listed types |
| FileService.FileIcon | src/services/api/fileService.js:414-424 | each of the eight icons (Image, FileText, FileSpreadsheet, Presentation, Archive, Video, Music, and File as the default) is given exactly when its test holds and no earlier test does |
| FileService.FirstPassing | src/services/api/fileService.js:414-424 | the first row of a test table whose test holds, with none before it, or none when no test holds |
| FileService.FileIconIsTableIcon | src/services/api/fileService.js:414-424 | the chain of tests gives the icon of the first passing row of the icon table, and "File" when no row passes |
| FileService.OfficeSheetIsText | src/services/api/fileService.js:416-418 | the Office spreadsheet type gets the text icon, because "document" is tested first |
| FileService.GetVersions | src/services/api/fileService.js:394-402 | a non-empty text name yields no versions; anything else raises "Valid file name is required" |
| FileService.Delete | src/services/api/fileService.js:353-389 | deleting a file answers true exactly when some record deletion succeeded |
| FileService.Upload | src/services/api/fileService.js:270-316 | an upload raises exactly when a check fails or the name is not text, the first failing check's message first; otherwise the record has a URL and version 1 |
| FileService.UploadUrl | src/services/api/fileService.js:308 | the URL is `/uploads/{base}-v1.{ext}` |
| FileService.UploadVersion | src/services/api/fileService.js:306-307 | a new upload is version 1 and the latest |
| FileService.UploadPreview | src/services/api/fileService.js:309 | the preview URL is non-empty exactly when the type can be previewed |
| FileService.UploadOwners | src/services/api/fileService.js:310-312 | the task, project and comment ids are the truthy inputs or null |
| FileService.UploadResult | src/services/api/fileService.js:318-348 | a failed check is raised as it is, a thrown store call is raised, and otherwise the result is the first successful record's data |
| TeamMemberService.ConvOfFields | src/services/api/teamMemberService.js:45-60 | text fields take `String(x \|\| '')`, count fields `Number(x) \|\| 0`, the average time `parseFloat(x) \|\| 0`, and the start date passes through |
| TeamMemberService.PrepareKeys | src/services/api/teamMemberService.js:41-63 | a key is in the prepared data exactly when it is allow-listed and defined in the input |
| TeamMemberService.PrepareValue | src/services/api/teamMemberService.js:45-60 | each prepared value is its field's conversion of the input value |
| TeamMemberService.PrepareText | src/services/api/teamMemberService.js:45-60 | a text field becomes the string of a truthy value, and "" otherwise, so null becomes "" |
| TeamMemberService.PrepareCount | src/services/api/teamMemberService.js:55-58 | a count field becomes a number: itself for a number, 0 for a value that does not convert |
| TeamMemberService.PrepareOthers | src/services/api/teamMemberService.js:53-59 | the average time becomes a number, 0 when unparsable, and the start date is kept as it is |
| TeamMemberService.ConvertIdempotent | src/services/api/teamMemberService.js:45-60 | converting a field's converted value again changes nothing |
| TeamMemberService.PrepareIdempotent | src/services/api/teamMemberService.js:41-63 | preparing prepared data changes nothing |
| TeamMemberService.Create | src/services/api/teamMemberService.js:124-131 | the create record is the prepared data and never carries an `Id` |
| TeamMemberService.Update | src/services/api/teamMemberService.js:170-179 | a non-numeric id raises "Invalid team member ID"; otherwise the payload's `Id` is the parsed id |
| TeamMemberService.UpdateIsCreateWithId | src/services/api/teamMemberService.js:177-179 | the update payload is the prepared data plus the parsed `Id`, so the input cannot override the id |
| TeamMemberService.GetById | src/services/api/teamMemberService.js:95-120 | a non-numeric id or a failed read gives null, not an error; a successful read gives its data |
| TeamMemberService.DeleteById | src/services/api/teamMemberService.js:222-264 | a non-numeric id raises; otherwise the answer is true exactly when the call succeeded and no record failed, and a thrown call is raised |
| TeamMemberService.WhereEquals | src/services/api/teamMemberService.js:267-300 | the status and department lookups filter with one EqualTo on their field |
| TeamMemberService.Search | src/services/api/teamMemberService.js:339-392 | a text query ORs one Contains per searched field (`Name`, `email_c`, `role_c`, `department_c`) with the lower-cased query; anything else throws |
| TeamMemberService.SearchIgnoresCase | src/services/api/teamMemberService.js:342 | a query and its lower-cased form search alike |
| TeamMemberService.Amount | src/services/api/teamMemberService.js:446-449 | a member's workload or capacity counts as its number when truthy, and as 0 when falsy |
| TeamMemberService.WorkloadStats | src/services/api/teamMemberService.js:417-472 | a failed fetch gives all zeros; otherwise all members count in the total, overloaded members are among the active ones, and the average is 0 without active members and otherwise the active workload's mean rounded to the nearest integer |
| TeamMemberService.FilterActiveOverloaded | src/services/api/teamMemberService.js:444-450 | filtering the active members for overload is filtering all members for "active and overloaded" |
| TeamMemberService.OverloadedAreActive | src/services/api/teamMemberService.js:448-450 | the overloaded count is the number of active members whose workload exceeds their capacity |
| TeamMemberService.Utilization | src/services/api/teamMemberService.js:446-456 | utilisation is 0 when the total active capacity is not positive, and otherwise the workload's share of it rounded to the nearest percent |
| TeamMemberService.InactiveIgnored | src/services/api/teamMemberService.js:443-458 | adding a member that is not active raises the total by one and leaves every other figure unchanged |
| ChatService.Initial | src/services/api/chatService.js:5-23 | the mock starts with four channels with distinct ids, the counter at 5, and no reactions |
| ChatService.ChannelsByType | src/services/api/chatService.js:94-97 | the channels returned are exactly those of the type, "team" by default |
| ChatService.ChannelsByTypeOrder | src/services/api/chatService.js:94-97 | the channels keep their list order |
| ChatService.CreateChannel | src/services/api/chatService.js:99-112 | a new channel takes the counter as its id, the counter moves on by one, and the channel is appended with one member |
| ChatService.CreateChannelDefaults | src/services/api/chatService.js:101-109 | a falsy type is "team", a falsy project is null, and a falsy description is "" |
| ChatService.CreateChannelFresh | src/services/api/chatService.js:102 | the new id is not used by any existing channel |
| ChatService.CreateChannelTwice | src/services/api/chatService.js:102 | two creations give consecutive ids, appended in order |
| ChatService.AddMember | src/services/api/chatService.js:353-361 | the answer is true exactly when a channel has the parsed id; without one nothing changes |
| ChatService.AddMemberOnlyMatching | src/services/api/chatService.js:353-361 | only the first matching channel gains one member, and every other channel is unchanged |
| ChatService.AddMemberValid | src/services/api/chatService.js:353-361 | adding a member keeps the channel ids distinct |
| ChatService.AddReaction | src/services/api/chatService.js:363-374 | a reaction is appended with the parsed message and user ids, and the channels are untouched |
| ChatService.RemoveReaction | src/services/api/chatService.js:376-387 | the answer is always success, and the list shrinks by one exactly when a match exists |
| ChatService.RemoveReactionFirst | src/services/api/chatService.js:378-384 | the first match is removed and all other reactions stay in order; without a match nothing changes |
| ChatService.RemoveReactionCount | src/services/api/chatService.js:376-387 | the matching reactions decrease by one exactly when there was one |
| ChatService.AddThenRemove | src/services/api/chatService.js:363-387 | adding a reaction and then removing the same one leaves as many matching reactions as before |
| ChatService.GroupsKeys | src/services/api/chatService.js:389-407 | the groups have distinct emojis, and a group exists exactly for each emoji that has reactions |
| ChatService.GroupsUsers | src/services/api/chatService.js:389-407 | each group lists exactly the users of its emoji's reactions, in reaction order |
| ChatService.GroupsTotal | src/services/api/chatService.js:389-407 | the group counts add up to the number of reactions |
| ChatService.MessageReactions | src/services/api/chatService.js:389-407 | the grouping throws exactly when an emoji names an inherited member; otherwise each group's count is its users' length |
| ChatService.MessageReactionsCounts | src/services/api/chatService.js:389-407 | the counts sum to the message's reaction count, and no emoji has two groups |
| ChatService.MessageReactionsUsers | src/services/api/chatService.js:389-407 | each group lists the users of the message's reactions with that emoji |
| ChatService.ChannelConditions | src/services/api/chatService.js:116-139 | the channel-type condition always comes first, with "team" for an undefined type |
| ChatService.ChannelConditionsCases | src/services/api/chatService.js:116-139 | a project EqualTo is added exactly for type "project" with a truthy project, a DoesNotHaveValue exactly for type "team", and nothing otherwise |
| ChatService.ChannelConditionsDefault | src/services/api/chatService.js:114-139 | with no arguments the conditions ask for team channels without a project |
| ChatService.SearchMessages | src/services/api/chatService.js:410-420 | the messages kept are exactly those whose content contains the query, ignoring case, in order; a failed fetch or content that is not text gives none |
| ChatService.SearchIgnoresCase | src/services/api/chatService.js:414 | a query and its lower-cased form find the same messages |
| ChatService.SearchOrder | src/services/api/chatService.js:410-420 | the results keep the messages' order |
| ChatService.CreateMessage | src/services/api/chatService.js:196-204 | the message record holds its fixed fields, content only when given, and both time stamps equal to the current time |
| ChatService.CreateMessageAuthors | src/services/api/chatService.js:197-198 | with both author fields given, the name uses `author_id_c` and the field parses `authorId` |
| ChatService.CreateMessageDefaults | src/services/api/chatService.js:199-201 | a falsy project is null and a falsy channel type is "team" |
| ChatService.MessageView | src/services/api/chatService.js:231-238 | the returned message keeps every field of the created record and sets `content`, `authorId`, `projectId`, `channelType`, `createdAt` and `updatedAt` to their storage fields |
| ChatService.CreateOutcome | src/services/api/chatService.js:209-250 | a thrown call is raised and a failed call raises its message; a call without a successful record raises "No successful records created"; undefined or null data in the first successful record throws when `content_c` is read; otherwise the created record is returned with its own fields and the six frontend names copied from their storage fields |
| Dashboard.Compute | src/components/pages/Dashboard.jsx:41-54 | each counter is at most the size of its list, and due-today plus overdue is at most the number of tasks |
| Dashboard.DueTodayNotOverdue | src/components/pages/Dashboard.jsx:46-54 | no task is both due today and overdue |
| Dashboard.CountDueOverdue | src/components/pages/Dashboard.jsx:46-54 | the due-today and overdue counts together never exceed the number of tasks |
| Dashboard.ActiveProjectsSplit | src/components/pages/Dashboard.jsx:42-44 | active projects are the in-progress ones plus the planning ones |
| Dashboard.ActiveClientsSnoc | src/components/pages/Dashboard.jsx:41 | one more client adds one to the active count exactly when its status is "Active" |
| Dashboard.CompletedIgnored | src/components/pages/Dashboard.jsx:46-54 | a completed task changes neither the due-today nor the overdue count |
| Dashboard.Load | src/components/pages/Dashboard.jsx:29-69 | a failed load leaves the counters as they were; a successful one shows exactly the counters computed from the three fetched lists |
| TeamMemberCard.StatusBadge | src/components/molecules/TeamMemberCard.jsx:10-18 | Active and Away get their classes; an inherited property name yields that member; anything else gets the Inactive class |
| TeamMemberCard.StatusBadgeOfStatuses | src/components/molecules/TeamMemberCard.jsx:10-18 | the three known statuses, and no status, get the expected classes |
| TeamMemberCard.WorkloadColor | src/components/molecules/TeamMemberCard.jsx:20-25 | red from 100 percent, yellow from 80 percent, green below |
| TeamMemberCard.WorkloadBarColor | src/components/molecules/TeamMemberCard.jsx:27-32 | the bar uses the same three levels |
| TeamMemberCard.ColoursAgree | src/components/molecules/TeamMemberCard.jsx:20-32 | the text and the bar always show the same level |
| TeamMemberCard.LevelOfNumbers | src/components/molecules/TeamMemberCard.jsx:20-32 | with a positive capacity: red exactly when workload ≥ capacity, yellow exactly when 5·workload ≥ 4·capacity below that, green otherwise |
| TeamMemberCard.LevelWithoutCapacity | src/components/molecules/TeamMemberCard.jsx:20-32 | with a null or zero capacity, any positive workload is red and the rest green; with the capacity missing, the quotient is NaN and every workload is green |
| TeamMemberCard.BarWidth | src/components/molecules/TeamMemberCard.jsx:34 | the bar width never exceeds 100 percent |
| TeamMemberCard.BarWidthOfNumbers | src/components/molecules/TeamMemberCard.jsx:34 | the width is the workload's share of capacity, capped at 100, with a missing or zero capacity counted as 1 |
| TeamMemberCard.FullBarIsRed | src/components/molecules/TeamMemberCard.jsx:20-34 | with a positive capacity, the bar is full exactly when the colour is red |
| TeamMemberCard.Completion | src/components/molecules/TeamMemberCard.jsx:119 | the completion figure is 0 when there are no tasks |
| TeamMemberCard.CompletionOfNumbers | src/components/molecules/TeamMemberCard.jsx:119 | with tasks, it is the done share rounded to the nearest percent: 0 when none are done, 100 when all are |
| ProjectForm.Initial | src/components/molecules/ProjectForm.jsx:6-14 | the initial form has status "Planning" and every other field "" |
| ProjectForm.Prefill | src/components/molecules/ProjectForm.jsx:18-30 | without a project the form stays as it is; with one it has the initial form's fields |
| ProjectForm.PrefillFallbacks | src/components/molecules/ProjectForm.jsx:18-30 | each pre-filled field is the project's value when truthy and the initial value otherwise |
| ProjectForm.Validate | src/components/molecules/ProjectForm.jsx:32-56 | validation throws exactly when a trimmed field is not text; otherwise it reports exactly the failing required fields, each with its message |
| ProjectForm.ValidateFields | src/components/molecules/ProjectForm.jsx:32-52 | blank name, description or deliverables, and a falsy client or deadline, are each reported, and nothing else |
| ProjectForm.ValidateLocal | src/components/molecules/ProjectForm.jsx:32-56 | validation reads only the five required fields |
| ProjectForm.ValidateIgnoresStatus | src/components/molecules/ProjectForm.jsx:32-56 | the status and start date never produce an error and never change the result |
| ProjectForm.InitialErrors | src/components/molecules/ProjectForm.jsx:6-14 | submitting the initial form reports all five required fields |
| ProjectForm.HandleSubmit | src/components/molecules/ProjectForm.jsx:58-63 | the data goes to `onSubmit` exactly when validation found no error; otherwise the errors are shown, or `trim` throws |
| ProjectForm.FilledFormSubmits | src/components/molecules/ProjectForm.jsx:54-63 | a form whose required fields all hold something is submitted unchanged |
| ProjectForm.HandleChange | src/components/molecules/ProjectForm.jsx:65-78 | the named field takes the new value, and its error becomes "" when one was shown |
| ProjectForm.HandleChangeOnlyNamed | src/components/molecules/ProjectForm.jsx:65-78 | every other field and error is unchanged, and nothing is cleared when the field showed no error |
| ProjectForm.HandleChangeClears | src/components/molecules/ProjectForm.jsx:65-78 | editing a field the last validation flagged clears exactly that message |

## Left out

- The store client itself and its query semantics. A reply is a value, and where-clauses are lists of conditions that nothing evaluates.
- Toasts and console logging. They only report side effects.
- The `catch` blocks' logging. Where a catch turns an error into a return value, the model returns that value.
- `exportToCSV` in `timeEntryService.js`, which needs the DOM, `Blob` and a download.
- `formatFileSize` in `fileService.js`, which needs `Math.log` and `toFixed`.
- The activity-tracking wrappers around upload and delete in `fileService.js`. They call an activity service that is not part of this model.
- The chat service's `uploadFile`, which needs `URL.createObjectURL`.
- The chat service's thread mocks.
- The chat service's read, update and delete of messages, and the view mapping of fetched messages. They are store calls with no logic of their own beyond the result rules modelled in `Remote`.
- The `getAll` functions of every service. They are a store call returning `response.data || []`.
- Wall-clock values. The current time, today's date and `Date.now()` reaction ids are parameters.
- Values.ParseFloat: numbers are integers here, so `parseFloat` is modelled on the integer prefix; fractional durations and average times are not modelled.
- TimeSummary.Finalize: the `totalHours` sum and its rounding to two decimals are not modelled, because they are floating point.
- Values.RoundDiv: `Math.round` of a quotient is computed exactly on rationals rather than in binary floating point.
- Text.ToLower: only the ASCII letters are lower-cased.
- Text.StrLeTotal: strings are compared by code point, not by UTF-16 code unit.
- TeamMemberService.Amount: a truthy non-numeric workload counts as 0, whereas JavaScript's `+` would concatenate strings.
- ChatService.Groups: the groups are listed in first-seen order. JavaScript lists integer-like keys first, so for an emoji written as a non-negative integer the order of the groups differs; their contents do not.
- Values.ToNumber: only signed decimal integer text converts. `Number` of a fraction, hexadecimal, exponent or "Infinity" text is modelled as NaN, because numbers are integers here.
- TeamMemberService.PrepareCount: `Number(x) || 0` inherits the integer-only reading of `Number`, so count fields written as fractional, hexadecimal or exponent text become 0.
- ChatService.CreateOutcome: created data that is a string is taken to have no own fields; the index keys a string's spread would give are not modelled.
- Values.ParseInt: a number is assumed to be an integer already, and a string is read in base 10 only, which is all the code asks of it.
- TimeEntryService.GetById: `timeEntryService.js` imports a module named `Error` at its line 4, which shadows the global; the model takes `throw new Error("Time entry not found")` to raise that message.
- ProjectService.CheckId: under the same import in `projectService.js`, `throw new Error("Valid project ID is required")` is taken to raise that message.
- ProjectService.GetById: `projectService.js` imports a module named `Error` at its line 3, which shadows the global; the model takes `throw new Error(message)` to raise that message.
- IssueService.SearchIssues: a `null` filters argument, which would throw, is not modelled; the filters are a record.
- IssueService.ExtractMentions: the argument is a string. Applying the regular expression to another value is not modelled.
- The engine's text for a `TypeError`. A call that would throw one is modelled as throwing. Its message is a constant: `FileService.NameNotText` follows V8's wording and `ChatService.NoCreatedData` is the model's own. Neither is claimed to be the exact text a given engine produces.
- `issueService.js` declares `export default` twice, at lines 595 and 653. An ES module with two default exports is a syntax error, so as written the module does not load and none of its functions can run. The IssueService model describes the function bodies as they would run if one of the two export lists were kept. `extractMentions` (lines 583-593) is in neither export list and nothing calls it; it is modelled as the helper it is.
- `timeEntryService.js` has one closing brace too many: line 620 closes `searchEntries`, line 621 the class, and line 622 closes nothing. As written, the module is a syntax error and does not load. The TimeEntryService and TimeSummary models describe the method bodies as they would run once that brace is removed.
- `Dashboard.jsx` opens the "My Projects" conditional `{loading ? (` at line 205 and reaches `) : (` at line 215. The branch's `<div>` closes at line 222, and `</Card>` follows at line 223 without the closing `)}`, so the component is a JSX syntax error as written. The Dashboard model describes the data loading and counters, lines 29-69, as they would run once that parenthesis is closed; the markup is not modelled.
- The `Promise.all` fan-out in the dashboard. The three lists arrive together, or the load fails.
- React rendering, hooks and navigation.

=== FILE: chat.dfy ===
/** The chat service. Channels and reactions have no table of their own:
    they live in the service's memory, so they are a state record with
    transitions. Messages are records in the store; for them the model
    covers the fetch filter, the search over the fetched messages and the
    record `create` sends. */
module ChatService {
  import opened Text
  import opened Values
  import opened Remote
  import opened Filters
  import opened Seqs

  /** A channel. `name` may be undefined; the seeded channels have no
      `description`. */
  datatype Channel = Channel(id: int, name: Option<Value>, kind: Value, projectId: Value,
                             description: Option<Value>, createdAt: string, memberCount: int)

  /** A reaction; `messageId` and `userId` are parsed, so NaN is possible. */
  datatype Reaction = Reaction(id: int, messageId: Value, emoji: Value, userId: Value, createdAt: string)

  /** The service's memory: the channel list, the next channel id, the
      reaction list. */
  datatype Chat = Chat(channels: seq<Channel>, nextChannelId: int, reactions: seq<Reaction>)

  /** Channel ids increase along the list and stay below the counter, so
      no two channels share an id. */
  predicate Valid(st: Chat) {
    (forall i, j :: 0 <= i < j < |st.channels| ==> st.channels[i].id < st.channels[j].id)
    && (forall i :: 0 <= i < |st.channels| ==> st.channels[i].id < st.nextChannelId)
  }

  /** The state after construction: four seeded channels, ids 1 to 4, and
      the counter at 5. `now` is the construction time. */
  function Initial(now: string): (st: Chat)
    ensures Valid(st)
    ensures |st.channels| == 4 && st.nextChannelId == 5 && st.reactions == []
  {
    Chat([Channel(1, Some(VStr("Team Chat")), VStr("team"), VNull, None, now, 5),
          Channel(2, Some(VStr("E-commerce Platform")), VStr("project"), VNum(1), None, now, 3),
          Channel(3, Some(VStr("Mobile App Dev")), VStr("project"), VNum(2), None, now, 2),
          Channel(4, Some(VStr("Marketing Website")), VStr("project"), VNum(3), None, now, 2)],
         5, [])
  }

  /** `channel.type === channelType`, as a filter. */
  function OfType(t: Value): Channel -> bool {
    (c: Channel) => StrictEq(c.kind, t)
  }

  /** `getChannelsByType`: the type defaults to "team" when undefined. */
  function ChannelsByType(st: Chat, channelType: Option<Value>): (r: seq<Channel>)
    ensures var t := if channelType.Some? then channelType.value else VStr("team");
            forall c :: c in r <==> c in st.channels && StrictEq(c.kind, t)
  {
    var t := if channelType.Some? then channelType.value else VStr("team");
    FilterMembers(st.channels, OfType(t));
    Filter(st.channels, OfType(t))
  }

  /** The channels of a type keep their list order. */
  lemma ChannelsByTypeOrder(st: Chat, t: Value, i: int, j: int) returns (a: nat, b: nat)
    requires 0 <= i < j < |ChannelsByType(st, Some(t))|
    ensures a < b < |st.channels|
    ensures st.channels[a] == ChannelsByType(st, Some(t))[i]
    ensures st.channels[b] == ChannelsByType(st, Some(t))[j]
  {
    a, b := FilterIndices(st.channels, OfType(t), i, j);
  }

  /** `createChannel`: the channel takes the counter's value, which then
      moves on; the channel is appended. */
  function CreateChannel(st: Chat, data: Record, now: string): (res: (Chat, Channel))
    ensures res.1.id == st.nextChannelId && res.0.nextChannelId == st.nextChannelId + 1
    ensures res.0.channels == st.channels + [res.1] && res.0.reactions == st.reactions
    ensures res.1.memberCount == 1 && res.1.createdAt == now && res.1.name == Get(data, "name")
    ensures Valid(st) ==> Valid(res.0)
  {
    var c := Channel(st.nextChannelId, Get(data, "name"), OrElse(Get(data, "type"), VStr("team")),
                     OrElse(Get(data, "projectId"), VNull), Some(OrElse(Get(data, "description"), VStr(""))),
                     now, 1);
    (Chat(st.channels + [c], st.nextChannelId + 1, st.reactions), c)
  }

  /** The defaults of a new channel: type "team", project null and
      description "" stand in for falsy values. */
  lemma CreateChannelDefaults(st: Chat, data: Record, now: string)
    ensures var c := CreateChannel(st, data, now).1;
            (c.kind == if TruthyAt(data, "type") then data["type"] else VStr("team")) &&
            (c.projectId == if TruthyAt(data, "projectId") then data["projectId"] else VNull) &&
            (c.description == Some(if TruthyAt(data, "description") then data["description"] else VStr("")))
  {
  }

  /** A new channel's id differs from every earlier one. */
  lemma CreateChannelFresh(st: Chat, data: Record, now: string)
    requires Valid(st)
    ensures forall c :: c in st.channels ==> c.id != CreateChannel(st, data, now).1.id
  {
  }

  /** Two channels created in a row get consecutive ids. */
  lemma CreateChannelTwice(st: Chat, d1: Record, d2: Record, now: string)
    ensures var (s1, c1) := CreateChannel(st, d1, now);
            var (s2, c2) := CreateChannel(s1, d2, now);
            c2.id == c1.id + 1 && s2.channels == st.channels + [c1, c2]
  {
  }

  /** The position of the first channel whose id is `id` (`===`). */
  function FindChannel(cs: seq<Channel>, id: Value): (o: Option<nat>)
    ensures o.Some? ==> o.value < |cs| && StrictEq(VNum(cs[o.value].id), id)
    ensures o.Some? ==> forall k :: 0 <= k < o.value ==> !StrictEq(VNum(cs[k].id), id)
    ensures o.None? ==> forall k :: 0 <= k < |cs| ==> !StrictEq(VNum(cs[k].id), id)
  {
    if |cs| == 0 then None
    else if StrictEq(VNum(cs[0].id), id) then Some(0)
    else
      match FindChannel(cs[1..], id)
      case None => None
      case Some(k) => Some(k + 1)
  }

  /** `addMemberToChannel`: the channel whose id is `parseInt(channelId)`
      gets one more member and the call answers true; without such a
      channel nothing changes and it answers false. */
  function AddMember(st: Chat, channelId: Value): (res: (Chat, bool))
    ensures res.1 <==> exists k :: 0 <= k < |st.channels| && StrictEq(VNum(st.channels[k].id), ParseInt(channelId))
    ensures !res.1 ==> res.0 == st
    ensures res.0.nextChannelId == st.nextChannelId && res.0.reactions == st.reactions
    ensures |res.0.channels| == |st.channels|
    ensures forall k :: 0 <= k < |st.channels| ==> res.0.channels[k].id == st.channels[k].id
  {
    match FindChannel(st.channels, ParseInt(channelId))
    case None => (st, false)
    case Some(i) =>
      var c := st.channels[i];
      (st.(channels := st.channels[i := c.(memberCount := c.memberCount + 1)]), true)
  }

  /** In a valid state only the matching channel changes, by one member. */
  lemma AddMemberOnlyMatching(st: Chat, channelId: Value, k: int)
    requires Valid(st) && 0 <= k < |st.channels|
    ensures var c := AddMember(st, channelId).0.channels[k];
            if StrictEq(VNum(st.channels[k].id), ParseInt(channelId))
            then c == st.channels[k].(memberCount := st.channels[k].memberCount + 1)
            else c == st.channels[k]
  {
    match FindChannel(st.channels, ParseInt(channelId))
    case None =>
    case Some(i) =>
      if StrictEq(VNum(st.channels[k].id), ParseInt(channelId)) {
        assert st.channels[k].id == st.channels[i].id;
        assert k == i;
      }
  }

  /** Adding a member keeps the ids valid. */
  lemma AddMemberValid(st: Chat, channelId: Value)
    requires Valid(st)
    ensures Valid(AddMember(st, channelId).0)
  {
  }

  /** `addReaction`: the reaction, with parsed ids, is appended. `stamp` is
      `Date.now()`, used as its id, and `now` its time. */
  function AddReaction(st: Chat, messageId: Value, emoji: Value, userId: Value, stamp: int, now: string)
    : (res: (Chat, Reaction))
    ensures res.0.reactions == st.reactions + [res.1]
    ensures res.0.channels == st.channels && res.0.nextChannelId == st.nextChannelId
    ensures res.1.messageId == ParseInt(messageId) && res.1.userId == ParseInt(userId)
    ensures res.1.emoji == emoji && res.1.id == stamp
  {
    var r := Reaction(stamp, ParseInt(messageId), emoji, ParseInt(userId), now);
    (st.(reactions := st.reactions + [r]), r)
  }

  /** The `findIndex` test of `removeReaction`. */
  predicate Matches(r: Reaction, messageId: Value, emoji: Value, userId: Value) {
    StrictEq(r.messageId, ParseInt(messageId)) && StrictEq(r.emoji, emoji)
    && StrictEq(r.userId, ParseInt(userId))
  }

  function MatchOf(messageId: Value, emoji: Value, userId: Value): Reaction -> bool {
    (r: Reaction) => Matches(r, messageId, emoji, userId)
  }

  function FindReaction(rs: seq<Reaction>, messageId: Value, emoji: Value, userId: Value): (o: Option<nat>)
    ensures o.Some? ==> o.value < |rs| && Matches(rs[o.value], messageId, emoji, userId)
    ensures o.Some? ==> forall k :: 0 <= k < o.value ==> !Matches(rs[k], messageId, emoji, userId)
    ensures o.None? ==> forall k :: 0 <= k < |rs| ==> !Matches(rs[k], messageId, emoji, userId)
  {
    if |rs| == 0 then None
    else if Matches(rs[0], messageId, emoji, userId) then Some(0)
    else
      match FindReaction(rs[1..], messageId, emoji, userId)
      case None => None
      case Some(k) => Some(k + 1)
  }

  /** `removeReaction`: the first matching reaction is spliced out; the
      answer is success whether or not one was found. */
  function RemoveReaction(st: Chat, messageId: Value, emoji: Value, userId: Value): (res: (Chat, bool))
    ensures res.1
    ensures res.0.channels == st.channels && res.0.nextChannelId == st.nextChannelId
    ensures |res.0.reactions| == |st.reactions| - (if FindReaction(st.reactions, messageId, emoji, userId).Some? then 1 else 0)
  {
    match FindReaction(st.reactions, messageId, emoji, userId)
    case None => (st, true)
    case Some(i) => (st.(reactions := st.reactions[..i] + st.reactions[i + 1..]), true)
  }

  /** Removal takes out one matching reaction, the first, and keeps the
      others in order; without a match nothing changes. */
  lemma RemoveReactionFirst(st: Chat, messageId: Value, emoji: Value, userId: Value)
    ensures var rs := st.reactions;
            var rs' := RemoveReaction(st, messageId, emoji, userId).0.reactions;
            (forall k :: 0 <= k < |rs| ==> !Matches(rs[k], messageId, emoji, userId)) ==> rs' == rs
    ensures var rs := st.reactions;
            var rs' := RemoveReaction(st, messageId, emoji, userId).0.reactions;
            forall i :: 0 <= i < |rs| && Matches(rs[i], messageId, emoji, userId) &&
                        (forall k :: 0 <= k < i ==> !Matches(rs[k], messageId, emoji, userId)) ==>
                        rs' == rs[..i] + rs[i + 1..]
  {
    var o := FindReaction(st.reactions, messageId, emoji, userId);
    if o.Some? {
      forall i | 0 <= i < |st.reactions| && Matches(st.reactions[i], messageId, emoji, userId) &&
                 (forall k :: 0 <= k < i ==> !Matches(st.reactions[k], messageId, emoji, userId))
        ensures i == o.value
      {
      }
    }
  }

  /** Removal leaves every other reaction where it was, as a multiset: the
      matching reactions drop by one when there was one. */
  lemma RemoveReactionCount(st: Chat, messageId: Value, emoji: Value, userId: Value)
    ensures var rs := st.reactions;
            var rs' := RemoveReaction(st, messageId, emoji, userId).0.reactions;
            Count(rs', MatchOf(messageId, emoji, userId)) ==
              Count(rs, MatchOf(messageId, emoji, userId)) -
              (if FindReaction(rs, messageId, emoji, userId).Some? then 1 else 0)
  {
    var rs := st.reactions;
    var f := MatchOf(messageId, emoji, userId);
    match FindReaction(rs, messageId, emoji, userId)
    case None =>
    case Some(i) =>
      assert rs == rs[..i] + [rs[i]] + rs[i + 1..];
      FilterAppend(rs[..i] + [rs[i]], rs[i + 1..], f);
      FilterAppend(rs[..i], [rs[i]], f);
      FilterAppend(rs[..i], rs[i + 1..], f);
  }

  /** Removing a reaction just added by the same user (with numeric ids)
      gives back a list with as many matching reactions as before. */
  lemma AddThenRemove(st: Chat, m: int, emoji: Value, u: int, stamp: int, now: string)
    requires !emoji.VNaN? && !emoji.VObj?
    ensures var s1 := AddReaction(st, VNum(m), emoji, VNum(u), stamp, now).0;
            var s2 := RemoveReaction(s1, VNum(m), emoji, VNum(u)).0;
            Count(s2.reactions, MatchOf(VNum(m), emoji, VNum(u))) ==
              Count(st.reactions, MatchOf(VNum(m), emoji, VNum(u)))
  {
    var (s1, r) := AddReaction(st, VNum(m), emoji, VNum(u), stamp, now);
    var f := MatchOf(VNum(m), emoji, VNum(u));
    assert Matches(r, VNum(m), emoji, VNum(u));
    assert FindReaction(s1.reactions, VNum(m), emoji, VNum(u)).Some? by {
      assert s1.reactions[|st.reactions|] == r;
    }
    RemoveReactionCount(s1, VNum(m), emoji, VNum(u));
    FilterAppend(st.reactions, [r], f);
  }

  /** One entry of `getMessageReactions`: an emoji, how many reacted with
      it, and who, in reaction order. */
  datatype ReactionGroup = ReactionGroup(emoji: Value, count: nat, users: seq<Value>)

  /** `grouped[reaction.emoji]` uses the emoji as a property name. */
  function KeyOf(r: Reaction): string {
    ToStr(r.emoji)
  }

  function GroupKey(g: ReactionGroup): string {
    ToStr(g.emoji)
  }

  function GroupIndex(gs: seq<ReactionGroup>, k: string): (o: Option<nat>)
    ensures o.Some? ==> o.value < |gs| && GroupKey(gs[o.value]) == k
    ensures o.None? ==> forall i :: 0 <= i < |gs| ==> GroupKey(gs[i]) != k
  {
    if |gs| == 0 then None
    else if GroupKey(gs[|gs| - 1]) == k then Some(|gs| - 1)
    else GroupIndex(gs[..|gs| - 1], k)
  }

  /** One step of the `forEach`: open a group on an emoji's first reaction,
      then count the reaction and push its user. */
  function AddToGroups(gs: seq<ReactionGroup>, r: Reaction): (out: seq<ReactionGroup>)
    ensures |out| == |gs| || |out| == |gs| + 1
    ensures forall i :: 0 <= i < |gs| && gs[i].count == |gs[i].users| ==> out[i].count == |out[i].users|
    ensures |out| == |gs| ==> GroupIndex(gs, KeyOf(r)).Some?
    ensures |out| > |gs| ==> out[|gs|].count == |out[|gs|].users|
  {
    match GroupIndex(gs, KeyOf(r))
    case None => gs + [ReactionGroup(r.emoji, 1, [r.userId])]
    case Some(i) => gs[i := gs[i].(count := gs[i].count + 1, users := gs[i].users + [r.userId])]
  }

  /** The groups of a reaction list, in the order they were opened; each
      counts its users. */
  function Groups(rs: seq<Reaction>): (gs: seq<ReactionGroup>)
    ensures forall i :: 0 <= i < |gs| ==> gs[i].count == |gs[i].users|
  {
    if |rs| == 0 then []
    else
      var prev := Groups(rs[..|rs| - 1]);
      var out := AddToGroups(prev, rs[|rs| - 1]);
      assert |out| == |prev| || |out| == |prev| + 1;
      out
  }

  /** The users who reacted with key `k`, in reaction order. */
  function UsersFor(rs: seq<Reaction>, k: string): (us: seq<Value>)
    ensures |us| <= |rs|
  {
    if |rs| == 0 then []
    else
      var last := rs[|rs| - 1];
      UsersFor(rs[..|rs| - 1], k) + (if KeyOf(last) == k then [last.userId] else [])
  }

  predicate DistinctGroupKeys(gs: seq<ReactionGroup>) {
    forall i, j :: 0 <= i < j < |gs| ==> GroupKey(gs[i]) != GroupKey(gs[j])
  }

  predicate HasGroup(gs: seq<ReactionGroup>, k: string) {
    GroupIndex(gs, k).Some?
  }

  /** A step opens at most one group, under the reaction's key. */
  lemma AddToGroupsKeys(gs: seq<ReactionGroup>, r: Reaction)
    requires DistinctGroupKeys(gs)
    ensures DistinctGroupKeys(AddToGroups(gs, r))
    ensures forall k :: HasGroup(AddToGroups(gs, r), k) <==> HasGroup(gs, k) || k == KeyOf(r)
  {
    var out := AddToGroups(gs, r);
    match GroupIndex(gs, KeyOf(r))
    case None =>
      assert GroupKey(out[|gs|]) == KeyOf(r);
      forall k ensures HasGroup(out, k) <==> HasGroup(gs, k) || k == KeyOf(r) {
        if HasGroup(gs, k) {
          var i := GroupIndex(gs, k).value;
          assert GroupKey(out[i]) == k;
        }
        if HasGroup(out, k) && k != KeyOf(r) {
          var i := GroupIndex(out, k).value;
          assert i < |gs| && GroupKey(gs[i]) == k;
        }
      }
    case Some(i) =>
      assert forall m :: 0 <= m < |out| ==> GroupKey(out[m]) == GroupKey(gs[m]);
      forall k ensures HasGroup(out, k) <==> HasGroup(gs, k) || k == KeyOf(r) {
        if HasGroup(gs, k) {
          var m := GroupIndex(gs, k).value;
          assert GroupKey(out[m]) == k;
        }
        if HasGroup(out, k) {
          var m := GroupIndex(out, k).value;
          assert GroupKey(gs[m]) == k;
        }
      }
  }

  /** There is one group per key, and a group exactly for the keys some
      reaction carries. */
  lemma {:induction false} GroupsKeys(rs: seq<Reaction>)
    ensures DistinctGroupKeys(Groups(rs))
    ensures forall k :: HasGroup(Groups(rs), k) <==> UsersFor(rs, k) != []
  {
    if |rs| > 0 {
      var init := rs[..|rs| - 1];
      GroupsKeys(init);
      AddToGroupsKeys(Groups(init), rs[|rs| - 1]);
    }
  }

  /** Each group lists the users of its key's reactions, in order. */
  lemma {:induction false} GroupsUsers(rs: seq<Reaction>)
    ensures forall i :: 0 <= i < |Groups(rs)| ==> Groups(rs)[i].users == UsersFor(rs, GroupKey(Groups(rs)[i]))
  {
    if |rs| > 0 {
      var init := rs[..|rs| - 1];
      var r := rs[|rs| - 1];
      var prev := Groups(init);
      var gs := Groups(rs);
      var k := KeyOf(r);
      GroupsUsers(init);
      GroupsKeys(init);
      assert gs == AddToGroups(prev, r);
      match GroupIndex(prev, k)
      case None =>
        assert !HasGroup(prev, k);
        assert UsersFor(init, k) == [];
        assert gs == prev + [ReactionGroup(r.emoji, 1, [r.userId])];
      case Some(i) =>
        assert forall m :: 0 <= m < |gs| && m != i ==> gs[m] == prev[m] && GroupKey(prev[m]) != k;
    }
  }

  /** The reactions counted over all groups. */
  function TotalCount(gs: seq<ReactionGroup>): nat {
    if |gs| == 0 then 0 else TotalCount(gs[..|gs| - 1]) + gs[|gs| - 1].count
  }

  lemma {:induction false} TotalCountUpdate(gs: seq<ReactionGroup>, i: int, g: ReactionGroup)
    requires 0 <= i < |gs|
    ensures TotalCount(gs[i := g]) == TotalCount(gs) - gs[i].count + g.count
    decreases |gs|
  {
    var n := |gs| - 1;
    if i < n {
      assert gs[i := g][..n] == gs[..n][i := g];
      TotalCountUpdate(gs[..n], i, g);
    } else {
      assert gs[i := g][..n] == gs[..n];
    }
  }

  /** Every reaction is counted in exactly one group. */
  lemma {:induction false} GroupsTotal(rs: seq<Reaction>)
    ensures TotalCount(Groups(rs)) == |rs|
  {
    if |rs| > 0 {
      var init := rs[..|rs| - 1];
      var r := rs[|rs| - 1];
      var prev := Groups(init);
      GroupsTotal(init);
      match GroupIndex(prev, KeyOf(r))
      case None =>
        assert AddToGroups(prev, r)[..|prev|] == prev;
      case Some(i) =>
        TotalCountUpdate(prev, i, AddToGroups(prev, r)[i]);
    }
  }

  /** `r.messageId === parseInt(messageId)`, as a filter. */
  function OnMessage(messageId: Value): Reaction -> bool {
    (r: Reaction) => StrictEq(r.messageId, ParseInt(messageId))
  }

  /** Some reaction's emoji is an inherited property name: the lookup
      finds a truthy inherited value, not a group, and the `users.push`
      on it throws. */
  predicate HitsInherited(rs: seq<Reaction>) {
    exists i :: 0 <= i < |rs| && KeyOf(rs[i]) in InheritedNames
  }

  /** `getMessageReactions`: the message's reactions grouped by emoji, or
      `None` when the grouping throws. */
  function MessageReactions(st: Chat, messageId: Value): (r: Option<seq<ReactionGroup>>)
    ensures r.None? <==> HitsInherited(Filter(st.reactions, OnMessage(messageId)))
  {
    var rs := Filter(st.reactions, OnMessage(messageId));
    if HitsInherited(rs) then None else Some(Groups(rs))
  }

  /** The group counts add up to the message's reactions, each group
      counts the users it lists, and no emoji has two groups. */
  lemma MessageReactionsCounts(st: Chat, messageId: Value)
    requires MessageReactions(st, messageId).Some?
    ensures var gs := MessageReactions(st, messageId).value;
            TotalCount(gs) == Count(st.reactions, OnMessage(messageId)) && DistinctGroupKeys(gs)
    ensures var gs := MessageReactions(st, messageId).value;
            forall i :: 0 <= i < |gs| ==> gs[i].count == |gs[i].users|
  {
    GroupsTotal(Filter(st.reactions, OnMessage(messageId)));
    GroupsKeys(Filter(st.reactions, OnMessage(messageId)));
  }

  /** Each group lists, in order, the users who reacted to the message
      with that emoji. */
  lemma MessageReactionsUsers(st: Chat, messageId: Value, i: int)
    requires MessageReactions(st, messageId).Some? && 0 <= i < |MessageReactions(st, messageId).value|
    ensures var g := MessageReactions(st, messageId).value[i];
            g.users == UsersFor(Filter(st.reactions, OnMessage(messageId)), GroupKey(g))
  {
    GroupsUsers(Filter(st.reactions, OnMessage(messageId)));
  }

  /** The conditions of `getMessagesByChannel`. Both parameters default
      when undefined: the project to null, the type to "team". */
  function ChannelConditions(projectId: Option<Value>, channelType: Option<Value>): (cs: seq<Condition>)
    ensures var t := if channelType.Some? then channelType.value else VStr("team");
            1 <= |cs| <= 2 && cs[0] == Condition("channel_type_c", EqualTo, [t])
  {
    var t := if channelType.Some? then channelType.value else VStr("team");
    var p := if projectId.Some? then projectId.value else VNull;
    [Condition("channel_type_c", EqualTo, [t])] +
    (if StrictEq(t, VStr("project")) && Truthy(p) then [Condition("project_id_c", EqualTo, [ParseInt(p)])]
     else if StrictEq(t, VStr("team")) then [Condition("project_id_c", DoesNotHaveValue, [])]
     else [])
  }

  /** A project condition is added only for a project channel with a
      project (an equality on the parsed id) or for a team channel (no
      project at all); any other type filters on the type alone. */
  lemma ChannelConditionsCases(projectId: Option<Value>, channelType: Value)
    ensures var cs := ChannelConditions(projectId, Some(channelType));
            (|cs| == 2 && cs[1].op == EqualTo) <==> channelType == VStr("project") && TruthyOpt(projectId)
    ensures var cs := ChannelConditions(projectId, Some(channelType));
            (|cs| == 2 && cs[1].op == DoesNotHaveValue) <==> channelType == VStr("team")
    ensures var cs := ChannelConditions(projectId, Some(channelType));
            |cs| == 2 ==> cs[1].field == "project_id_c"
    ensures var cs := ChannelConditions(projectId, Some(channelType));
            |cs| == 2 && cs[1].op == EqualTo ==> cs[1].values == [ParseInt(projectId.value)]
  {
  }

  /** The defaults: no arguments fetch the team channel's messages, those
      without a project. */
  lemma ChannelConditionsDefault()
    ensures ChannelConditions(None, None) ==
      [Condition("channel_type_c", EqualTo, [VStr("team")]), Condition("project_id_c", DoesNotHaveValue, [])]
  {
  }

  /** A message's `content` (its `content_c`) as text, when it is text. */
  predicate HasTextContent(m: Record) {
    "content_c" in m && m["content_c"].VStr?
  }

  /** `content.toLowerCase().includes(query.toLowerCase())`. */
  predicate MentionsQuery(m: Record, q: string)
    requires HasTextContent(m)
  {
    Text.Contains(ToLower(m["content_c"].s), ToLower(q))
  }

  function QueryFilter(q: string): Record -> bool {
    (m: Record) => HasTextContent(m) && MentionsQuery(m, q)
  }

  /** `searchMessages` over the fetched messages (`None` when the fetch
      threw). A message whose content is not text, or a query that is not
      text, makes `toLowerCase` throw inside the filter, and the error is
      caught: the result is empty. */
  function SearchMessages(fetched: Option<seq<Record>>, query: Value): (r: seq<Record>)
    ensures fetched.None? ==> r == []
    ensures fetched.Some? && (exists i :: 0 <= i < |fetched.value| && !HasTextContent(fetched.value[i])) ==> r == []
    ensures fetched.Some? && query.VStr? && (forall i :: 0 <= i < |fetched.value| ==> HasTextContent(fetched.value[i])) ==>
      forall m :: m in r <==> m in fetched.value && MentionsQuery(m, query.s)
  {
    match fetched
    case None => []
    case Some(ms) =>
      if exists i :: 0 <= i < |ms| && !HasTextContent(ms[i]) then []
      else if !query.VStr? then []
      else
        FilterMembers(ms, QueryFilter(query.s));
        Filter(ms, QueryFilter(query.s))
  }

  /** The search is case-insensitive in its query. */
  lemma SearchIgnoresCase(fetched: Option<seq<Record>>, q: string)
    ensures SearchMessages(fetched, VStr(q)) == SearchMessages(fetched, VStr(ToLower(q)))
  {
    ToLowerIdempotent(q);
    if fetched.Some? {
      FilterAgree(fetched.value, QueryFilter(q), QueryFilter(ToLower(q)));
    }
  }

  /** The searched messages keep their order. */
  lemma SearchOrder(ms: seq<Record>, q: string, i: int, j: int) returns (a: nat, b: nat)
    requires forall k :: 0 <= k < |ms| ==> HasTextContent(ms[k])
    requires 0 <= i < j < |SearchMessages(Some(ms), VStr(q))|
    ensures a < b < |ms|
    ensures ms[a] == SearchMessages(Some(ms), VStr(q))[i] && ms[b] == SearchMessages(Some(ms), VStr(q))[j]
  {
    a, b := FilterIndices(ms, QueryFilter(q), i, j);
  }

  /** The record `create` sends. The author appears twice with opposite
      precedence: the name prefers `author_id_c`, the field `authorId`. An
      undefined `content` is left out. `now` is the current time. */
  function CreateMessage(d: Record, now: string): (r: Record)
    ensures r.Keys == {"Name", "author_id_c", "project_id_c", "channel_type_c", "created_at_c", "updated_at_c"}
                      + (if "content" in d then {"content_c"} else {})
    ensures r["created_at_c"] == r["updated_at_c"] == VStr(now)
    ensures "content" in d ==> r["content_c"] == d["content"]
  {
    var author := Or(Get(d, "author_id_c"), Get(d, "authorId"));
    var base := map[
      "Name" := VStr("Message from " + ToStrOpt(author)),
      "author_id_c" := ParseIntOpt(Or(Get(d, "authorId"), Get(d, "author_id_c"))),
      "project_id_c" := if TruthyAt(d, "projectId") then ParseInt(d["projectId"]) else VNull,
      "channel_type_c" := OrElse(Get(d, "channelType"), VStr("team")),
      "created_at_c" := VStr(now),
      "updated_at_c" := VStr(now)];
    if "content" in d then base["content_c" := d["content"]] else base
  }

  /** With both author keys truthy, the name quotes `author_id_c` while the
      field parses `authorId`. */
  lemma CreateMessageAuthors(d: Record, now: string)
    requires TruthyAt(d, "author_id_c") && TruthyAt(d, "authorId")
    ensures CreateMessage(d, now)["Name"] == VStr("Message from " + ToStr(d["author_id_c"]))
    ensures CreateMessage(d, now)["author_id_c"] == ParseInt(d["authorId"])
  {
  }

  /** The project is parsed when truthy and null otherwise; the type
      defaults to "team". */
  lemma CreateMessageDefaults(d: Record, now: string)
    ensures CreateMessage(d, now)["project_id_c"] ==
      if TruthyAt(d, "projectId") then ParseInt(d["projectId"]) else VNull
    ensures CreateMessage(d, now)["channel_type_c"] ==
      if TruthyAt(d, "channelType") then d["channelType"] else VStr("team")
  {
  }

  const NoneCreated := "No successful records created"

  /** The message of the `TypeError` reading `content_c` from undefined or
      null data raises. */
  const NoCreatedData := "Cannot read properties of undefined or null (reading 'content_c')"

  /** The frontend names `create` adds to the created record, each with the
      storage field it copies. */
  const MessageAliases: map<string, string> := map[
    "content" := "content_c", "authorId" := "author_id_c", "projectId" := "project_id_c",
    "channelType" := "channel_type_c", "createdAt" := "created_at_c", "updatedAt" := "updated_at_c"]

  /** `{...m, content: m.content_c, ...}`: the record's own fields, with
      each frontend name set to its storage field (undefined when that is
      missing). */
  function MessageView(m: Record): (v: Record)
    ensures forall a :: a in MessageAliases ==> Get(v, a) == Get(m, MessageAliases[a])
    ensures forall k :: k in m && k !in MessageAliases ==> k in v && v[k] == m[k]
    ensures v.Keys <= m.Keys + MessageAliases.Keys
  {
    var spread := map k | k in m && k !in MessageAliases :: m[k];
    var aliased := map a | a in MessageAliases && MessageAliases[a] in m :: m[MessageAliases[a]];
    spread + aliased
  }

  /** The object `create` returns for the first successful record's data:
      the frontend view of an object; a primitive other than undefined or
      null has no own fields to spread and no `content_c`. */
  function CreatedView(data: Value): Record {
    if data.VObj? then MessageView(data.fields) else map[]
  }

  /** The outcome of `create`: a throw or a failed call rethrows; without a
      successful record the call raises; undefined or null data throws when
      `content_c` is read; otherwise the created record is returned with its
      frontend names. */
  function CreateOutcome(reply: Reply): (r: Outcome<Record>)
    ensures reply.Threw? ==> r == Raise(reply.error)
    ensures reply.Got? && !reply.resp.success ==> r == Raise(ToStr(reply.resp.message))
    ensures r.Ok? <==> WriteResult(reply).Some? && !WriteResult(reply).value.VNull?
    ensures r.Ok? && WriteResult(reply).value.VObj? ==>
      var m := WriteResult(reply).value.fields;
      (forall a :: a in MessageAliases ==> Get(r.value, a) == Get(m, MessageAliases[a]))
      && (forall k :: k in m && k !in MessageAliases ==> k in r.value && r.value[k] == m[k])
    ensures reply.Got? && reply.resp.success && !(HasResults(reply) && FirstSuccess(ResultsOf(reply)).Some?) ==>
      r == Raise(NoneCreated)
    ensures HasResults(reply) && FirstSuccess(ResultsOf(reply)).Some? && WriteResult(reply) in {None, Some(VNull)} ==>
      r == Raise(NoCreatedData)
  {
    match reply
    case Threw(e) => Raise(e)
    case Got(resp) =>
      if !resp.success then Raise(ToStr(resp.message))
      else if resp.results.Some? && FirstSuccess(resp.results.value).Some? then
        match WriteResult(reply)
        case None => Raise(NoCreatedData)
        case Some(data) => if data.VNull? then Raise(NoCreatedData) else Ok(CreatedView(data))
      else Raise(NoneCreated)
  }
}

=== FILE: client.dfy ===
/** The client service: the id guard of `getById`, the projects of a
    client, and the records `create` and `update` send. */
module ClientService {
  import opened Values
  import opened Payload
  import opened Remote
  import opened Seqs

  const MissingId := "Client ID is required"
  const NotFound := "Client not found"

  /** `getById`: a falsy id raises before the store is asked; otherwise the
      record, or "Client not found" when it is missing or the store throws.
      `reply` is the store's answer for `parseInt(id)`. */
  function GetById(id: Value, reply: Reply): (r: Outcome<Value>)
    ensures !Truthy(id) ==> r == Raise(MissingId)
    ensures Truthy(id) && r.Raise? ==> r.message == NotFound
    ensures Truthy(id) ==> (r.Ok? <==> reply.Got? && TruthyOpt(reply.resp.data))
    ensures r.Ok? ==> Some(r.value) == reply.resp.data
  {
    if !Truthy(id) then Raise(MissingId) else FoundOrRaise(reply, NotFound)
  }

  /** `project.client_id_c?.Id === n || project.client_id_c === n`. */
  predicate LinksTo(project: Value, n: Value) {
    var link := Prop(Some(project), "client_id_c");
    (Prop(link, "Id").Some? && StrictEq(Prop(link, "Id").value, n))
    || (link.Some? && StrictEq(link.value, n))
  }

  /** Some listed project is null, so reading its `client_id_c` throws. */
  predicate HasNull(projects: seq<Value>) {
    exists i :: 0 <= i < |projects| && projects[i] == VNull
  }

  /** `getProjectsByClientId`: the projects linked to the parsed id, each as
      often as the store listed it; a null project throws inside the filter
      and the catch answers []. */
  function ProjectsOfClient(projects: seq<Value>, clientId: Value): (r: seq<Value>)
    ensures |r| <= |projects|
    ensures HasNull(projects) ==> r == []
    ensures !HasNull(projects) ==> forall p :: p in r <==> p in projects && LinksTo(p, ParseInt(clientId))
    ensures !HasNull(projects) ==> forall p ::
      multiset(r)[p] == if LinksTo(p, ParseInt(clientId)) then multiset(projects)[p] else 0
  {
    if HasNull(projects) then []
    else
      FilterMembers(projects, p => LinksTo(p, ParseInt(clientId)));
      forall p ensures multiset(Filter(projects, p => LinksTo(p, ParseInt(clientId))))[p] ==
        if LinksTo(p, ParseInt(clientId)) then multiset(projects)[p] else 0
      {
        FilterMultiplicity(projects, p => LinksTo(p, ParseInt(clientId)), p);
      }
      Filter(projects, p => LinksTo(p, ParseInt(clientId)))
  }

  /** The client's projects keep the order the store listed them in. */
  lemma ProjectsOfClientOrder(projects: seq<Value>, clientId: Value, i: int, j: int) returns (a: nat, b: nat)
    requires 0 <= i < j < |ProjectsOfClient(projects, clientId)|
    ensures a < b < |projects|
    ensures projects[a] == ProjectsOfClient(projects, clientId)[i]
    ensures projects[b] == ProjectsOfClient(projects, clientId)[j]
  {
    a, b := FilterIndices(projects, p => LinksTo(p, ParseInt(clientId)), i, j);
  }

  /** A project is linked to `n` exactly when its link is the number `n`
      itself or an object whose `Id` is the number `n`. */
  lemma LinksToNumber(project: Value, n: int)
    ensures LinksTo(project, VNum(n)) <==>
      project.VObj? && "client_id_c" in project.fields &&
      (project.fields["client_id_c"] == VNum(n) ||
       (project.fields["client_id_c"].VObj? && Get(project.fields["client_id_c"].fields, "Id") == Some(VNum(n))))
  {
  }

  /** An id that does not parse matches no project: NaN equals nothing. */
  lemma ProjectsOfUnparsedClient(projects: seq<Value>, clientId: Value)
    requires ParseInt(clientId) == VNaN
    ensures ProjectsOfClient(projects, clientId) == []
  {
    FilterNone(projects, p => LinksTo(p, ParseInt(clientId)));
  }

  /** `Name || name` is undefined only when `name` is reached and absent. */
  predicate CreateHasName(d: Record) {
    TruthyAt(d, "Name") || "name" in d
  }

  /** The fields of `create`'s record other than `Name`. */
  function CreateFields(d: Record, now: string): (r: Record)
    ensures r.Keys == {"Tags", "company_c", "email_c", "phone_c", "website_c", "address_c",
                       "industry_c", "status_c", "created_at_c"}
    ensures r["created_at_c"] == VStr(now)
  {
    map[
      "Tags" := OrKeys(d, ["Tags"], VStr("")),
      "company_c" := OrKeys(d, ["company_c", "company"], VStr("")),
      "email_c" := OrKeys(d, ["email_c", "email"], VStr("")),
      "phone_c" := OrKeys(d, ["phone_c", "phone"], VStr("")),
      "website_c" := OrKeys(d, ["website_c", "website"], VStr("")),
      "address_c" := OrKeys(d, ["address_c", "address"], VStr("")),
      "industry_c" := OrKeys(d, ["industry_c", "industry"], VStr("")),
      "status_c" := OrKeys(d, ["status_c", "status"], VStr("Active")),
      "created_at_c" := VStr(now)]
  }

  /** The status defaults to "Active"; the storage name is preferred. */
  lemma CreateStatus(d: Record, now: string)
    ensures OneOr(CreateFields(d, now), "Tags", d, "Tags", VStr(""))
    ensures TwoOr(CreateFields(d, now), "status_c", d, "status_c", "status", VStr("Active"))
    ensures TwoOr(CreateFields(d, now), "company_c", d, "company_c", "company", VStr(""))
  {
  }

  /** The contact fields default to "". */
  lemma CreateContactDefaults(d: Record, now: string)
    ensures TwoOr(CreateFields(d, now), "email_c", d, "email_c", "email", VStr(""))
    ensures TwoOr(CreateFields(d, now), "phone_c", d, "phone_c", "phone", VStr(""))
    ensures TwoOr(CreateFields(d, now), "website_c", d, "website_c", "website", VStr(""))
  {
  }

  /** The address and industry default to "". */
  lemma CreateOtherDefaults(d: Record, now: string)
    ensures TwoOr(CreateFields(d, now), "address_c", d, "address_c", "address", VStr(""))
    ensures TwoOr(CreateFields(d, now), "industry_c", d, "industry_c", "industry", VStr(""))
  {
  }

  /** `create`'s record: the fields above and `Name` from `Name || name`. */
  function Create(d: Record, now: string): (r: Record)
    ensures r.Keys == CreateFields(d, now).Keys + (if CreateHasName(d) then {"Name"} else {})
    ensures forall k :: k in r && k != "Name" ==> r[k] == CreateFields(d, now)[k]
    ensures Get(r, "Name") == if TruthyAt(d, "Name") then Some(d["Name"]) else Get(d, "name")
  {
    var name := Or(Get(d, "Name"), Get(d, "name"));
    var fields := CreateFields(d, now);
    if name.Some? then fields["Name" := name.value] else fields
  }

  /** The statements of `update`, one rule per field, in source order. */
  function UpdateRules(): seq<Rule> {
    [ Rule("Name", ["Name", "name"], Raw),
      Rule("Tags", ["Tags"], Raw),
      Rule("company_c", ["company_c", "company"], Raw),
      Rule("email_c", ["email_c", "email"], Raw),
      Rule("phone_c", ["phone_c", "phone"], Raw),
      Rule("website_c", ["website_c", "website"], Raw),
      Rule("address_c", ["address_c", "address"], Raw),
      Rule("industry_c", ["industry_c", "industry"], Raw),
      Rule("status_c", ["status_c", "status"], Raw) ]
  }

  lemma UpdateRulesDistinct()
    ensures DistinctTargets(UpdateRules())
    ensures "Id" !in Targets(UpdateRules())
  {
    var rules := UpdateRules();
    assert rules[0].dst == "Name";
  }

  /** `update`'s record: the parsed id and the supplied fields. */
  function Update(id: Value, d: Record): (r: Record)
    ensures "Id" in r && r["Id"] == ParseInt(id)
  {
    UpdateRulesDistinct();
    Stamped(ParseInt(id), d, UpdateRules())
  }

  /** A field other than the id is sent only when one of its sources was
      supplied. */
  lemma UpdateWritesOnlySupplied(id: Value, d: Record, k: string)
    ensures k in Update(id, d) && k != "Id" ==>
      exists i, j :: 0 <= i < |UpdateRules()| && UpdateRules()[i].dst == k &&
                     0 <= j < |UpdateRules()[i].srcs| && UpdateRules()[i].srcs[j] in d
  {
    UpdateRulesDistinct();
    StampedSupplied(ParseInt(id), d, UpdateRules(), k);
  }

  /** In each two-source field the alias, assigned second, wins; a field
      with neither source supplied is not sent. */
  lemma UpdateAliasWins(id: Value, d: Record, i: int, dst: string, name: string, alias: string, conv: Conv)
    requires 0 <= i < |UpdateRules()| && UpdateRules()[i] == Rule(dst, [name, alias], conv)
    ensures Get(Update(id, d), dst) ==
      if alias in d then Convert(conv, d[alias])
      else if name in d then Convert(conv, d[name])
      else None
  {
    UpdateRulesDistinct();
    StampedPair(ParseInt(id), d, UpdateRules(), i, dst, name, alias, conv);
  }

  /** `delete`: true exactly when some record was deleted. */
  function Delete(reply: Reply): (b: bool)
    ensures b <==> HasResults(reply) && exists i :: 0 <= i < |ResultsOf(reply)| && ResultsOf(reply)[i].success
  {
    AnySucceeded(reply)
  }
}

=== FILE: dashboard.dfy ===
/** The four counters of the dashboard page, computed from the client,
    project and task lists it fetches. */
module Dashboard {
  import opened Values
  import opened Seqs

  datatype Counters = Counters(activeClients: nat, activeProjects: nat, tasksDueToday: nat, overdueTasks: nat)

  /** The counters before the first load. */
  const Zero := Counters(0, 0, 0, 0)

  predicate IsActiveClient(c: Record) {
    Get(c, "status_c") == Some(VStr("Active"))
  }

  predicate InProgress(p: Record) {
    Get(p, "status_c") == Some(VStr("In Progress"))
  }

  predicate Planning(p: Record) {
    Get(p, "status_c") == Some(VStr("Planning"))
  }

  /** `status_c === "In Progress" || status_c === "Planning"`. */
  predicate IsActiveProject(p: Record) {
    InProgress(p) || Planning(p)
  }

  /** `!task.completed_c && task.due_date_c === today`. */
  function DueOn(today: string): Record -> bool {
    (t: Record) => !TruthyAt(t, "completed_c") && Get(t, "due_date_c") == Some(VStr(today))
  }

  /** `new Date(a) < new Date(b)`: an unparsable date (NaN) compares false. */
  predicate Before(a: Option<int>, b: Option<int>) {
    a.Some? && b.Some? && a.value < b.value
  }

  /** The overdue test: an open task with a due date that `parse` (the
      `Date` constructor, given as a parameter) places before today. */
  function OverdueOn(today: string, parse: Value -> Option<int>): Record -> bool {
    (t: Record) => !TruthyAt(t, "completed_c") && TruthyAt(t, "due_date_c")
                   && Before(parse(t["due_date_c"]), parse(VStr(today)))
  }

  /** `loadDashboardData`'s counters. `today` is the date part of the
      current ISO time. */
  function Compute(clients: seq<Record>, projects: seq<Record>, tasks: seq<Record>,
                   today: string, parse: Value -> Option<int>): (c: Counters)
    ensures c.activeClients <= |clients| && c.activeProjects <= |projects|
    ensures c.tasksDueToday + c.overdueTasks <= |tasks|
  {
    CountDueOverdue(tasks, today, parse);
    Counters(Count(clients, IsActiveClient), Count(projects, IsActiveProject),
             Count(tasks, DueOn(today)), Count(tasks, OverdueOn(today, parse)))
  }

  /** A task due today is never overdue, whatever the date parser. */
  lemma DueTodayNotOverdue(t: Record, today: string, parse: Value -> Option<int>)
    ensures !(DueOn(today)(t) && OverdueOn(today, parse)(t))
  {
  }

  lemma CountDueOverdue(tasks: seq<Record>, today: string, parse: Value -> Option<int>)
    ensures Count(tasks, DueOn(today)) + Count(tasks, OverdueOn(today, parse)) <= |tasks|
  {
    CountDisjoint(tasks, DueOn(today), OverdueOn(today, parse));
  }

  /** The active projects are those in progress plus those being planned. */
  lemma ActiveProjectsSplit(clients: seq<Record>, projects: seq<Record>, tasks: seq<Record>,
                            today: string, parse: Value -> Option<int>)
    ensures Compute(clients, projects, tasks, today, parse).activeProjects ==
      Count(projects, InProgress) + Count(projects, Planning)
  {
    CountEither(projects, InProgress, Planning, IsActiveProject);
  }

  /** Each further client adds one to the counter exactly when its status
      is "Active". */
  lemma ActiveClientsSnoc(clients: seq<Record>, c: Record)
    ensures Count(clients + [c], IsActiveClient) ==
      Count(clients, IsActiveClient) + (if Get(c, "status_c") == Some(VStr("Active")) then 1 else 0)
  {
    FilterAppend(clients, [c], IsActiveClient);
  }

  /** Completed tasks count towards neither task counter. */
  lemma CompletedIgnored(tasks: seq<Record>, t: Record, today: string, parse: Value -> Option<int>)
    requires TruthyAt(t, "completed_c")
    ensures Count(tasks + [t], DueOn(today)) == Count(tasks, DueOn(today))
    ensures Count(tasks + [t], OverdueOn(today, parse)) == Count(tasks, OverdueOn(today, parse))
  {
    FilterAppend(tasks, [t], DueOn(today));
    FilterAppend(tasks, [t], OverdueOn(today, parse));
  }

  /** A load that fails keeps the counters shown before; one that fetched
      the three lists shows the counters computed from them. */
  function Load(prev: Counters, fetched: Option<(seq<Record>, seq<Record>, seq<Record>)>,
                today: string, parse: Value -> Option<int>): (c: Counters)
    ensures fetched.None? ==> c == prev
    ensures fetched.Some? ==> c.activeClients <= |fetched.value.0| && c.activeProjects <= |fetched.value.1|
    ensures fetched.Some? ==> c == Compute(fetched.value.0, fetched.value.1, fetched.value.2, today, parse)
  {
    match fetched
    case None => prev
    case Some((clients, projects, tasks)) => Compute(clients, projects, tasks, today, parse)
  }
}

=== FILE: file.dfy ===
/** The file service: the id guards of the fetches, the checks and the
    record of `upload`, the name-derived URLs, the preview and icon
    classifiers, `getVersions` and the result rule of `delete`. */
module FileService {
  import opened Text
  import opened Values
  import opened Payload
  import opened Remote
  import opened Filters

  /** The id a fetch is given. */
  datatype IdKind = FileId | TaskId | ProjectId | CommentId

  function IdRequired(kind: IdKind): string {
    match kind
    case FileId => "Valid file ID is required"
    case TaskId => "Valid task ID is required"
    case ProjectId => "Valid project ID is required"
    case CommentId => "Valid comment ID is required"
  }

  /** `if (!id || typeof id !== 'number') throw …`: only a non-zero number
      passes (NaN is a number, but falsy). */
  function CheckId(kind: IdKind, id: Option<Value>): (r: Outcome<int>)
    ensures r.Ok? <==> TruthyOpt(id) && id.value.VNum?
    ensures id == Some(VNaN) ==> r.Raise?
    ensures r.Ok? ==> id == Some(VNum(r.value)) && r.value != 0
    ensures r.Raise? ==> r.message == IdRequired(kind)
  {
    if id.Some? && id.value.VNum? && id.value.n != 0 then Ok(id.value.n)
    else Raise(IdRequired(kind))
  }

  /** `getById`: the guard, then "File not found" for a missing record or
      any error of the store. */
  function GetById(id: Option<Value>, reply: Reply): (r: Outcome<Value>)
    ensures CheckId(FileId, id).Raise? ==> r == Raise("Valid file ID is required")
    ensures CheckId(FileId, id).Ok? ==> (r.Raise? <==> FoundOrNull(reply).None?)
    ensures r.Raise? && CheckId(FileId, id).Ok? ==> r.message == "File not found"
    ensures r.Ok? ==> CheckId(FileId, id).Ok? && Some(r.value) == FoundOrNull(reply)
                      && reply.Got? && Some(r.value) == reply.resp.data && Truthy(r.value)
  {
    match CheckId(FileId, id)
    case Raise(m) => Raise(m)
    case Ok(_) => FoundOrRaise(reply, "File not found")
  }

  /** The field a by-owner fetch filters on. */
  function OwnerField(kind: IdKind): string {
    match kind
    case FileId => "Id"
    case TaskId => "task_id_c"
    case ProjectId => "project_id_c"
    case CommentId => "comment_id_c"
  }

  /** `getByTaskId`, `getByProjectId`, `getByCommentId`: the guard, then
      one condition on the parsed id; no condition is built when the guard
      throws. */
  function FilesOf(kind: IdKind, id: Option<Value>): (r: Outcome<seq<Condition>>)
    requires kind != FileId
    ensures r.Raise? <==> CheckId(kind, id).Raise?
    ensures r.Raise? ==> r.message == IdRequired(kind)
    ensures r.Ok? ==> r.value == [Condition(OwnerField(kind), EqualTo, [id.value])]
  {
    match CheckId(kind, id)
    case Raise(m) => Raise(m)
    case Ok(_) => Ok(ByParsedId(OwnerField(kind), id.value))
  }

  const NeedData := "Valid file data is required"
  const NeedUploader := "Uploader ID is required"
  const NeedFile := "File object is required"
  const NeedOwner := "Either task ID or project ID is required"

  /** `fileData` is an object (null is falsy, so it fails first). */
  predicate IsObject(o: Option<Value>) {
    o.Some? && o.value.VObj?
  }

  /** A property of the upload's argument. */
  function Field(fileData: Option<Value>, k: string): Option<Value> {
    Prop(fileData, k)
  }

  /** A non-zero number, as `!x || typeof x !== 'number'` demands. */
  predicate IsNumberId(o: Option<Value>) {
    o.Some? && o.value.VNum? && o.value.n != 0
  }

  /** A truthy file whose `name` is truthy. */
  predicate HasNamedFile(fileData: Option<Value>) {
    TruthyOpt(Field(fileData, "file")) && TruthyOpt(Prop(Field(fileData, "file"), "name"))
  }

  /** The checks of `upload`, in order; the first to fail names the error. */
  function UploadCheck(fileData: Option<Value>): (err: Option<string>)
    ensures err == Some(NeedData) <==> !IsObject(fileData)
    ensures err == Some(NeedUploader) <==> IsObject(fileData) && !IsNumberId(Field(fileData, "uploadedBy"))
    ensures err == Some(NeedFile) <==>
      IsObject(fileData) && IsNumberId(Field(fileData, "uploadedBy")) && !HasNamedFile(fileData)
    ensures err == Some(NeedOwner) <==>
      IsObject(fileData) && IsNumberId(Field(fileData, "uploadedBy")) && HasNamedFile(fileData) &&
      !TruthyOpt(Field(fileData, "taskId")) && !TruthyOpt(Field(fileData, "projectId"))
    ensures err.Some? ==> err.value in {NeedData, NeedUploader, NeedFile, NeedOwner}
  {
    if !IsObject(fileData) then Some(NeedData)
    else if !IsNumberId(Field(fileData, "uploadedBy")) then Some(NeedUploader)
    else if !HasNamedFile(fileData) then Some(NeedFile)
    else if !TruthyOpt(Field(fileData, "taskId")) && !TruthyOpt(Field(fileData, "projectId")) then Some(NeedOwner)
    else None
  }

  /** A suffix of all but the last character, followed by that character,
      is a suffix one longer. */
  lemma SuffixSnoc(s: string, k: nat)
    requires k < |s|
    ensures s[..|s| - 1][|s| - 1 - k..] + [s[|s| - 1]] == s[|s| - 1 - k..]
  {
    assert s[..|s| - 1][|s| - 1 - k..] == s[|s| - 1 - k..|s| - 1];
    assert s[|s| - 1 - k..] == s[|s| - 1 - k..|s| - 1] + [s[|s| - 1]];
  }

  /** `name.split('.').pop()`: the text after the last dot, or the whole
      name when it has none. */
  function LastSegment(s: string): (t: string)
    ensures |t| <= |s| && t == s[|s| - |t|..]
    ensures forall i :: 0 <= i < |t| ==> t[i] != '.'
    ensures |t| == |s| || s[|s| - |t| - 1] == '.'
    decreases |s|
  {
    if |s| == 0 || s[|s| - 1] == '.' then []
    else
      var u := LastSegment(s[..|s| - 1]);
      SuffixSnoc(s, |u|);
      u + [s[|s| - 1]]
  }

  /** The longest suffix of `s` holding neither `/` nor `.`. */
  function PlainTail(s: string): (t: string)
    ensures |t| <= |s| && t == s[|s| - |t|..]
    ensures forall i :: 0 <= i < |t| ==> t[i] != '.' && t[i] != '/'
    ensures |t| == |s| || s[|s| - |t| - 1] == '.' || s[|s| - |t| - 1] == '/'
    decreases |s|
  {
    if |s| == 0 || s[|s| - 1] == '.' || s[|s| - 1] == '/' then []
    else
      var u := PlainTail(s[..|s| - 1]);
      SuffixSnoc(s, |u|);
      u + [s[|s| - 1]]
  }

  /** `name.replace(/\.[^/.]+$/, '')`. */
  function BaseName(s: string): string {
    var t := PlainTail(s);
    if 0 < |t| < |s| && s[|s| - |t| - 1] == '.' then s[..|s| - |t| - 1] else s
  }

  /** The regular expression `\.[^/.]+$` matches at `i`: a dot followed by
      one or more characters, none a slash or a dot, up to the end. */
  predicate ExtensionAt(s: string, i: int) {
    0 <= i < |s| - 1 && s[i] == '.' && forall k :: i < k < |s| ==> s[k] != '/' && s[k] != '.'
  }

  /** `BaseName` cuts exactly the match of the regular expression, and
      leaves a name it does not match whole. */
  lemma BaseNameIsRegexReplace(s: string)
    ensures forall i :: ExtensionAt(s, i) ==> BaseName(s) == s[..i]
    ensures (forall i :: !ExtensionAt(s, i)) ==> BaseName(s) == s
  {
    var t := PlainTail(s);
    forall k | |s| - |t| <= k < |s| ensures s[k] != '.' && s[k] != '/' {
      assert s[k] == t[k - (|s| - |t|)];
    }
    forall i | ExtensionAt(s, i) ensures BaseName(s) == s[..i] {
      assert |t| == |s| - i - 1;
    }
    if 0 < |t| < |s| && s[|s| - |t| - 1] == '.' {
      var j := |s| - |t| - 1;
      forall k | j < k < |s| ensures s[k] != '/' && s[k] != '.' {
        assert s[k] == t[k - j - 1];
      }
      assert ExtensionAt(s, j);
    }
  }

  /** The extension of the stored file: the last segment, lower-cased. */
  function Extension(name: string): string {
    ToLower(LastSegment(name))
  }

  /** Cutting a name at a dot and putting the dot back gives the name. */
  lemma DotSplit(name: string, j: int)
    requires 0 <= j < |name| && name[j] == '.'
    ensures name[..j] + "." + name[j + 1..] == name
  {
    assert name == name[..j] + [name[j]] + name[j + 1..];
  }

  /** A name with a plain extension splits into base, dot and extension. */
  lemma BaseDotExtension(name: string)
    requires |LastSegment(name)| > 0 && |LastSegment(name)| < |name|
    requires forall i :: 0 <= i < |LastSegment(name)| ==> LastSegment(name)[i] != '/'
    ensures BaseName(name) + "." + LastSegment(name) == name
  {
    var seg := LastSegment(name);
    var j := |name| - |seg| - 1;
    assert seg == name[j + 1..];
    forall k | j < k < |name| ensures name[k] != '/' && name[k] != '.' {
      assert name[k] == seg[k - j - 1];
    }
    assert ExtensionAt(name, j);
    BaseNameIsRegexReplace(name);
    DotSplit(name, j);
  }

  /** A name without a dot keeps its whole self as base, and its
      extension is the whole name lower-cased. */
  lemma NoDotName(name: string)
    requires forall i :: 0 <= i < |name| ==> name[i] != '.'
    ensures BaseName(name) == name
    ensures Extension(name) == ToLower(name)
  {
    BaseNameIsRegexReplace(name);
    assert |LastSegment(name)| == |name|;
  }

  /** The MIME types `canPreview` accepts. */
  const PreviewTypes: seq<string> :=
    ["image/jpeg", "image/jpg", "image/png", "image/gif", "image/webp",
     "application/pdf", "text/plain", "text/html", "text/markdown"]

  /** `previewableTypes.includes(fileType)`: only text can be equal to a
      listed type. */
  predicate CanPreview(fileType: Option<Value>) {
    fileType.Some? && fileType.value.VStr? && fileType.value.s in PreviewTypes
  }

  /** `canPreview` accepts exactly the nine listed types. */
  lemma CanPreviewIff(fileType: Option<Value>)
    ensures CanPreview(fileType) <==>
      fileType == Some(VStr("image/jpeg")) || fileType == Some(VStr("image/jpg")) ||
      fileType == Some(VStr("image/png")) || fileType == Some(VStr("image/gif")) ||
      fileType == Some(VStr("image/webp")) || fileType == Some(VStr("application/pdf")) ||
      fileType == Some(VStr("text/plain")) || fileType == Some(VStr("text/html")) ||
      fileType == Some(VStr("text/markdown"))
  {
  }

  /** `fileType.includes(w)` for some `w` of `words`. */
  predicate IncludesSome(t: string, words: seq<string>) {
    exists i :: 0 <= i < |words| && Text.Contains(t, words[i])
  }

  predicate IsDocument(t: string) { Text.Contains(t, "document") || Text.Contains(t, "word") }
  predicate IsSheet(t: string) { Text.Contains(t, "spreadsheet") || Text.Contains(t, "excel") }
  predicate IsSlides(t: string) { Text.Contains(t, "presentation") || Text.Contains(t, "powerpoint") }
  predicate IsArchive(t: string) {
    Text.Contains(t, "zip") || Text.Contains(t, "rar") || Text.Contains(t, "archive")
  }

  /** `getFileIcon`: the first test that matches picks the icon; each icon
      is given exactly when its test holds and no earlier test does. */
  function FileIcon(t: string): (icon: string)
    ensures icon == "Image" <==> IsPrefix("image/", t)
    ensures icon == "FileText" <==> !IsPrefix("image/", t) && (t == "application/pdf" || IsDocument(t))
    ensures icon == "FileSpreadsheet" <==>
      !IsPrefix("image/", t) && t != "application/pdf" && !IsDocument(t) && IsSheet(t)
    ensures icon == "Presentation" <==>
      !IsPrefix("image/", t) && t != "application/pdf" && !IsDocument(t) && !IsSheet(t) && IsSlides(t)
    ensures icon == "Archive" <==>
      !IsPrefix("image/", t) && t != "application/pdf" && !IsDocument(t) && !IsSheet(t) && !IsSlides(t)
      && IsArchive(t)
    ensures icon == "Video" <==>
      !IsPrefix("image/", t) && t != "application/pdf" && !IsDocument(t) && !IsSheet(t) && !IsSlides(t)
      && !IsArchive(t) && Text.Contains(t, "video")
    ensures icon == "Music" <==>
      !IsPrefix("image/", t) && t != "application/pdf" && !IsDocument(t) && !IsSheet(t) && !IsSlides(t)
      && !IsArchive(t) && !Text.Contains(t, "video") && Text.Contains(t, "audio")
    ensures icon == "File" <==>
      !IsPrefix("image/", t) && t != "application/pdf" && !IsDocument(t) && !IsSheet(t) && !IsSlides(t)
      && !IsArchive(t) && !Text.Contains(t, "video") && !Text.Contains(t, "audio")
  {
    if IsPrefix("image/", t) then "Image"
    else if t == "application/pdf" then "FileText"
    else if Text.Contains(t, "document") || Text.Contains(t, "word") then "FileText"
    else if Text.Contains(t, "spreadsheet") || Text.Contains(t, "excel") then "FileSpreadsheet"
    else if Text.Contains(t, "presentation") || Text.Contains(t, "powerpoint") then "Presentation"
    else if Text.Contains(t, "zip") || Text.Contains(t, "rar") || Text.Contains(t, "archive") then "Archive"
    else if Text.Contains(t, "video") then "Video"
    else if Text.Contains(t, "audio") then "Music"
    else "File"
  }

  /** One test of `getFileIcon`. */
  datatype IconTest = StartsWith(prefix: string) | Is(value: string) | IncludesAny(words: seq<string>)

  predicate Passes(test: IconTest, t: string) {
    match test
    case StartsWith(p) => IsPrefix(p, t)
    case Is(v) => t == v
    case IncludesAny(ws) => IncludesSome(t, ws)
  }

  /** The icon table: each test with the icon it picks, in the order they
      are tried. */
  const IconTable: seq<(IconTest, string)> := [
    (StartsWith("image/"), "Image"),
    (Is("application/pdf"), "FileText"),
    (IncludesAny(["document", "word"]), "FileText"),
    (IncludesAny(["spreadsheet", "excel"]), "FileSpreadsheet"),
    (IncludesAny(["presentation", "powerpoint"]), "Presentation"),
    (IncludesAny(["zip", "rar", "archive"]), "Archive"),
    (IncludesAny(["video"]), "Video"),
    (IncludesAny(["audio"]), "Music")]

  /** The first row of `table` from `k` on whose test passes. */
  function FirstPassing(table: seq<(IconTest, string)>, t: string, k: nat): (o: Option<nat>)
    requires k <= |table|
    ensures o.Some? ==> k <= o.value < |table| && Passes(table[o.value].0, t)
    ensures o.Some? ==> forall j :: k <= j < o.value ==> !Passes(table[j].0, t)
    ensures o.None? ==> forall j :: k <= j < |table| ==> !Passes(table[j].0, t)
    decreases |table| - k
  {
    if k == |table| then None
    else if Passes(table[k].0, t) then Some(k)
    else FirstPassing(table, t, k + 1)
  }

  /** A table lookup: the icon of the first passing row, else "File". */
  function TableIcon(t: string): string {
    match FirstPassing(IconTable, t, 0)
    case None => "File"
    case Some(k) => IconTable[k].1
  }

  /** Each row's test, read as the chain writes it. */
  lemma {:induction false} PassesRows(t: string)
    ensures Passes(IconTable[0].0, t) == IsPrefix("image/", t)
    ensures Passes(IconTable[1].0, t) == (t == "application/pdf")
    ensures Passes(IconTable[2].0, t) == IsDocument(t)
    ensures Passes(IconTable[3].0, t) == IsSheet(t)
    ensures Passes(IconTable[4].0, t) == IsSlides(t)
    ensures Passes(IconTable[5].0, t) == IsArchive(t)
    ensures Passes(IconTable[6].0, t) == Text.Contains(t, "video")
    ensures Passes(IconTable[7].0, t) == Text.Contains(t, "audio")
  {
    var d, sh, sl, ar := ["document", "word"], ["spreadsheet", "excel"], ["presentation", "powerpoint"], ["zip", "rar", "archive"];
    assert d[0] == "document" && d[1] == "word";
    assert sh[0] == "spreadsheet" && sh[1] == "excel";
    assert sl[0] == "presentation" && sl[1] == "powerpoint";
    assert ar[0] == "zip" && ar[1] == "rar" && ar[2] == "archive";
    assert ["video"][0] == "video" && ["audio"][0] == "audio";
  }

  /** The chain of tests agrees with the first-match lookup in the table. */
  lemma FileIconIsTableIcon(t: string)
    ensures FileIcon(t) == TableIcon(t)
  {
    PassesRows(t);
    var o := FirstPassing(IconTable, t, 0);
    assert |IconTable| == 8;
    if o.Some? {
      var k := o.value;
      assert forall j :: 0 <= j < k ==> !Passes(IconTable[j].0, t);
      if k == 0 { assert IconTable[0].1 == "Image"; }
      else if k == 1 { assert IconTable[1].1 == "FileText"; }
      else if k == 2 { assert IconTable[2].1 == "FileText"; }
      else if k == 3 { assert IconTable[3].1 == "FileSpreadsheet"; }
      else if k == 4 { assert IconTable[4].1 == "Presentation"; }
      else if k == 5 { assert IconTable[5].1 == "Archive"; }
      else if k == 6 { assert IconTable[6].1 == "Video"; }
      else { assert IconTable[7].1 == "Music"; }
    }
  }

  /** The MIME type of an office spreadsheet,
      `application/vnd.openxmlformats-officedocument.spreadsheetml.sheet`. */
  const OfficeSheet := "application/vnd." + "openxmlformats-office" + "document.spreadsheetml.sheet"

  /** An office spreadsheet gets the text icon: its type contains
      "spreadsheet", but also "document", which is tested first. */
  lemma OfficeSheetIsText()
    ensures Text.Contains(OfficeSheet, "spreadsheet")
    ensures FileIcon(OfficeSheet) == "FileText"
  {
    var c := "document.spreadsheetml.sheet";
    var t := OfficeSheet;
    assert t[37..45] == c[..8] == "document";
    assert OccursAt(t, "document", 37);
    assert t[46..57] == c[9..20] == "spreadsheet";
    assert OccursAt(t, "spreadsheet", 46);
    assert !IsPrefix("image/", t) by {
      assert t[..6][0] != "image/"[0];
    }
  }

  /** `getVersions`: a name must be non-empty text; there are no versions. */
  function GetVersions(fileName: Option<Value>): (r: Outcome<seq<Value>>)
    ensures r.Ok? <==> TruthyOpt(fileName) && fileName.value.VStr?
    ensures r.Ok? ==> r.value == []
    ensures r.Raise? ==> r.message == "Valid file name is required"
  {
    if TruthyOpt(fileName) && fileName.value.VStr? then Ok([]) else Raise("Valid file name is required")
  }

  /** `delete`: true when some record was deleted. */
  function Delete(reply: Reply): (b: bool)
    ensures b <==> HasResults(reply) && exists i :: 0 <= i < |ResultsOf(reply)| && ResultsOf(reply)[i].success
  {
    AnySucceeded(reply)
  }

  /** The file part of the upload's argument. */
  function FileOf(fileData: Option<Value>): Option<Value> {
    Field(fileData, "file")
  }

  /** The record `upload` writes for a file named `name`, at `now`. */
  function UploadRecord(fileData: Option<Value>, name: string, uploadedBy: int, now: string): Record {
    var file := FileOf(fileData);
    var base := BaseName(name);
    map[
      "Name" := VStr(name),
      "Tags" := VStr(""),
      "file_name_c" := VStr(name),
      "file_size_c" := OrElse(Prop(file, "size"), VNum(0)),
      "file_type_c" := OrElse(Prop(file, "type"), VStr("application/octet-stream")),
      "uploaded_by_c" := VNum(uploadedBy),
      "uploaded_at_c" := VStr(now),
      "version_c" := VNum(1),
      "is_latest_c" := VBool(true),
      "url_c" := VStr("/uploads/" + base + "-v1." + Extension(name)),
      "preview_url_c" := VStr(if CanPreview(Prop(file, "type")) then "/previews/" + base + "-v1.jpg" else ""),
      "task_id_c" := OrElse(Field(fileData, "taskId"), VNull),
      "project_id_c" := OrElse(Field(fileData, "projectId"), VNull),
      "comment_id_c" := OrElse(Field(fileData, "commentId"), VNull)]
  }

  /** The message of the `TypeError` a name that is not text raises when
      it is split. */
  const NameNotText := "fileName.split is not a function"

  /** `upload` up to the write: the checks, then the record to send. A
      truthy name that is not text passes the checks and throws when it
      is split. */
  function Upload(fileData: Option<Value>, now: string): (r: Outcome<Record>)
    ensures r.Raise? <==> UploadCheck(fileData).Some? || !Prop(FileOf(fileData), "name").value.VStr?
    ensures UploadCheck(fileData).Some? ==> r == Raise(UploadCheck(fileData).value)
    ensures r.Ok? ==> "url_c" in r.value && "version_c" in r.value && r.value["version_c"] == VNum(1)
  {
    match UploadCheck(fileData)
    case Some(m) => Raise(m)
    case None =>
      match Prop(FileOf(fileData), "name").value
      case VStr(name) => Ok(UploadRecord(fileData, name, Field(fileData, "uploadedBy").value.n, now))
      case _ => Raise(NameNotText)
  }

  /** The stored URL is built from the base name and the extension. */
  lemma UploadUrl(fileData: Option<Value>, name: string, uploadedBy: int, now: string)
    ensures UploadRecord(fileData, name, uploadedBy, now)["url_c"] ==
      VStr("/uploads/" + BaseName(name) + "-v1." + Extension(name))
  {
  }

  /** An upload is the first version, and the latest. */
  lemma UploadVersion(fileData: Option<Value>, name: string, uploadedBy: int, now: string)
    ensures UploadRecord(fileData, name, uploadedBy, now)["is_latest_c"] == VBool(true)
    ensures UploadRecord(fileData, name, uploadedBy, now)["version_c"] == VNum(1)
  {
  }

  /** A preview URL is set exactly for a previewable type. */
  lemma UploadPreview(fileData: Option<Value>, name: string, uploadedBy: int, now: string)
    ensures UploadRecord(fileData, name, uploadedBy, now)["preview_url_c"] != VStr("") <==>
      CanPreview(Prop(FileOf(fileData), "type"))
  {
  }

  /** The owners default to null when falsy. */
  lemma UploadOwners(fileData: Option<Value>, name: string, uploadedBy: int, now: string)
    ensures UploadRecord(fileData, name, uploadedBy, now)["task_id_c"] ==
      if TruthyOpt(Field(fileData, "taskId")) then Field(fileData, "taskId").value else VNull
    ensures UploadRecord(fileData, name, uploadedBy, now)["project_id_c"] ==
      if TruthyOpt(Field(fileData, "projectId")) then Field(fileData, "projectId").value else VNull
    ensures UploadRecord(fileData, name, uploadedBy, now)["comment_id_c"] ==
      if TruthyOpt(Field(fileData, "commentId")) then Field(fileData, "commentId").value else VNull
  {
  }

  /** What `upload` resolves to once the record is sent: its check error,
      the store's thrown error (rethrown), or the first stored record. */
  function UploadResult(attempt: Outcome<Record>, reply: Reply): (r: Outcome<Option<Value>>)
    ensures attempt.Raise? ==> r == Raise(attempt.message)
    ensures attempt.Ok? && reply.Threw? ==> r == Raise(reply.error)
    ensures attempt.Ok? && reply.Got? ==> r == Ok(WriteResult(reply))
  {
    if attempt.Raise? then Raise(attempt.message)
    else if reply.Threw? then Raise(reply.error)
    else Ok(WriteResult(reply))
  }
}

=== FILE: filters.dfy ===
/** The where-clauses the services send with a fetch. A condition names a
    field, an operator and the operand values; conditions in a list are
    combined with AND. A group ORs its sub-groups. */
module Filters {
  import opened Text
  import opened Values

  datatype Operator =
    | EqualTo
    | Contains
    | GreaterThanOrEqualTo
    | LessThanOrEqualTo
    | DoesNotHaveValue

  datatype Condition = Condition(field: string, op: Operator, values: seq<Value>)

  datatype Connective = AllOf | AnyOf

  datatype SubGroup = SubGroup(conditions: seq<Condition>, connective: Connective)

  datatype Group = Group(connective: Connective, subGroups: seq<SubGroup>)

  /** The field names of a condition list, in order. */
  function Fields(cs: seq<Condition>): (fs: seq<string>)
    ensures |fs| == |cs|
    ensures forall i :: 0 <= i < |cs| ==> fs[i] == cs[i].field
  {
    seq(|cs|, i requires 0 <= i < |cs| => cs[i].field)
  }

  /** The single condition `field EqualTo parseInt(id)` the by-id fetches use. */
  function ByParsedId(field: string, id: Value): (cs: seq<Condition>)
    ensures |cs| == 1 && cs[0].field == field && cs[0].op == EqualTo
    ensures cs[0].values == [ParseInt(id)]
    ensures id.VNum? ==> cs[0].values == [id]
  {
    [Condition(field, EqualTo, [ParseInt(id)])]
  }

  /** An id that arrives as text (a route parameter) is compared as the
      number it spells. */
  lemma ByParsedIdOfText(field: string, n: int)
    ensures ByParsedId(field, VStr(IntToString(n)))[0].values == [VNum(n)]
  {
    ParseIntOfString(n);
  }
}

=== FILE: issue.dfy ===
/** The issue service: the issue and comment records it writes, the
    result rule of `remove`, the where-clause of `searchIssues`, and the
    mention scanner. Every record here is an object literal whose
    undefined entries are deleted before sending, which `Obj` models. */
module IssueService {
  import opened Text
  import opened Values
  import opened Payload
  import opened Remote
  import opened Filters

  /** The fields `create` and `update` copy from the input as they are. */
  const IssueFields: seq<string> :=
    ["Name", "Tags", "title_c", "type_c", "description_c", "priority_c", "status_c",
     "reporter_c", "assignee_c", "environment_c", "due_date_c", "created_at_c", "updated_at_c"]

  lemma IssueFieldsDistinct()
    ensures DistinctKeys(IssueFields)
    ensures "project_id_c" !in IssueFields && "Id" !in IssueFields
  {
  }

  /** `create`'s record: the copied fields, then the project, parsed when
      truthy and undefined otherwise. */
  function Create(d: Record): (r: Record)
    ensures r.Keys <= set k | k in IssueFields + ["project_id_c"]
  {
    var es := Picked(d, IssueFields) + [("project_id_c", ParsedIfTruthy(Get(d, "project_id_c")))];
    assert forall k :: k in Obj(es) ==> k in IssueFields + ["project_id_c"] by {
      forall k | k in Obj(es) ensures k in IssueFields + ["project_id_c"] {
        var i :| 0 <= i < |es| && es[i].0 == k && es[i].1.Some?;
        if i < |IssueFields| {
          assert k == IssueFields[i];
        }
      }
    }
    Obj(es)
  }

  /** A copied field is sent exactly when the input defines it, with the
      input's value, `null` included. */
  lemma CreateCopies(d: Record, k: string)
    requires k in IssueFields
    ensures k in Create(d) <==> k in d
    ensures k in d ==> Create(d)[k] == d[k]
  {
    IssueFieldsDistinct();
    PickedEntry(d, [], IssueFields, [("project_id_c", ParsedIfTruthy(Get(d, "project_id_c")))], k);
    assert [] + Picked(d, IssueFields) == Picked(d, IssueFields);
  }

  /** A falsy project is left out; a truthy one is parsed. */
  lemma CreateProject(d: Record)
    ensures "project_id_c" in Create(d) <==> TruthyAt(d, "project_id_c")
    ensures TruthyAt(d, "project_id_c") ==> Create(d)["project_id_c"] == ParseInt(d["project_id_c"])
  {
    FixedEntry(Picked(d, IssueFields), "project_id_c", ParsedIfTruthy(Get(d, "project_id_c")), []);
    assert Picked(d, IssueFields) + [("project_id_c", ParsedIfTruthy(Get(d, "project_id_c")))] + [] ==
           Picked(d, IssueFields) + [("project_id_c", ParsedIfTruthy(Get(d, "project_id_c")))];
  }

  /** `update`'s record: the id as given, then the fields of `create`. */
  function Update(id: Value, d: Record): (r: Record)
    ensures "Id" in r && r["Id"] == id
  {
    var es := Picked(d, IssueFields) + [("project_id_c", ParsedIfTruthy(Get(d, "project_id_c")))];
    FixedEntry([], "Id", Some(id), es);
    Obj([] + [("Id", Some(id))] + es)
  }

  /** `update` sends what `create` would, plus the id, and nothing else:
      the two builders strip undefined entries by the same rule. */
  lemma UpdateIsCreateWithId(id: Value, d: Record)
    ensures Update(id, d) == Create(d)["Id" := id]
  {
    IssueFieldsDistinct();
    var es := Picked(d, IssueFields) + [("project_id_c", ParsedIfTruthy(Get(d, "project_id_c")))];
    assert forall j :: 0 <= j < |es| ==> es[j].0 != "Id" by {
      forall j | 0 <= j < |es| ensures es[j].0 != "Id" {
        if j < |IssueFields| {
          assert es[j].0 == IssueFields[j];
        }
      }
    }
    ObjPrepend("Id", id, es);
    assert [] + [("Id", Some(id))] + es == [("Id", Some(id))] + es;
  }

  /** The fields `createComment` copies from the input as they are. */
  const CommentFields: seq<string> :=
    ["Name", "Tags", "author_id_c", "content_c", "created_at_c", "updated_at_c", "mentions_c"]

  /** The entries of `createComment` after the copied ones. */
  function CommentTail(d: Record): seq<(string, Option<Value>)> {
    [ ("is_edited_c", Some(OrElse(Get(d, "is_edited_c"), VBool(false)))),
      ("task_id_c", ParsedIfTruthy(Get(d, "task_id_c"))),
      ("parent_id_c", ParsedIfTruthy(Get(d, "parent_id_c"))) ]
  }

  /** `createComment`'s record. */
  function CreateComment(d: Record): (r: Record)
    ensures r.Keys <= set k | k in CommentFields + ["is_edited_c", "task_id_c", "parent_id_c"]
  {
    var es := Picked(d, CommentFields) + CommentTail(d);
    assert forall k :: k in Obj(es) ==> k in CommentFields + ["is_edited_c", "task_id_c", "parent_id_c"] by {
      forall k | k in Obj(es) ensures k in CommentFields + ["is_edited_c", "task_id_c", "parent_id_c"] {
        var i :| 0 <= i < |es| && es[i].0 == k && es[i].1.Some?;
        if i < |CommentFields| {
          assert k == CommentFields[i];
        }
      }
    }
    Obj(es)
  }

  /** A copied comment field is sent exactly when the input defines it. */
  lemma CreateCommentCopies(d: Record, k: string)
    requires k in CommentFields
    ensures k in CreateComment(d) <==> k in d
    ensures k in d ==> CreateComment(d)[k] == d[k]
  {
    PickedEntry(d, [], CommentFields, CommentTail(d), k);
    assert [] + Picked(d, CommentFields) == Picked(d, CommentFields);
  }

  /** The edit flag defaults to false: it is always sent, with the input's
      value when that is truthy. */
  lemma CreateCommentEdited(d: Record)
    ensures "is_edited_c" in CreateComment(d)
    ensures CreateComment(d)["is_edited_c"] == if TruthyAt(d, "is_edited_c") then d["is_edited_c"] else VBool(false)
  {
    var tail := CommentTail(d);
    FixedEntry(Picked(d, CommentFields), tail[0].0, tail[0].1, tail[1..]);
    assert Picked(d, CommentFields) + [tail[0]] + tail[1..] == Picked(d, CommentFields) + tail;
  }

  /** The task and parent references are sent parsed when truthy and left
      out when falsy. */
  lemma CreateCommentRefs(d: Record)
    ensures "task_id_c" in CreateComment(d) <==> TruthyAt(d, "task_id_c")
    ensures "parent_id_c" in CreateComment(d) <==> TruthyAt(d, "parent_id_c")
    ensures TruthyAt(d, "task_id_c") ==> CreateComment(d)["task_id_c"] == ParseInt(d["task_id_c"])
    ensures TruthyAt(d, "parent_id_c") ==> CreateComment(d)["parent_id_c"] == ParseInt(d["parent_id_c"])
  {
    var tail := CommentTail(d);
    var pre := Picked(d, CommentFields);
    FixedEntry(pre + [tail[0]], tail[1].0, tail[1].1, [tail[2]]);
    assert pre + [tail[0]] + [tail[1]] + [tail[2]] == pre + tail;
    FixedEntry(pre + tail[..2], tail[2].0, tail[2].1, []);
    assert pre + tail[..2] + [tail[2]] + [] == pre + tail;
  }

  /** The fields `updateComment` copies from the input, before and after
      its clock entry. */
  const CommentEditFields: seq<string> := ["Name", "Tags", "author_id_c", "content_c"]

  /** `updateComment`'s entries: the id, the copied fields, the clock
      reading `now`, the mentions, and the edit flag set. */
  function UpdateCommentEntries(commentId: Value, d: Record, now: string): seq<(string, Option<Value>)> {
    [("Id", Some(commentId))] + Picked(d, CommentEditFields) + [("updated_at_c", Some(VStr(now)))] +
    Picked(d, ["mentions_c"]) + [("is_edited_c", Some(VBool(true)))]
  }

  /** `updateComment`'s record. */
  function UpdateComment(commentId: Value, d: Record, now: string): (r: Record)
    ensures r.Keys <= set k | k in ["Id"] + CommentEditFields + ["updated_at_c", "mentions_c", "is_edited_c"]
  {
    var es := UpdateCommentEntries(commentId, d, now);
    var allowed := ["Id"] + CommentEditFields + ["updated_at_c", "mentions_c", "is_edited_c"];
    assert forall j :: 0 <= j < |es| ==> es[j].0 == allowed[j];
    Obj(es)
  }

  /** Whatever the input says, the record marks the comment edited. */
  lemma UpdateCommentEdited(commentId: Value, d: Record, now: string)
    ensures Get(UpdateComment(commentId, d, now), "is_edited_c") == Some(VBool(true))
  {
    var es := UpdateCommentEntries(commentId, d, now);
    FixedEntry(es[..|es| - 1], "is_edited_c", Some(VBool(true)), []);
    assert es[..|es| - 1] + [("is_edited_c", Some(VBool(true)))] + [] == es;
  }

  /** Whatever the input says, the record is stamped with the clock
      reading `now`. */
  lemma UpdateCommentStamped(commentId: Value, d: Record, now: string)
    ensures Get(UpdateComment(commentId, d, now), "updated_at_c") == Some(VStr(now))
  {
    var pre := [("Id", Some(commentId))] + Picked(d, CommentEditFields);
    var post := Picked(d, ["mentions_c"]) + [("is_edited_c", Some(VBool(true)))];
    FixedEntry(pre, "updated_at_c", Some(VStr(now)), post);
    assert pre + [("updated_at_c", Some(VStr(now)))] + post == UpdateCommentEntries(commentId, d, now);
  }

  /** The record carries the comment id as given. */
  lemma UpdateCommentId(commentId: Value, d: Record, now: string)
    ensures Get(UpdateComment(commentId, d, now), "Id") == Some(commentId)
  {
    var es := UpdateCommentEntries(commentId, d, now);
    var allowed := ["Id"] + CommentEditFields + ["updated_at_c", "mentions_c", "is_edited_c"];
    assert forall j :: 0 <= j < |es| ==> es[j].0 == allowed[j];
    FixedEntry([], "Id", Some(commentId), es[1..]);
    assert [] + [("Id", Some(commentId))] + es[1..] == es;
  }

  /** A copied field of `updateComment` is sent exactly when the input
      defines it. */
  lemma UpdateCommentCopies(commentId: Value, d: Record, now: string, k: string)
    requires k in CommentEditFields || k == "mentions_c"
    ensures Get(UpdateComment(commentId, d, now), k) == Get(d, k)
  {
    var es := UpdateCommentEntries(commentId, d, now);
    var head := [("Id", Some(commentId))];
    var clock := [("updated_at_c", Some(VStr(now)))];
    var flag := [("is_edited_c", Some(VBool(true)))];
    if k in CommentEditFields {
      PickedEntry(d, head, CommentEditFields, clock + Picked(d, ["mentions_c"]) + flag, k);
      assert head + Picked(d, CommentEditFields) + (clock + Picked(d, ["mentions_c"]) + flag) == es;
    } else {
      PickedEntry(d, head + Picked(d, CommentEditFields) + clock, ["mentions_c"], flag, k);
    }
  }

  /** The input's own edit flag and timestamp make no difference to
      `updateComment`. */
  lemma UpdateCommentIgnoresStamps(commentId: Value, d: Record, e: Record, now: string)
    requires forall k :: k != "is_edited_c" && k != "updated_at_c" ==> Get(d, k) == Get(e, k)
    ensures UpdateComment(commentId, d, now) == UpdateComment(commentId, e, now)
  {
    assert Picked(d, CommentEditFields) == Picked(e, CommentEditFields);
    assert Picked(d, ["mentions_c"]) == Picked(e, ["mentions_c"]);
  }

  /** `remove`'s argument: one id, or an array of them. */
  datatype Ids = One(id: Value) | Many(ids: seq<Value>)

  /** `Array.isArray(ids) ? ids : [ids]`. */
  function RecordIds(ids: Ids): (r: seq<Value>)
    ensures |r| > 0 || ids == Many([])
  {
    match ids
    case One(id) => [id]
    case Many(s) => s
  }

  /** `remove`: true only when some record was deleted and the successes
      number the ids sent. */
  function Remove(ids: Ids, reply: Reply): (b: bool)
    ensures b <==> HasResults(reply) && |RecordIds(ids)| > 0 && |SuccessAt(ResultsOf(reply))| == |RecordIds(ids)|
    ensures b ==> AnySucceeded(reply)
    ensures b ==> HasResults(reply) && |Successes(ResultsOf(reply))| == |RecordIds(ids)|
    ensures ids == Many([]) ==> !b
    ensures ids.One? ==> (b <==> HasResults(reply) && |Successes(ResultsOf(reply))| == 1)
    ensures HasResults(reply) && |ResultsOf(reply)| == |RecordIds(ids)| && |RecordIds(ids)| > 0 ==>
      (b <==> forall i :: 0 <= i < |ResultsOf(reply)| ==> ResultsOf(reply)[i].success)
  {
    AllOfSome(reply, |RecordIds(ids)|)
  }

  /** `getCommentsByIssueId`'s where-clause. */
  function CommentsOfIssue(issueId: Value): seq<Condition> {
    ByParsedId("task_id_c", issueId)
  }

  /** The position of each field in `searchIssues`' fixed order. */
  function Rank(field: string): nat {
    if field == "title_c" then 0
    else if field == "status_c" then 1
    else if field == "priority_c" then 2
    else if field == "type_c" then 3
    else 4
  }

  /** The title condition of `searchIssues`: present for a term that trims
      to some text; `None` when the term is truthy but not text, for which
      the `trim` call throws and the search yields `[]`. */
  function TitleCondition(term: Option<Value>): Option<seq<Condition>> {
    if !TruthyOpt(term) then Some([])
    else match term.value
      case VStr(s) =>
        var t := Trim(s);
        if t == "" then Some([]) else Some([Condition("title_c", Contains, [VStr(t)])])
      case _ => None
  }

  /** An `EqualTo` condition on `field` when the filter value is truthy. */
  function FilterCondition(filters: Record, field: string, parse: bool): (cs: seq<Condition>)
    ensures |cs| <= 1
    ensures |cs| == 1 <==> TruthyAt(filters, field)
    ensures |cs| == 1 ==> cs[0].field == field && cs[0].op == EqualTo
  {
    if TruthyAt(filters, field) then
      [Condition(field, EqualTo, [if parse then ParseInt(filters[field]) else filters[field]])]
    else []
  }

  /** The filter conditions of `searchIssues`, in their fixed order. */
  function FilterConditions(filters: Record): seq<Condition> {
    FilterCondition(filters, "status_c", false) +
    (FilterCondition(filters, "priority_c", false) +
     (FilterCondition(filters, "type_c", false) + FilterCondition(filters, "project_id_c", true)))
  }

  /** `searchIssues`' where-clause, or `None` when building it throws. */
  function SearchIssues(term: Option<Value>, filters: Record): (r: Option<seq<Condition>>)
    ensures r.Some? <==> !TruthyOpt(term) || term.value.VStr?
  {
    match TitleCondition(term)
    case None => None
    case Some(title) => Some(title + FilterConditions(filters))
  }

  /** Every field's conditions come after those of lower rank. */
  predicate RankSorted(cs: seq<Condition>) {
    forall i, j :: 0 <= i < j < |cs| ==> Rank(cs[i].field) < Rank(cs[j].field)
  }

  /** Every condition ranks at least `r`. */
  predicate RanksFrom(cs: seq<Condition>, r: nat) {
    forall i :: 0 <= i < |cs| ==> Rank(cs[i].field) >= r
  }

  /** A part of rank `r` put before ranked conditions of higher rank keeps
      them ranked. */
  lemma RankedCons(a: seq<Condition>, b: seq<Condition>, r: nat)
    requires forall i :: 0 <= i < |a| ==> Rank(a[i].field) == r
    requires |a| <= 1 && RankSorted(b) && RanksFrom(b, r + 1)
    ensures RankSorted(a + b) && RanksFrom(a + b, r)
  {
  }

  /** A filter condition has the rank of its field. */
  lemma FilterConditionRank(filters: Record, field: string, parse: bool)
    ensures forall i :: 0 <= i < |FilterCondition(filters, field, parse)| ==>
      Rank(FilterCondition(filters, field, parse)[i].field) == Rank(field)
  {
  }

  lemma TypeProjectRanked(filters: Record)
    ensures RankSorted(FilterCondition(filters, "type_c", false) + FilterCondition(filters, "project_id_c", true))
    ensures RanksFrom(FilterCondition(filters, "type_c", false) + FilterCondition(filters, "project_id_c", true), 3)
  {
    FilterConditionRank(filters, "type_c", false);
    FilterConditionRank(filters, "project_id_c", true);
    RankedCons(FilterCondition(filters, "type_c", false), FilterCondition(filters, "project_id_c", true), 3);
  }

  /** The filter conditions come in the order status, priority, type,
      project. */
  lemma FilterConditionsRanked(filters: Record)
    ensures RankSorted(FilterConditions(filters)) && RanksFrom(FilterConditions(filters), 1)
  {
    var st := FilterCondition(filters, "status_c", false);
    var pr := FilterCondition(filters, "priority_c", false);
    var rest := FilterCondition(filters, "type_c", false) + FilterCondition(filters, "project_id_c", true);
    TypeProjectRanked(filters);
    FilterConditionRank(filters, "priority_c", false);
    RankedCons(pr, rest, 2);
    FilterConditionRank(filters, "status_c", false);
    RankedCons(st, pr + rest, 1);
  }

  /** The conditions appear in the fixed order title, status, priority,
      type, project, each at most once. */
  lemma SearchIssuesOrder(term: Option<Value>, filters: Record)
    requires !TruthyOpt(term) || term.value.VStr?
    ensures RankSorted(SearchIssues(term, filters).value)
    ensures forall i :: 0 <= i < |SearchIssues(term, filters).value| ==>
      IsSearchField(SearchIssues(term, filters).value[i].field)
  {
    var title := TitleCondition(term).value;
    FilterConditionsRanked(filters);
    TitleConditionRank(term);
    RankedCons(title, FilterConditions(filters), 0);
    SearchIssuesFields(term, filters);
  }

  lemma SearchIssuesFields(term: Option<Value>, filters: Record)
    requires !TruthyOpt(term) || term.value.VStr?
    ensures forall i :: 0 <= i < |SearchIssues(term, filters).value| ==>
      IsSearchField(SearchIssues(term, filters).value[i].field)
  {
    var title := TitleCondition(term).value;
    var fs := FilterConditions(filters);
    TitleConditionRank(term);
    FilterConditionsFields(filters);
    var cs := title + fs;
    assert SearchIssues(term, filters).value == cs;
    forall i | 0 <= i < |cs| ensures IsSearchField(cs[i].field) {
      if i < |title| {
        assert Rank(title[i].field) == 0;
      } else {
        assert cs[i] == fs[i - |title|];
      }
    }
  }

  /** The fields a search condition may be on: the title and the four
      filters. */
  predicate IsSearchField(field: string) {
    field == "title_c" || IsSearchFilter(field)
  }

  /** Every filter condition is on one of the four filter fields. */
  lemma FilterConditionsFields(filters: Record)
    ensures forall i :: 0 <= i < |FilterConditions(filters)| ==> IsSearchFilter(FilterConditions(filters)[i].field)
  {
    var st := FilterCondition(filters, "status_c", false);
    var pr := FilterCondition(filters, "priority_c", false);
    var ty := FilterCondition(filters, "type_c", false);
    var pj := FilterCondition(filters, "project_id_c", true);
    var cs := FilterConditions(filters);
    assert cs == st + (pr + (ty + pj));
    forall i | 0 <= i < |cs| ensures IsSearchFilter(cs[i].field) {
      if i < |st| {
        assert cs[i] == st[i];
      } else if i < |st| + |pr| {
        assert cs[i] == pr[i - |st|];
      } else if i < |st| + |pr| + |ty| {
        assert cs[i] == ty[i - |st| - |pr|];
      } else {
        assert cs[i] == pj[i - |st| - |pr| - |ty|];
      }
    }
  }

  /** The title condition, when there is one, is on the title. */
  lemma TitleConditionRank(term: Option<Value>)
    requires TitleCondition(term).Some?
    ensures |TitleCondition(term).value| <= 1
    ensures forall i :: 0 <= i < |TitleCondition(term).value| ==> Rank(TitleCondition(term).value[i].field) == 0
  {
  }

  /** The condition on `field` in a where-clause, if there is one. */
  function ConditionOn(cs: seq<Condition>, field: string): (c: Option<Condition>)
    ensures c.Some? ==> c.value in cs && c.value.field == field
    ensures c.None? ==> forall i :: 0 <= i < |cs| ==> cs[i].field != field
  {
    if |cs| == 0 then None
    else if cs[0].field == field then Some(cs[0])
    else ConditionOn(cs[1..], field)
  }

  /** The filters a search may name, and which of them is parsed. */
  predicate IsSearchFilter(field: string) {
    field == "status_c" || field == "priority_c" || field == "type_c" || field == "project_id_c"
  }

  /** Each filter contributes exactly when it is truthy: the project
      parsed, the others as given. */
  lemma SearchIssuesFilter(term: Option<Value>, filters: Record, field: string)
    requires !TruthyOpt(term) || term.value.VStr?
    requires IsSearchFilter(field)
    ensures ConditionOn(SearchIssues(term, filters).value, field) ==
      if !TruthyAt(filters, field) then None
      else if field == "project_id_c" then Some(Condition(field, EqualTo, [ParseInt(filters[field])]))
      else Some(Condition(field, EqualTo, [filters[field]]))
  {
    var title := TitleCondition(term).value;
    var st := FilterCondition(filters, "status_c", false);
    var pr := FilterCondition(filters, "priority_c", false);
    var ty := FilterCondition(filters, "type_c", false);
    var pj := FilterCondition(filters, "project_id_c", true);
    TitleConditionRank(term);
    assert ConditionOn(title, field) == None;
    ConditionOnAppend(title, FilterConditions(filters), field);
    ConditionOnAppend(st, pr + (ty + pj), field);
    ConditionOnAppend(pr, ty + pj, field);
    ConditionOnAppend(ty, pj, field);
    FilterConditionOn(filters, "status_c", false, field);
    FilterConditionOn(filters, "priority_c", false, field);
    FilterConditionOn(filters, "type_c", false, field);
    FilterConditionOn(filters, "project_id_c", true, field);
  }

  /** A filter condition answers for its own field only. */
  lemma FilterConditionOn(filters: Record, g: string, parse: bool, field: string)
    ensures ConditionOn(FilterCondition(filters, g, parse), field) ==
      if g != field || !TruthyAt(filters, g) then None
      else Some(Condition(g, EqualTo, [if parse then ParseInt(filters[g]) else filters[g]]))
  {
  }

  /** The first condition on a field is in the first part that has one. */
  lemma {:induction false} ConditionOnAppend(a: seq<Condition>, b: seq<Condition>, field: string)
    ensures ConditionOn(a + b, field) == if ConditionOn(a, field).Some? then ConditionOn(a, field) else ConditionOn(b, field)
  {
    if |a| > 0 {
      assert (a + b)[1..] == a[1..] + b;
      ConditionOnAppend(a[1..], b, field);
    } else {
      assert a + b == b;
    }
  }

  /** A term that trims to text becomes the leading title condition. */
  lemma SearchIssuesTitle(s: string, filters: Record)
    requires Trim(s) != ""
    ensures |SearchIssues(Some(VStr(s)), filters).value| > 0
    ensures SearchIssues(Some(VStr(s)), filters).value[0] == Condition("title_c", Contains, [VStr(Trim(s))])
  {
    var c := Condition("title_c", Contains, [VStr(Trim(s))]);
    assert TitleCondition(Some(VStr(s))) == Some([c]);
    assert SearchIssues(Some(VStr(s)), filters).value == [c] + FilterConditions(filters);
  }

  /** Whatever the filters, the search has a title condition exactly when
      the term is text that trims to something, and it is `Contains` on the
      trimmed text. */
  lemma SearchIssuesTitleIff(term: Option<Value>, filters: Record)
    requires SearchIssues(term, filters).Some?
    ensures ConditionOn(SearchIssues(term, filters).value, "title_c") ==
      if term.Some? && term.value.VStr? && Trim(term.value.s) != "" then
        Some(Condition("title_c", Contains, [VStr(Trim(term.value.s))]))
      else None
  {
    var title := TitleCondition(term).value;
    var fs := FilterConditions(filters);
    FilterConditionsRanked(filters);
    ConditionOnAppend(title, fs, "title_c");
    assert ConditionOn(fs, "title_c").None?;
    if term.Some? && term.value.VStr? && !TruthyOpt(term) {
      assert term.value.s == "";
      assert Trim(term.value.s) == "" by { TrimEmptyIffAllSpace(term.value.s); }
    }
  }

  /** With no term and no filters there are no conditions at all. */
  lemma SearchIssuesNothing(term: Option<Value>)
    requires term.None? || (term.value.VStr? && AllSpace(term.value.s))
    ensures SearchIssues(term, map[]) == Some([])
  {
    if term.Some? {
      TrimEmptyIffAllSpace(term.value.s);
    }
    assert TitleCondition(term) == Some([]);
    assert FilterConditions(map[]) == [];
  }

  /** Length of the `\w` run at the start of `s`. */
  function WordRun(s: string): (n: nat)
    ensures n <= |s|
    ensures forall i :: 0 <= i < n ==> IsWordChar(s[i])
    ensures n == |s| || !IsWordChar(s[n])
  {
    if |s| > 0 && IsWordChar(s[0]) then
      var n := 1 + WordRun(s[1..]);
      assert forall i :: 1 <= i < n ==> s[i] == s[1..][i - 1];
      n
    else 0
  }

  /** An `@` at `i` followed by a word character starts a mention. */
  predicate MentionAt(s: string, i: int) {
    0 <= i && i + 1 < |s| && s[i] == '@' && IsWordChar(s[i + 1])
  }

  /** The mention starting at `i`: the whole word run after the `@`. */
  function MentionFrom(s: string, i: int): string
    requires MentionAt(s, i)
  {
    s[i + 1..i + 1 + WordRun(s[i + 1..])]
  }

  predicate IsWord(w: string) {
    |w| > 0 && forall i :: 0 <= i < |w| ==> IsWordChar(w[i])
  }

  /** `extractMentions`: the scan of `/@(\w+)/g`, each search resuming
      where the previous match ended. */
  function ExtractMentions(s: string): (ms: seq<string>)
    ensures forall j :: 0 <= j < |ms| ==> IsWord(ms[j])
    decreases |s|
  {
    if |s| == 0 then []
    else if MentionAt(s, 0) then
      var n := WordRun(s[1..]);
      [s[1..1 + n]] + ExtractMentions(s[1 + n..])
    else ExtractMentions(s[1..])
  }

  /** The mentions at each `@` from position `i` on, read position by
      position: the reference reading of the scan. */
  function MentionsFrom(s: string, i: nat): seq<string>
    requires i <= |s|
    decreases |s| - i
  {
    if i == |s| then []
    else (if MentionAt(s, i) then [MentionFrom(s, i)] else []) + MentionsFrom(s, i + 1)
  }

  /** No position without an `@` starts a mention. */
  lemma {:induction false} MentionsSkip(s: string, a: nat, b: nat)
    requires a <= b <= |s|
    requires forall k :: a <= k < b ==> s[k] != '@'
    ensures MentionsFrom(s, a) == MentionsFrom(s, b)
    decreases b - a
  {
    if a < b {
      MentionsSkip(s, a + 1, b);
    }
  }

  /** The scan of the rest of the text from `i` finds the mention at every
      `@` from `i` on: no `@` is swallowed by an earlier match. */
  lemma {:induction false} ExtractMentionsFrom(s: string, i: nat)
    requires i <= |s|
    ensures ExtractMentions(s[i..]) == MentionsFrom(s, i)
    decreases |s| - i
  {
    var t := s[i..];
    if i < |s| {
      assert t[1..] == s[i + 1..];
      if MentionAt(t, 0) {
        assert MentionAt(s, i);
        var n := WordRun(t[1..]);
        assert t[1 + n..] == s[i + 1 + n..];
        assert MentionFrom(s, i) == t[1..1 + n];
        ExtractMentionsFrom(s, i + 1 + n);
        forall k | i + 1 <= k < i + 1 + n ensures s[k] != '@' {
          assert s[k] == t[1..][k - i - 1];
        }
        MentionsSkip(s, i + 1, i + 1 + n);
      } else {
        assert !MentionAt(s, i);
        ExtractMentionsFrom(s, i + 1);
      }
    }
  }

  /** `extractMentions` yields one mention per `@` that a word character
      follows, in order. */
  lemma ExtractMentionsAtEachAt(s: string)
    ensures ExtractMentions(s) == MentionsFrom(s, 0)
  {
    ExtractMentionsFrom(s, 0);
    assert s[0..] == s;
  }

  /** There are never more mentions than `@` characters from `i` on. */
  lemma {:induction false} MentionsFromBound(s: string, i: nat)
    requires i <= |s|
    ensures |MentionsFrom(s, i)| <= multiset(s[i..])['@']
    decreases |s| - i
  {
    if i < |s| {
      MentionsFromBound(s, i + 1);
      assert s[i..] == [s[i]] + s[i + 1..];
    }
  }

  /** There are never more mentions than `@` characters. */
  lemma ExtractMentionsBound(s: string)
    ensures |ExtractMentions(s)| <= multiset(s)['@']
  {
    ExtractMentionsAtEachAt(s);
    MentionsFromBound(s, 0);
    assert s[0..] == s;
  }
}

=== FILE: payload.dfy ===
/** Write payloads built field by field from a loosely shaped input.

    Every update builder in the services is a chain of statements
    `if (data.src !== undefined) out.dst = conv(data.src);`, where a field
    may be fed by its storage name and by one or more convenience aliases.
    A `Rule` groups the statements that write one field, in source order;
    `Apply` runs the chain exactly as written. `LastSupplied` is the
    independent reading of the same chain: the last supplied source wins. */
module Payload {
  import opened Values

  /** How a supplied input value is coerced before it is written. A result of
      `None` is `undefined`, which the builders strip from the payload. */
  datatype Conv =
    | Raw          // the value as given
    | Int          // parseInt(v)
    | Float        // parseFloat(v)
    | IntOrNull    // v ? parseInt(v) : null
    | IntIfTruthy  // v ? parseInt(v) : undefined
    | StrOrEmpty   // String(v || '')
    | NumOrZero    // Number(v) || 0
    | FloatOrZero  // parseFloat(v) || 0

  function Convert(c: Conv, v: Value): Option<Value> {
    match c
    case Raw => Some(v)
    case Int => Some(ParseInt(v))
    case Float => Some(ParseFloat(v))
    case IntOrNull => Some(if Truthy(v) then ParseInt(v) else VNull)
    case IntIfTruthy => if Truthy(v) then Some(ParseInt(v)) else None
    case StrOrEmpty => Some(VStr(ToStr(OrElse(Some(v), VStr("")))))
    case NumOrZero => Some(OrElse(Some(ToNumber(v)), VNum(0)))
    case FloatOrZero => Some(OrElse(Some(ParseFloat(v)), VNum(0)))
  }

  /** The statements that write field `dst`, one per source, in source order. */
  datatype Rule = Rule(dst: string, srcs: seq<string>, conv: Conv)

  /** `out[dst] = o`, where writing undefined leaves the key out. */
  function Write(acc: Record, dst: string, o: Option<Value>): Record {
    match o
    case Some(v) => acc[dst := v]
    case None => acc - {dst}
  }

  /** The statements of one rule, run in order. */
  function ApplySrcs(d: Record, dst: string, srcs: seq<string>, conv: Conv, acc: Record): Record
    decreases |srcs|
  {
    if |srcs| == 0 then acc
    else
      var acc' := if srcs[0] in d then Write(acc, dst, Convert(conv, d[srcs[0]])) else acc;
      ApplySrcs(d, dst, srcs[1..], conv, acc')
  }

  function ApplyRule(d: Record, r: Rule, acc: Record): Record {
    ApplySrcs(d, r.dst, r.srcs, r.conv, acc)
  }

  /** The whole chain of statements, rule after rule. */
  function Apply(d: Record, rules: seq<Rule>, acc: Record): Record
    decreases |rules|
  {
    if |rules| == 0 then acc else Apply(d, rules[1..], ApplyRule(d, rules[0], acc))
  }

  /** The last source of `srcs` the caller supplied, found from the end. */
  function LastSupplied(d: Record, srcs: seq<string>): (o: Option<string>)
    ensures o.Some? ==> o.value in d && o.value in srcs
    ensures o.None? ==> forall i :: 0 <= i < |srcs| ==> srcs[i] !in d
  {
    if |srcs| == 0 then None
    else if srcs[|srcs| - 1] in d then Some(srcs[|srcs| - 1])
    else LastSupplied(d, srcs[..|srcs| - 1])
  }

  /** What a rule writes, if it fires: `None` when no source was supplied. */
  function Fire(d: Record, r: Rule): Option<Option<Value>> {
    match LastSupplied(d, r.srcs)
    case None => None
    case Some(s) => Some(Convert(r.conv, d[s]))
  }

  /** The two maps agree at key `k`: both lack it or both hold the same value. */
  predicate AgreeAt(m1: Record, m2: Record, k: string) {
    (k in m1 <==> k in m2) && (k in m1 ==> m1[k] == m2[k])
  }

  predicate DistinctTargets(rules: seq<Rule>) {
    forall i, j :: 0 <= i < j < |rules| ==> rules[i].dst != rules[j].dst
  }

  function Targets(rules: seq<Rule>): set<string> {
    set i | 0 <= i < |rules| :: rules[i].dst
  }

  lemma {:induction false} LastSuppliedCons(d: Record, s: string, rest: seq<string>)
    ensures LastSupplied(d, [s] + rest)
         == if LastSupplied(d, rest).Some? then LastSupplied(d, rest)
            else if s in d then Some(s) else None
    decreases |rest|
  {
    var all := [s] + rest;
    if |rest| > 0 {
      assert all[..|all| - 1] == [s] + rest[..|rest| - 1];
      assert all[|all| - 1] == rest[|rest| - 1];
      LastSuppliedCons(d, s, rest[..|rest| - 1]);
    } else {
      assert all[..0] == [];
    }
  }

  /** A second write to the same field overrides the first. */
  lemma WriteTwice(acc: Record, dst: string, o0: Option<Value>, o: Option<Value>)
    ensures Write(Write(acc, dst, o0), dst, o) == Write(acc, dst, o)
  {
    assert Write(Write(acc, dst, o0), dst, o).Keys == Write(acc, dst, o).Keys;
  }

  /** Running a rule's statements in order leaves exactly what the last
      supplied source writes. */
  lemma {:induction false} ApplySrcsLastWins(d: Record, dst: string, srcs: seq<string>, conv: Conv, acc: Record)
    ensures ApplySrcs(d, dst, srcs, conv, acc)
         == match LastSupplied(d, srcs)
            case None => acc
            case Some(s) => Write(acc, dst, Convert(conv, d[s]))
    decreases |srcs|
  {
    if |srcs| > 0 {
      var acc' := if srcs[0] in d then Write(acc, dst, Convert(conv, d[srcs[0]])) else acc;
      ApplySrcsLastWins(d, dst, srcs[1..], conv, acc');
      assert srcs == [srcs[0]] + srcs[1..];
      LastSuppliedCons(d, srcs[0], srcs[1..]);
      match LastSupplied(d, srcs[1..]) {
        case None =>
        case Some(s) =>
          if srcs[0] in d {
            WriteTwice(acc, dst, Convert(conv, d[srcs[0]]), Convert(conv, d[s]));
          }
      }
    }
  }

  lemma ApplyRuleFires(d: Record, r: Rule, acc: Record)
    ensures ApplyRule(d, r, acc)
         == match Fire(d, r)
            case None => acc
            case Some(o) => Write(acc, r.dst, o)
  {
    ApplySrcsLastWins(d, r.dst, r.srcs, r.conv, acc);
  }

  /** A rule only touches its own field, and what it leaves there depends
      only on what was there before. */
  lemma ApplyRuleLocal(d: Record, r: Rule, a: Record, b: Record, k: string)
    ensures k != r.dst ==> AgreeAt(ApplyRule(d, r, a), a, k)
    ensures AgreeAt(a, b, k) ==> AgreeAt(ApplyRule(d, r, a), ApplyRule(d, r, b), k)
  {
    ApplyRuleFires(d, r, a);
    ApplyRuleFires(d, r, b);
  }

  /** With one rule per field, the chain as written equals every rule
      applied on its own: each field holds what its last supplied source
      writes, and every other key keeps its starting value. */
  lemma {:induction false} ApplyEachRule(d: Record, rules: seq<Rule>, acc: Record)
    requires DistinctTargets(rules)
    ensures forall i :: 0 <= i < |rules| ==> AgreeAt(Apply(d, rules, acc), ApplyRule(d, rules[i], acc), rules[i].dst)
    ensures forall k :: k !in Targets(rules) ==> AgreeAt(Apply(d, rules, acc), acc, k)
    decreases |rules|
  {
    if |rules| > 0 {
      var acc1 := ApplyRule(d, rules[0], acc);
      var tail := rules[1..];
      ApplyEachRule(d, tail, acc1);
      var r := Apply(d, rules, acc);
      assert r == Apply(d, tail, acc1);
      forall i | 0 <= i < |rules|
        ensures AgreeAt(r, ApplyRule(d, rules[i], acc), rules[i].dst)
      {
        if i == 0 {
          assert rules[0].dst !in Targets(tail);
        } else {
          var k := rules[i].dst;
          assert tail[i - 1] == rules[i];
          ApplyRuleLocal(d, rules[0], acc, acc, k);
          ApplyRuleLocal(d, rules[i], acc1, acc, k);
        }
      }
      forall k | k !in Targets(rules)
        ensures AgreeAt(r, acc, k)
      {
        assert k != rules[0].dst;
        assert k !in Targets(tail);
        ApplyRuleLocal(d, rules[0], acc, acc, k);
      }
    }
  }

  /** What field `r.dst` holds once rule `r` has run on top of `base`:
      what its last supplied source writes, or what `base` held there. */
  function Written(d: Record, r: Rule, base: Record): Option<Value> {
    match Fire(d, r)
    case None => Get(base, r.dst)
    case Some(o) => o
  }

  lemma AgreeAtGet(m1: Record, m2: Record, k: string)
    ensures AgreeAt(m1, m2, k) <==> Get(m1, k) == Get(m2, k)
  {
  }

  lemma WriteGet(acc: Record, dst: string, o: Option<Value>)
    ensures Get(Write(acc, dst, o), dst) == o
  {
  }

  /** The payload the chain of rules builds on top of `base`: every field
      holds what its own rule writes, and every other key is untouched. */
  function Build(d: Record, rules: seq<Rule>, base: Record): (r: Record)
    requires DistinctTargets(rules)
    ensures forall i :: 0 <= i < |rules| ==> Get(r, rules[i].dst) == Written(d, rules[i], base)
    ensures forall k :: k !in Targets(rules) ==> Get(r, k) == Get(base, k)
  {
    ApplyEachRule(d, rules, base);
    var r := Apply(d, rules, base);
    forall i | 0 <= i < |rules|
      ensures Get(r, rules[i].dst) == Written(d, rules[i], base)
    {
      ApplyRuleFires(d, rules[i], base);
      AgreeAtGet(r, ApplyRule(d, rules[i], base), rules[i].dst);
    }
    forall k | k !in Targets(rules)
      ensures Get(r, k) == Get(base, k)
    {
      AgreeAtGet(r, base, k);
    }
    r
  }

  /** The last supplied of two sources. */
  lemma LastSuppliedOfTwo(d: Record, a: string, b: string)
    ensures LastSupplied(d, [a, b]) == if b in d then Some(b) else if a in d then Some(a) else None
  {
    assert [a, b][..1] == [a];
    assert [a][..0] == [];
  }

  /** The last supplied of three sources. */
  lemma LastSuppliedOfThree(d: Record, a: string, b: string, c: string)
    ensures LastSupplied(d, [a, b, c]) ==
      if c in d then Some(c) else if b in d then Some(b) else if a in d then Some(a) else None
  {
    assert [a, b, c][..2] == [a, b];
    LastSuppliedOfTwo(d, a, b);
  }

  /** Rule `i` of a chain with one rule per field decides its field. */
  lemma BuildAt(d: Record, rules: seq<Rule>, base: Record, i: int)
    requires DistinctTargets(rules) && 0 <= i < |rules|
    ensures Get(Apply(d, rules, base), rules[i].dst) == Written(d, rules[i], base)
  {
    var r := Build(d, rules, base);
  }

  /** A key no rule targets keeps its starting value. */
  lemma BuildOff(d: Record, rules: seq<Rule>, base: Record, k: string)
    requires DistinctTargets(rules) && k !in Targets(rules)
    ensures Get(Apply(d, rules, base), k) == Get(base, k)
  {
    var r := Build(d, rules, base);
  }

  /** An update payload: `{ Id: idv }` followed by the chain of statements.
      The id is never overwritten. */
  function Stamped(idv: Value, d: Record, rules: seq<Rule>): (r: Record)
    requires DistinctTargets(rules) && "Id" !in Targets(rules)
    ensures "Id" in r && r["Id"] == idv
  {
    var base := map["Id" := idv];
    BuildOff(d, rules, base, "Id");
    Apply(d, rules, base)
  }
  /** A field fed by a storage name and an alias: the alias, assigned
      second, wins; with neither supplied the field is not sent. */
  lemma StampedPair(idv: Value, d: Record, rules: seq<Rule>, i: int, dst: string, name: string, alias: string, conv: Conv)
    requires DistinctTargets(rules) && "Id" !in Targets(rules)
    requires 0 <= i < |rules| && rules[i] == Rule(dst, [name, alias], conv)
    ensures Get(Stamped(idv, d, rules), dst) ==
      if alias in d then Convert(conv, d[alias])
      else if name in d then Convert(conv, d[name])
      else None
  {
    BuildPair(d, rules, map["Id" := idv], i);
    assert dst in Targets(rules);
  }

  /** A field fed by one source: written when it is supplied, else not sent. */
  lemma StampedSingle(idv: Value, d: Record, rules: seq<Rule>, i: int, dst: string, src: string, conv: Conv)
    requires DistinctTargets(rules) && "Id" !in Targets(rules)
    requires 0 <= i < |rules| && rules[i] == Rule(dst, [src], conv)
    ensures Get(Stamped(idv, d, rules), dst) == if src in d then Convert(conv, d[src]) else None
  {
    BuildSingle(d, rules, map["Id" := idv], i);
    assert dst in Targets(rules);
  }

  /** The payload holds the id and fields from `allowed` only. */
  lemma StampedKeys(idv: Value, d: Record, rules: seq<Rule>, allowed: set<string>)
    requires DistinctTargets(rules) && "Id" !in Targets(rules)
    requires OnlyTouches(d.Keys, rules, allowed, 0)
    ensures Stamped(idv, d, rules).Keys <= {"Id"} + allowed
  {
    ApplyKeys(d, rules, map["Id" := idv], allowed);
  }

  /** A field other than the id is sent only when one of its sources was
      supplied. */
  lemma StampedSupplied(idv: Value, d: Record, rules: seq<Rule>, k: string)
    requires DistinctTargets(rules) && "Id" !in Targets(rules)
    ensures k in Stamped(idv, d, rules) && k != "Id" ==>
      exists i, j :: 0 <= i < |rules| && rules[i].dst == k &&
                     0 <= j < |rules[i].srcs| && rules[i].srcs[j] in d
  {
    BuildKeys(d, rules, map["Id" := idv], k);
  }

  /** A rule fires exactly when one of its sources was supplied. */
  lemma FireIffSupplied(d: Record, r: Rule)
    ensures Fire(d, r).Some? <==> exists j :: 0 <= j < |r.srcs| && r.srcs[j] in d
  {
  }

  /** Every key of the built payload was in `base` or was written by a rule
      one of whose sources was supplied. */
  lemma BuildKeys(d: Record, rules: seq<Rule>, base: Record, k: string)
    requires DistinctTargets(rules)
    ensures k in Apply(d, rules, base) ==>
      k in base || exists i, j :: 0 <= i < |rules| && rules[i].dst == k &&
                                  0 <= j < |rules[i].srcs| && rules[i].srcs[j] in d
  {
    if k in Apply(d, rules, base) && k !in base {
      if k in Targets(rules) {
        var i :| 0 <= i < |rules| && rules[i].dst == k;
        BuildAt(d, rules, base, i);
        FireIffSupplied(d, rules[i]);
      } else {
        BuildOff(d, rules, base, k);
      }
    }
  }

  /** A rule with a storage name and one alias: the alias wins when both
      were supplied. */
  lemma BuildPair(d: Record, rules: seq<Rule>, base: Record, i: int)
    requires DistinctTargets(rules) && 0 <= i < |rules| && |rules[i].srcs| == 2
    ensures Get(Apply(d, rules, base), rules[i].dst) ==
      if rules[i].srcs[1] in d then Convert(rules[i].conv, d[rules[i].srcs[1]])
      else if rules[i].srcs[0] in d then Convert(rules[i].conv, d[rules[i].srcs[0]])
      else Get(base, rules[i].dst)
  {
    BuildAt(d, rules, base, i);
    assert rules[i].srcs == [rules[i].srcs[0], rules[i].srcs[1]];
    LastSuppliedOfTwo(d, rules[i].srcs[0], rules[i].srcs[1]);
  }

  /** A rule with a single source copies it when supplied. */
  lemma BuildSingle(d: Record, rules: seq<Rule>, base: Record, i: int)
    requires DistinctTargets(rules) && 0 <= i < |rules| && |rules[i].srcs| == 1
    ensures Get(Apply(d, rules, base), rules[i].dst) ==
      if rules[i].srcs[0] in d then Convert(rules[i].conv, d[rules[i].srcs[0]])
      else Get(base, rules[i].dst)
  {
    BuildAt(d, rules, base, i);
    assert rules[i].srcs[..0] == [];
  }

  /** Some source of `srcs` is among the supplied keys. */
  predicate AnySupplied(keys: set<string>, srcs: seq<string>)
    decreases |srcs|
  {
    |srcs| > 0 && (srcs[0] in keys || AnySupplied(keys, srcs[1..]))
  }

  /** Every rule from index `i` on whose sources meet `keys` writes a field
      in `allowed`. */
  predicate OnlyTouches(keys: set<string>, rules: seq<Rule>, allowed: set<string>, i: nat)
    decreases |rules| - i
  {
    i >= |rules| ||
    ((AnySupplied(keys, rules[i].srcs) ==> rules[i].dst in allowed) && OnlyTouches(keys, rules, allowed, i + 1))
  }

  lemma {:induction false} OnlyTouchesTail(keys: set<string>, rules: seq<Rule>, allowed: set<string>, i: nat)
    requires 0 < |rules| && OnlyTouches(keys, rules, allowed, i + 1)
    ensures OnlyTouches(keys, rules[1..], allowed, i)
    decreases |rules| - i
  {
    if i + 1 < |rules| {
      assert rules[1..][i] == rules[i + 1];
      OnlyTouchesTail(keys, rules, allowed, i + 1);
    }
  }

  lemma {:induction false} ApplySrcsKeys(d: Record, dst: string, srcs: seq<string>, conv: Conv, acc: Record)
    ensures ApplySrcs(d, dst, srcs, conv, acc).Keys <= acc.Keys + (if AnySupplied(d.Keys, srcs) then {dst} else {})
    decreases |srcs|
  {
    if |srcs| > 0 {
      var acc' := if srcs[0] in d then Write(acc, dst, Convert(conv, d[srcs[0]])) else acc;
      ApplySrcsKeys(d, dst, srcs[1..], conv, acc');
    }
  }

  /** The chain adds no key outside the fields of the rules whose sources
      were supplied. */
  lemma {:induction false} ApplyKeys(d: Record, rules: seq<Rule>, acc: Record, allowed: set<string>)
    requires OnlyTouches(d.Keys, rules, allowed, 0)
    ensures Apply(d, rules, acc).Keys <= acc.Keys + allowed
    decreases |rules|
  {
    if |rules| > 0 {
      var r := rules[0];
      OnlyTouchesTail(d.Keys, rules, allowed, 0);
      ApplySrcsKeys(d, r.dst, r.srcs, r.conv, acc);
      ApplyKeys(d, rules[1..], ApplyRule(d, r, acc), allowed);
    }
  }

  /** `o1 || o2 || ... || on`: the first truthy operand, else the last one. */
  function OrAll(os: seq<Option<Value>>): (r: Option<Value>)
    requires |os| > 0
    ensures (exists i :: 0 <= i < |os| && TruthyOpt(os[i])) ==>
      exists i :: 0 <= i < |os| && TruthyOpt(os[i]) && r == os[i] &&
                  forall j :: 0 <= j < i ==> !TruthyOpt(os[j])
    ensures (forall i :: 0 <= i < |os| ==> !TruthyOpt(os[i])) ==> r == os[|os| - 1]
  {
    if |os| == 1 then os[0]
    else
      var rest := OrAll(os[1..]);
      assert forall i :: 1 <= i < |os| ==> os[i] == os[1..][i - 1];
      if TruthyOpt(os[0]) then
        assert TruthyOpt(os[0]) && os[0] == os[0];
        os[0]
      else
        assert (exists i :: 1 <= i < |os| && TruthyOpt(os[i])) ==>
          exists i :: 1 <= i < |os| && TruthyOpt(os[i]) && rest == os[i] &&
                      forall j :: 0 <= j < i ==> !TruthyOpt(os[j]) by {
          if exists i :: 1 <= i < |os| && TruthyOpt(os[i]) {
            var i :| 1 <= i < |os| && TruthyOpt(os[i]);
            assert TruthyOpt(os[1..][i - 1]);
            var j :| 0 <= j < |os[1..]| && TruthyOpt(os[1..][j]) && rest == os[1..][j] &&
                     forall m :: 0 <= m < j ==> !TruthyOpt(os[1..][m]);
            assert forall m :: 0 <= m < j + 1 ==> !TruthyOpt(os[m]) by {
              forall m | 0 <= m < j + 1 ensures !TruthyOpt(os[m]) {
                if m > 0 { assert os[m] == os[1..][m - 1]; }
              }
            }
            assert os[j + 1] == os[1..][j];
          }
        }
        rest
  }

  /** `d[srcs[0]] || d[srcs[1]] || ... || dflt`, read key by key: a
      truthy source ends the chain, and the chain falls through to `dflt`. */
  function OrKeys(d: Record, srcs: seq<string>, dflt: Value): Value
    decreases |srcs|
  {
    if |srcs| == 0 then dflt
    else if TruthyAt(d, srcs[0]) then d[srcs[0]]
    else OrKeys(d, srcs[1..], dflt)
  }

  /** `d.a || dflt`. */
  lemma OrKeysOfOne(d: Record, a: string, dflt: Value)
    ensures OrKeys(d, [a], dflt) == if TruthyAt(d, a) then d[a] else dflt
  {
    assert [a][1..] == [];
  }

  /** `d.a || d.b || dflt`. */
  lemma OrKeysOfTwo(d: Record, a: string, b: string, dflt: Value)
    ensures OrKeys(d, [a, b], dflt) ==
      if TruthyAt(d, a) then d[a] else if TruthyAt(d, b) then d[b] else dflt
  {
    assert [a, b][1..] == [b];
    OrKeysOfOne(d, b, dflt);
  }

  /** The operands of the chain `OrKeys` reads. */
  function OrOperands(d: Record, srcs: seq<string>, dflt: Value): (os: seq<Option<Value>>)
    ensures |os| == |srcs| + 1 && os[|srcs|] == Some(dflt)
    ensures forall i :: 0 <= i < |srcs| ==> os[i] == Get(d, srcs[i])
  {
    seq(|srcs|, i requires 0 <= i < |srcs| => Get(d, srcs[i])) + [Some(dflt)]
  }

  /** `OrKeys` is the general `||` chain over its operands. */
  lemma {:induction false} OrKeysIsOrChain(d: Record, srcs: seq<string>, dflt: Value)
    ensures OrKeys(d, srcs, dflt) == OrAll(OrOperands(d, srcs, dflt)).value
    decreases |srcs|
  {
    var os := OrOperands(d, srcs, dflt);
    if |srcs| > 0 {
      var os' := OrOperands(d, srcs[1..], dflt);
      assert os[1..] == os';
      OrKeysIsOrChain(d, srcs[1..], dflt);
      assert OrAll(os) == if TruthyOpt(os[0]) then os[0] else OrAll(os');
    }
  }

  /** The first of `srcs` that holds a truthy value. */
  function FirstTruthy(d: Record, srcs: seq<string>): (o: Option<string>)
    ensures o.Some? ==> o.value in srcs && TruthyAt(d, o.value)
    ensures o.Some? ==> exists i :: 0 <= i < |srcs| && srcs[i] == o.value &&
                                    forall j :: 0 <= j < i ==> !TruthyAt(d, srcs[j])
    ensures o.None? ==> forall i :: 0 <= i < |srcs| ==> !TruthyAt(d, srcs[i])
  {
    if |srcs| == 0 then None
    else if TruthyAt(d, srcs[0]) then Some(srcs[0])
    else
      var o := FirstTruthy(d, srcs[1..]);
      assert forall i :: 1 <= i < |srcs| ==> srcs[i] == srcs[1..][i - 1];
      assert o.Some? ==> exists i :: 0 <= i < |srcs| && srcs[i] == o.value &&
                                     forall j :: 0 <= j < i ==> !TruthyAt(d, srcs[j]) by {
        if o.Some? {
          var i :| 0 <= i < |srcs[1..]| && srcs[1..][i] == o.value &&
                   forall j :: 0 <= j < i ==> !TruthyAt(d, srcs[1..][j]);
          assert forall j :: 0 <= j < i + 1 ==> !TruthyAt(d, srcs[j]) by {
            forall j | 0 <= j < i + 1 ensures !TruthyAt(d, srcs[j]) {
              if j > 0 { assert srcs[j] == srcs[1..][j - 1]; }
            }
          }
          assert srcs[i + 1] == o.value;
        }
      }
      o
  }

  /** A key chain with a truthy fallback yields the first truthy source's
      value, else the fallback. */
  lemma {:induction false} OrKeysFirstTruthy(d: Record, srcs: seq<string>, dflt: Value)
    ensures OrKeys(d, srcs, dflt) == match FirstTruthy(d, srcs)
                                     case Some(k) => d[k]
                                     case None => dflt
    decreases |srcs|
  {
    if |srcs| > 0 && !TruthyAt(d, srcs[0]) {
      OrKeysFirstTruthy(d, srcs[1..], dflt);
    }
  }

  /** `d.a ? parseInt(d.a) : (d.b ? parseInt(d.b) : null)`, read source
      by source. */
  function ParsedOrNull(d: Record, srcs: seq<string>): Value
    decreases |srcs|
  {
    if |srcs| == 0 then VNull
    else if TruthyAt(d, srcs[0]) then ParseInt(d[srcs[0]])
    else ParsedOrNull(d, srcs[1..])
  }

  /** The ternary chain parses the first truthy source, and is null
      exactly when no source is truthy. */
  lemma {:induction false} ParsedOrNullFirstTruthy(d: Record, srcs: seq<string>)
    ensures ParsedOrNull(d, srcs) == match FirstTruthy(d, srcs)
                                     case Some(k) => ParseInt(d[k])
                                     case None => VNull
    ensures ParsedOrNull(d, srcs) == VNull <==> FirstTruthy(d, srcs).None?
    decreases |srcs|
  {
    if |srcs| > 0 && !TruthyAt(d, srcs[0]) {
      ParsedOrNullFirstTruthy(d, srcs[1..]);
    }
  }

  /** Field `k` of `r` is `d[a] || dflt`. */
  predicate OneOr(r: Record, k: string, d: Record, a: string, dflt: Value) {
    k in r && r[k] == if TruthyAt(d, a) then d[a] else dflt
  }

  /** Field `k` of `r` is `d[a] || d[b] || dflt`. */
  predicate TwoOr(r: Record, k: string, d: Record, a: string, b: string, dflt: Value) {
    k in r && r[k] == if TruthyAt(d, a) then d[a] else if TruthyAt(d, b) then d[b] else dflt
  }

  /** Field `k` of `r` is `d[a] ? parseInt(d[a]) : (d[b] ? parseInt(d[b]) : null)`. */
  predicate ParsedOr(r: Record, k: string, d: Record, a: string, b: string) {
    k in r && r[k] == if TruthyAt(d, a) then ParseInt(d[a]) else if TruthyAt(d, b) then ParseInt(d[b]) else VNull
  }

  /** An object literal as it is sent: an entry whose value is undefined is
      left out, and a later entry for the same key wins. */
  function Obj(entries: seq<(string, Option<Value>)>): (r: Record)
    ensures forall k :: k in r ==> exists i :: 0 <= i < |entries| && entries[i].0 == k && entries[i].1.Some?
    decreases |entries|
  {
    if |entries| == 0 then map[]
    else
      var init := entries[..|entries| - 1];
      var last := entries[|entries| - 1];
      var r := Write(Obj(init), last.0, last.1);
      assert forall i :: 0 <= i < |init| ==> init[i] == entries[i];
      r
  }

  /** No later entry repeats the key of entry `i`. */
  predicate LastFor(entries: seq<(string, Option<Value>)>, i: int)
    requires 0 <= i < |entries|
  {
    forall j :: i < j < |entries| ==> entries[j].0 != entries[i].0
  }

  /** The last entry for a key decides it: present with its value when
      defined, absent when undefined. */
  lemma {:induction false} ObjEntry(entries: seq<(string, Option<Value>)>, i: int)
    requires 0 <= i < |entries| && LastFor(entries, i)
    ensures Get(Obj(entries), entries[i].0) == entries[i].1
    decreases |entries|
  {
    var init := entries[..|entries| - 1];
    if i < |entries| - 1 {
      assert init[i] == entries[i];
      assert LastFor(init, i);
      ObjEntry(init, i);
    }
  }

  /** The entries `k: d.k` for each key in order, undefined where `d`
      lacks the key. */
  function Picked(d: Record, keys: seq<string>): (es: seq<(string, Option<Value>)>)
    ensures |es| == |keys|
    ensures forall i :: 0 <= i < |keys| ==> es[i] == (keys[i], Get(d, keys[i]))
  {
    seq(|keys|, i requires 0 <= i < |keys| => (keys[i], Get(d, keys[i])))
  }

  /** `v ? parseInt(v) : undefined`. */
  function ParsedIfTruthy(o: Option<Value>): (r: Option<Value>)
    ensures r.Some? <==> TruthyOpt(o)
  {
    if TruthyOpt(o) then Some(ParseInt(o.value)) else None
  }

  predicate DistinctKeys(keys: seq<string>) {
    forall i, j :: 0 <= i < j < |keys| ==> keys[i] != keys[j]
  }

  /** A picked key that nothing after it repeats is copied as it is: sent
      with its value, `null` included, when `d` has it, and left out when
      `d` lacks it. */
  lemma PickedEntry(d: Record, pre: seq<(string, Option<Value>)>, keys: seq<string>,
                    post: seq<(string, Option<Value>)>, k: string)
    requires k in keys && DistinctKeys(keys)
    requires forall j :: 0 <= j < |post| ==> post[j].0 != k
    ensures Get(Obj(pre + Picked(d, keys) + post), k) == Get(d, k)
  {
    var es := pre + Picked(d, keys) + post;
    var i := PickedLast(d, pre, keys, post, k);
    var e := es[|pre| + i];
    assert e.0 == k && e.1 == Get(d, k);
    ObjEntry(es, |pre| + i);
    assert Get(Obj(es), e.0) == e.1;
  }

  /** Where the picked key sits, and that nothing after it repeats it. */
  lemma PickedLast(d: Record, pre: seq<(string, Option<Value>)>, keys: seq<string>,
                   post: seq<(string, Option<Value>)>, k: string) returns (i: nat)
    requires k in keys && DistinctKeys(keys)
    requires forall j :: 0 <= j < |post| ==> post[j].0 != k
    ensures |pre| + i < |pre + Picked(d, keys) + post|
    ensures (pre + Picked(d, keys) + post)[|pre| + i] == (k, Get(d, k))
    ensures LastFor(pre + Picked(d, keys) + post, |pre| + i)
  {
    var picked := Picked(d, keys);
    var es := pre + picked + post;
    i :| 0 <= i < |keys| && keys[i] == k;
    assert es[|pre| + i] == picked[i];
    forall j | |pre| + i < j < |es| ensures es[j].0 != k {
      if j < |pre| + |keys| {
        assert es[j] == picked[j - |pre|];
      } else {
        assert es[j] == post[j - |pre| - |keys|];
      }
    }
  }

  /** An entry no later entry repeats decides its key (`ObjEntry` on a
      concatenation). */
  lemma FixedEntry(pre: seq<(string, Option<Value>)>, k: string, o: Option<Value>,
                   post: seq<(string, Option<Value>)>)
    requires forall j :: 0 <= j < |post| ==> post[j].0 != k
    ensures Get(Obj(pre + [(k, o)] + post), k) == o
  {
    var es := pre + [(k, o)] + post;
    assert es[|pre|] == (k, o);
    assert forall j :: |pre| < j < |es| ==> es[j] == post[j - |pre| - 1];
    ObjEntry(es, |pre|);
  }

  /** A leading entry that no later entry repeats is the object without
      it, plus that one key. */
  lemma {:induction false} ObjPrepend(k: string, v: Value, rest: seq<(string, Option<Value>)>)
    requires forall j :: 0 <= j < |rest| ==> rest[j].0 != k
    ensures Obj([(k, Some(v))] + rest) == Obj(rest)[k := v]
    decreases |rest|
  {
    if |rest| > 0 {
      var all := [(k, Some(v))] + rest;
      var init := rest[..|rest| - 1];
      assert all[..|all| - 1] == [(k, Some(v))] + init;
      ObjPrepend(k, v, init);
    }
  }
}

=== FILE: project.dfy ===
/** The project service: the lookup-field bookkeeping, the id guard of
    `getById`, and the records `create` and `update` send. */
module ProjectService {
  import opened Values
  import opened Payload
  import opened Remote

  /** A field description of the table schema: its `name` and `type`. */
  datatype FieldDef = FieldDef(name: Value, kind: Value)

  /** A table schema; `fields` is undefined or null when `None`. */
  datatype Schema = Schema(fields: Option<seq<FieldDef>>)

  /** The lookup fields the service starts with. */
  const DefaultLookups: seq<Value> := [VStr("client_id_c")]

  /** The names of the fields typed `Lookup`, in schema order. */
  function LookupNames(fs: seq<FieldDef>): (names: seq<Value>)
    ensures |names| <= |fs|
    ensures forall v :: v in names <==> exists i :: 0 <= i < |fs| && StrictEq(fs[i].kind, VStr("Lookup")) && fs[i].name == v
  {
    if |fs| == 0 then []
    else
      var rest := LookupNames(fs[1..]);
      assert forall i :: 1 <= i < |fs| ==> fs[i] == fs[1..][i - 1];
      assert forall i :: 0 <= i < |fs| - 1 ==> fs[1..][i] == fs[i + 1];
      if StrictEq(fs[0].kind, VStr("Lookup")) then [fs[0].name] + rest else rest
  }

  /** `identifyLookupFields`: the lookup names when the schema lists its
      fields, even when there are none; the default only when the schema or
      its field list is missing. */
  function IdentifyLookupFields(schema: Option<Schema>): (r: seq<Value>)
    ensures schema.None? || schema.value.fields.None? ==> r == DefaultLookups
    ensures schema.Some? && schema.value.fields.Some? ==> r == LookupNames(schema.value.fields.value)
  {
    match schema
    case None => DefaultLookups
    case Some(s) =>
      match s.fields
      case None => DefaultLookups
      case Some(fs) => LookupNames(fs)
  }

  /** A schema whose fields include no lookup yields no lookup fields. */
  lemma {:induction false} NoLookupsNoDefault(fs: seq<FieldDef>)
    requires forall i :: 0 <= i < |fs| ==> !StrictEq(fs[i].kind, VStr("Lookup"))
    ensures IdentifyLookupFields(Some(Schema(Some(fs)))) == []
  {
    if |fs| > 0 {
      assert forall i :: 0 <= i < |fs| - 1 ==> fs[1..][i] == fs[i + 1];
      NoLookupsNoDefault(fs[1..]);
    }
  }

  /** `v?.Id || v`: the `Id` of a looked-up object when it is truthy, else
      the value itself. */
  function Unwrap(v: Value): Value {
    if TruthyOpt(Prop(Some(v), "Id")) then v.fields["Id"] else v
  }

  /** One step of `prepareLookupFields`: a defined, non-null field is
      unwrapped; anything else is left as it is. */
  function PrepareField(m: Record, k: string): (r: Record)
    ensures r.Keys == m.Keys
    ensures forall j :: j in m && j != k ==> r[j] == m[j]
    ensures k in m ==> r[k] == if m[k] == VNull then m[k] else Unwrap(m[k])
  {
    if k in m && m[k] != VNull then m[k := Unwrap(m[k])] else m
  }

  /** `prepareLookupFields`: a copy of `data` with the lookup fields, keyed
      by `String(name)`, unwrapped in list order. */
  function PrepareLookupFields(data: Record, lookups: seq<Value>): (r: Record)
    ensures r.Keys == data.Keys
    ensures forall k :: k in data && (forall i :: 0 <= i < |lookups| ==> ToStr(lookups[i]) != k) ==> r[k] == data[k]
    decreases |lookups|
  {
    if |lookups| == 0 then data
    else
      var r := PrepareLookupFields(PrepareField(data, ToStr(lookups[0])), lookups[1..]);
      assert forall i :: 1 <= i < |lookups| ==> lookups[i] == lookups[1..][i - 1];
      r
  }

  /** A lookup field named once is unwrapped exactly once. */
  lemma {:induction false} PrepareLookupOnce(data: Record, lookups: seq<Value>, i: int)
    requires 0 <= i < |lookups|
    requires forall j :: 0 <= j < |lookups| && j != i ==> ToStr(lookups[j]) != ToStr(lookups[i])
    requires ToStr(lookups[i]) in data
    ensures var k := ToStr(lookups[i]);
            PrepareLookupFields(data, lookups)[k] == if data[k] == VNull then VNull else Unwrap(data[k])
    decreases |lookups|
  {
    var k := ToStr(lookups[i]);
    var first := PrepareField(data, ToStr(lookups[0]));
    if i == 0 {
      assert forall j :: 0 <= j < |lookups[1..]| ==> ToStr(lookups[1..][j]) != k by {
        forall j | 0 <= j < |lookups[1..]| ensures ToStr(lookups[1..][j]) != k {
          assert lookups[1..][j] == lookups[j + 1];
        }
      }
    } else {
      assert ToStr(lookups[0]) != k;
      assert first[k] == data[k];
      assert lookups[1..][i - 1] == lookups[i];
      forall j | 0 <= j < |lookups[1..]| && j != i - 1
        ensures ToStr(lookups[1..][j]) != ToStr(lookups[1..][i - 1])
      {
        assert lookups[1..][j] == lookups[j + 1];
      }
      PrepareLookupOnce(first, lookups[1..], i - 1);
    }
  }

  /** No lookup field of `data` holds an object with a truthy `Id`: the
      lookups are already plain ids. */
  predicate PlainLookups(data: Record, lookups: seq<Value>) {
    forall i :: 0 <= i < |lookups| && ToStr(lookups[i]) in data ==>
      !TruthyOpt(Prop(Some(data[ToStr(lookups[i])]), "Id"))
  }

  /** Preparing a record whose lookup fields already hold plain ids changes
      nothing. */
  lemma {:induction false} PreparePlainUnchanged(data: Record, lookups: seq<Value>)
    requires PlainLookups(data, lookups)
    ensures PrepareLookupFields(data, lookups) == data
    decreases |lookups|
  {
    if |lookups| > 0 {
      assert PrepareField(data, ToStr(lookups[0])) == data;
      forall i | 0 <= i < |lookups[1..]| && ToStr(lookups[1..][i]) in data
        ensures !TruthyOpt(Prop(Some(data[ToStr(lookups[1..][i])]), "Id"))
      {
        assert lookups[1..][i] == lookups[i + 1];
      }
      PreparePlainUnchanged(data, lookups[1..]);
    }
  }

  const InvalidId := "Valid project ID is required"

  /** The guard of `getById`: the id must be truthy and parse to a positive
      integer, checked before the store is asked. */
  function CheckId(id: Value): (r: Outcome<int>)
    ensures r.Raise? ==> r.message == InvalidId
    ensures r.Ok? ==> r.value > 0 && ParseInt(id) == VNum(r.value)
  {
    if !Truthy(id) then Raise(InvalidId)
    else
      match ParseInt(id)
      case VNum(n) => if n <= 0 then Raise(InvalidId) else Ok(n)
      case _ => Raise(InvalidId)
  }

  /** The truthiness test is subsumed by the parse: the guard passes
      exactly when `parseInt` yields a positive integer. */
  lemma CheckIdIffPositive(id: Value)
    ensures CheckId(id).Ok? <==> ParseInt(id).VNum? && ParseInt(id).n > 0
  {
    if !Truthy(id) {
      match id
      case VStr(s) => assert s == "";
      case _ =>
    }
  }

  /** `getById`: the guard, then the record or "Project not found" when it
      is missing or the store throws. `reply` is the store's answer for the
      parsed id. */
  function GetById(id: Value, reply: Reply): (r: Outcome<Value>)
    ensures CheckId(id).Raise? ==> r == Raise(InvalidId)
    ensures CheckId(id).Ok? ==> r == FoundOrRaise(reply, "Project not found")
    ensures r.Ok? ==> CheckId(id).Ok? && Some(r.value) == reply.resp.data && Truthy(r.value)
  {
    match CheckId(id)
    case Raise(m) => Raise(m)
    case Ok(_) => FoundOrRaise(reply, "Project not found")
  }

  /** `Name || name` is undefined only when `name` is reached and absent. */
  predicate CreateHasName(d: Record) {
    TruthyAt(d, "Name") || "name" in d
  }

  /** The fields of `create`'s record other than `Name`: chat is enabled
      unless the caller supplied the flag, the client link is parsed or
      null, the creation time is the clock's. */
  function CreateFields(d: Record, now: string): (r: Record)
    ensures r.Keys == {"Tags", "description_c", "status_c", "deadline_c", "deliverables_c",
                       "created_at_c", "chat_enabled_c", "client_id_c"}
    ensures r["created_at_c"] == VStr(now)
    ensures r["chat_enabled_c"] == if "chat_enabled_c" in d then d["chat_enabled_c"] else VBool(true)
    ensures ParsedOr(r, "client_id_c", d, "client_id_c", "clientId")
  {
    map[
      "Tags" := OrKeys(d, ["Tags"], VStr("")),
      "description_c" := OrKeys(d, ["description_c", "description"], VStr("")),
      "status_c" := OrKeys(d, ["status_c", "status"], VStr("Planning")),
      "deadline_c" := OrKeys(d, ["deadline_c", "deadline"], VStr("")),
      "deliverables_c" := OrKeys(d, ["deliverables_c", "deliverables"], VStr("")),
      "created_at_c" := VStr(now),
      "chat_enabled_c" := if "chat_enabled_c" in d then d["chat_enabled_c"] else VBool(true),
      "client_id_c" := ParsedOrNull(d, ["client_id_c", "clientId"])]
  }

  /** The defaults of `create`: status "Planning", the texts "". */
  lemma CreateDefaults(d: Record, now: string)
    ensures OneOr(CreateFields(d, now), "Tags", d, "Tags", VStr(""))
    ensures TwoOr(CreateFields(d, now), "description_c", d, "description_c", "description", VStr(""))
    ensures TwoOr(CreateFields(d, now), "status_c", d, "status_c", "status", VStr("Planning"))
    ensures TwoOr(CreateFields(d, now), "deadline_c", d, "deadline_c", "deadline", VStr(""))
    ensures TwoOr(CreateFields(d, now), "deliverables_c", d, "deliverables_c", "deliverables", VStr(""))
  {
  }

  /** An explicit `false` for chat survives `create`, unlike a `||` default. */
  lemma CreateKeepsChatOff(d: Record, now: string)
    requires Get(d, "chat_enabled_c") == Some(VBool(false))
    ensures CreateFields(d, now)["chat_enabled_c"] == VBool(false)
  {
  }

  /** `create`'s record: the fields above and `Name` from `Name || name`. */
  function Create(d: Record, now: string): (r: Record)
    ensures r.Keys == CreateFields(d, now).Keys + (if CreateHasName(d) then {"Name"} else {})
    ensures forall k :: k in r && k != "Name" ==> r[k] == CreateFields(d, now)[k]
    ensures Get(r, "Name") == if TruthyAt(d, "Name") then Some(d["Name"]) else Get(d, "name")
  {
    var name := Or(Get(d, "Name"), Get(d, "name"));
    var fields := CreateFields(d, now);
    if name.Some? then fields["Name" := name.value] else fields
  }

  /** The statements of `update`, one rule per field, in source order. */
  function UpdateRules(): seq<Rule> {
    [ Rule("Name", ["Name", "name"], Raw),
      Rule("Tags", ["Tags"], Raw),
      Rule("description_c", ["description_c", "description"], Raw),
      Rule("status_c", ["status_c", "status"], Raw),
      Rule("deadline_c", ["deadline_c", "deadline"], Raw),
      Rule("deliverables_c", ["deliverables_c", "deliverables"], Raw),
      Rule("chat_enabled_c", ["chat_enabled_c", "chatEnabled"], Raw),
      Rule("client_id_c", ["client_id_c", "clientId"], Int) ]
  }

  lemma UpdateRulesDistinct()
    ensures DistinctTargets(UpdateRules())
    ensures "Id" !in Targets(UpdateRules())
  {
    var rules := UpdateRules();
    assert rules[0].dst == "Name";
  }

  /** `update`'s record: the parsed id and the supplied fields. */
  function Update(id: Value, d: Record): (r: Record)
    ensures "Id" in r && r["Id"] == ParseInt(id)
  {
    UpdateRulesDistinct();
    Stamped(ParseInt(id), d, UpdateRules())
  }

  /** A field other than the id is sent only when one of its sources was
      supplied. */
  lemma UpdateWritesOnlySupplied(id: Value, d: Record, k: string)
    ensures k in Update(id, d) && k != "Id" ==>
      exists i, j :: 0 <= i < |UpdateRules()| && UpdateRules()[i].dst == k &&
                     0 <= j < |UpdateRules()[i].srcs| && UpdateRules()[i].srcs[j] in d
  {
    UpdateRulesDistinct();
    StampedSupplied(ParseInt(id), d, UpdateRules(), k);
  }

  /** In each two-source field the alias, assigned second, wins; a field
      with neither source supplied is not sent. */
  lemma UpdateAliasWins(id: Value, d: Record, i: int, dst: string, name: string, alias: string, conv: Conv)
    requires 0 <= i < |UpdateRules()| && UpdateRules()[i] == Rule(dst, [name, alias], conv)
    ensures Get(Update(id, d), dst) ==
      if alias in d then Convert(conv, d[alias])
      else if name in d then Convert(conv, d[name])
      else None
  {
    UpdateRulesDistinct();
    StampedPair(ParseInt(id), d, UpdateRules(), i, dst, name, alias, conv);
  }
}

=== FILE: projectform.dfy ===
/** The project form: its initial and pre-filled state, validation, the
    submit gate and the change handler. The form data is a record of
    values; the error map sends field names to messages. */
module ProjectForm {
  import opened Text
  import opened Values

  type Errors = map<string, string>

  const NameRequired := "Project name is required"
  const ClientRequired := "Please select a client"
  const DescriptionRequired := "Description is required"
  const DeadlineRequired := "Deadline is required"
  const DeliverablesRequired := "Deliverables are required"

  /** The form before any project is loaded. */
  function Initial(): (f: Record)
    ensures f.Keys == {"Name", "client_id_c", "description_c", "status_c", "startDate", "deadline_c", "deliverables_c"}
    ensures forall k :: k in f && k != "status_c" ==> f[k] == VStr("")
    ensures f["status_c"] == VStr("Planning")
  {
    map["Name" := VStr(""), "client_id_c" := VStr(""), "description_c" := VStr(""),
        "status_c" := VStr("Planning"), "startDate" := VStr(""), "deadline_c" := VStr(""),
        "deliverables_c" := VStr("")]
  }

  /** The form once a project is given: each field from the project, with
      the initial value standing in for a falsy one. Without a project the
      form is left as it was. */
  function Prefill(project: Option<Record>, current: Record): (f: Record)
    ensures project.None? ==> f == current
    ensures project.Some? ==> f.Keys == Initial().Keys
  {
    match project
    case None => current
    case Some(p) =>
      map["Name" := OrElse(Get(p, "Name"), VStr("")),
          "client_id_c" := OrElse(Get(p, "client_id_c"), VStr("")),
          "description_c" := OrElse(Get(p, "description_c"), VStr("")),
          "status_c" := OrElse(Get(p, "status_c"), VStr("Planning")),
          "startDate" := OrElse(Get(p, "startDate"), VStr("")),
          "deadline_c" := OrElse(Get(p, "deadline_c"), VStr("")),
          "deliverables_c" := OrElse(Get(p, "deliverables_c"), VStr(""))]
  }

  /** Pre-filling uses the same fallbacks as the initial form: a project
      with every field falsy gives the initial form. */
  lemma PrefillFallbacks(p: Record, k: string)
    requires k in Initial()
    ensures Prefill(Some(p), map[])[k] == if TruthyAt(p, k) then p[k] else Initial()[k]
  {
  }

  /** A field's text is blank: `!v.trim()`. */
  predicate BlankAt(f: Record, k: string) {
    k in f && f[k].VStr? && Trim(f[k].s) == ""
  }

  /** The fields whose value is trimmed must hold text, or `trim` throws. */
  predicate Trimmable(f: Record) {
    TextAt(f, "Name") && TextAt(f, "description_c") && TextAt(f, "deliverables_c")
  }

  predicate TextAt(f: Record, k: string) {
    k in f && f[k].VStr?
  }

  /** The fields validation checks. */
  const Required: set<string> := {"Name", "client_id_c", "description_c", "deadline_c", "deliverables_c"}

  /** A required field fails its check: the client and the deadline must be
      truthy, the other three must not be blank. */
  predicate Fails(f: Record, k: string) {
    if k == "client_id_c" || k == "deadline_c" then !TruthyAt(f, k) else BlankAt(f, k)
  }

  function MessageOf(k: string): string {
    if k == "Name" then NameRequired
    else if k == "client_id_c" then ClientRequired
    else if k == "description_c" then DescriptionRequired
    else if k == "deadline_c" then DeadlineRequired
    else DeliverablesRequired
  }

  /** `validateForm`'s error map, or `None` when it throws. */
  function Validate(f: Record): (r: Option<Errors>)
    ensures r.Some? <==> Trimmable(f)
    ensures r.Some? ==> forall k :: k in r.value <==> k in Required && Fails(f, k)
    ensures r.Some? ==> forall k :: k in r.value ==> r.value[k] == MessageOf(k)
  {
    if !Trimmable(f) then None
    else Some(map k | k in Required && Fails(f, k) :: MessageOf(k))
  }

  /** Each field's check, spelled out. */
  lemma ValidateFields(f: Record)
    requires Trimmable(f)
    ensures "Name" in Validate(f).value <==> Trim(f["Name"].s) == ""
    ensures "client_id_c" in Validate(f).value <==> !TruthyAt(f, "client_id_c")
    ensures "description_c" in Validate(f).value <==> Trim(f["description_c"].s) == ""
    ensures "deadline_c" in Validate(f).value <==> !TruthyAt(f, "deadline_c")
    ensures "deliverables_c" in Validate(f).value <==> Trim(f["deliverables_c"].s) == ""
  {
  }

  /** The required names are 4, 10, 11, 13 and 14 characters long, so none
      of them is the status (8) or the start date (9). */
  lemma RequiredLengths(k: string)
    ensures k in Required ==> |k| != 8 && |k| != 9
  {
  }

  /** The required names told apart by their lengths. */
  lemma RequiredCases(k: string)
    requires k in Required
    ensures |k| == 4 ==> k == "Name"
    ensures |k| == 11 ==> k == "client_id_c"
    ensures |k| == 13 ==> k == "description_c"
    ensures |k| == 10 ==> k == "deadline_c"
    ensures |k| == 14 ==> k == "deliverables_c"
    ensures |k| == 4 || |k| == 10 || |k| == 11 || |k| == 13 || |k| == 14
  {
  }

  /** A required field's check reads only that field. */
  lemma FailsLocal(f: Record, g: Record, k: string)
    requires Get(f, k) == Get(g, k)
    ensures Fails(f, k) == Fails(g, k)
  {
  }

  /** Validation reads only the five required fields. */
  lemma ValidateLocal(f: Record, g: Record)
    requires forall k :: k in Required ==> Get(f, k) == Get(g, k)
    ensures Validate(f) == Validate(g)
  {
    assert Trimmable(f) == Trimmable(g);
    forall k | k in Required
      ensures Fails(f, k) == Fails(g, k)
    {
      FailsLocal(f, g, k);
    }
    if Trimmable(f) {
      var ef := Validate(f).value;
      var eg := Validate(g).value;
      assert ef.Keys == eg.Keys;
      assert forall k :: k in ef ==> ef[k] == eg[k];
      assert ef == eg;
    }
  }

  /** Whatever the status and start date hold, they are never reported. */
  lemma ValidateIgnoresStatus(f: Record, status: Value, start: Value)
    requires Trimmable(f)
    ensures Validate(f["status_c" := status]["startDate" := start]) == Validate(f)
    ensures "status_c" !in Validate(f).value && "startDate" !in Validate(f).value
  {
    var g := f["status_c" := status]["startDate" := start];
    forall k | k in Required
      ensures Get(g, k) == Get(f, k)
    {
      RequiredLengths(k);
    }
    ValidateLocal(g, f);
    RequiredLengths("status_c");
    RequiredLengths("startDate");
  }

  /** The initial form reports all five required fields. */
  lemma InitialErrors()
    ensures Validate(Initial()).Some?
    ensures Validate(Initial()).value.Keys == Required
  {
    var f := Initial();
    forall k | k in Required
      ensures k in f && f[k] == VStr("")
    {
      RequiredLengths(k);
    }
    assert Trim("") == "";
    assert Trimmable(f);
    forall k | k in Required
      ensures Fails(f, k)
    {
    }
  }

  /** What a submit does: hand the data to `onSubmit`, show the errors, or
      throw from `trim`. */
  datatype Submit = Submitted(data: Record) | Rejected(errors: Errors) | Threw

  /** `handleSubmit`: the data goes to `onSubmit` exactly when validation
      found no error. */
  function HandleSubmit(f: Record): (s: Submit)
    ensures s.Submitted? <==> Validate(f) == Some(map[])
    ensures s.Submitted? ==> s.data == f
    ensures s.Rejected? ==> Validate(f) == Some(s.errors) && s.errors != map[]
    ensures s.Threw? <==> !Trimmable(f)
  {
    match Validate(f)
    case None => Threw
    case Some(e) => if |e| == 0 then Submitted(f) else Rejected(e)
  }

  /** A form whose five required fields all hold something is submitted. */
  lemma FilledFormSubmits(f: Record)
    requires Trimmable(f)
    requires Trim(f["Name"].s) != "" && Trim(f["description_c"].s) != "" && Trim(f["deliverables_c"].s) != ""
    requires TruthyAt(f, "client_id_c") && TruthyAt(f, "deadline_c")
    ensures HandleSubmit(f) == Submitted(f)
  {
    forall k | k in Required
      ensures !Fails(f, k)
    {
      RequiredCases(k);
    }
    assert Validate(f).value == map[];
  }

  /** `handleChange`: the named field takes the new value, and its error is
      set to "" when `errors[name]` is truthy: a message that is not empty,
      or, for a name the map does not hold, an inherited member such as
      `constructor`. */
  function HandleChange(f: Record, e: Errors, name: string, value: Value): (res: (Record, Errors))
    ensures res.0 == f[name := value]
    ensures res.1.Keys == if name in e || name in InheritedNames then e.Keys + {name} else e.Keys
    ensures forall k :: k in e && k != name ==> res.1[k] == e[k]
    ensures name in res.1 ==> res.1[name] == ""
  {
    var shown := if name in e then e[name] != "" else name in InheritedNames;
    (f[name := value], if shown then e[name := ""] else e)
  }

  /** Changing a field leaves every other field and error alone, and clears
      nothing when the field had no error to show. */
  lemma HandleChangeOnlyNamed(f: Record, e: Errors, name: string, value: Value)
    ensures forall k :: k != name ==> Get(HandleChange(f, e, name, value).0, k) == Get(f, k)
    ensures Get(HandleChange(f, e, name, value).0, name) == Some(value)
    ensures (name in e && e[name] == "") || (name !in e && name !in InheritedNames) ==>
      HandleChange(f, e, name, value).1 == e
  {
  }

  /** Editing a field the last submit flagged clears that message and no
      other, so the next validation is what decides again. */
  lemma HandleChangeClears(f: Record, name: string, value: Value)
    requires Trimmable(f) && name in Validate(f).value
    ensures var e := Validate(f).value;
      HandleChange(f, e, name, value).1 == e[name := ""]
  {
    assert Validate(f).value[name] == MessageOf(name);
    RequiredCases(name);
  }
}

=== FILE: remote.dfy ===
/** The record store's replies and the rules each service uses to turn a
    reply into its own result. The store itself is not modelled: a reply is
    whatever the store sent back, or the error the call threw. */
module Remote {
  import opened Values

  /** One entry of a result's `errors` list. */
  datatype FieldError = FieldError(fieldLabel: Value, message: Value)

  /** One entry of `response.results`: the outcome for one record. */
  datatype RecordResult = RecordResult(
    success: bool,
    data: Option<Value>,
    message: Option<Value>,
    errors: seq<FieldError>)

  /** A response object: `success`, `message`, the optional per-record
      `results` and the optional `data`. */
  datatype Response = Response(
    success: bool,
    message: Value,
    results: Option<seq<RecordResult>>,
    data: Option<Value>)

  /** What a call to the store gives back: a response, or a thrown error
      (which also stands for a missing response whose fields are read). */
  datatype Reply = Threw(error: string) | Got(resp: Response)

  /** `results.filter(r => r.success)`. */
  function Successes(rs: seq<RecordResult>): (out: seq<RecordResult>)
    ensures |out| <= |rs|
    ensures forall i :: 0 <= i < |out| ==> out[i].success && out[i] in rs
    ensures forall i :: 0 <= i < |rs| && rs[i].success ==> rs[i] in out
    ensures |out| == |rs| <==> forall i :: 0 <= i < |rs| ==> rs[i].success
  {
    if |rs| == 0 then []
    else
      var rest := Successes(rs[1..]);
      assert forall i :: 1 <= i < |rs| ==> rs[i] == rs[1..][i - 1];
      if rs[0].success then [rs[0]] + rest else rest
  }

  /** The positions of the successful results. */
  function SuccessAt(rs: seq<RecordResult>): set<nat> {
    set i: nat | i < |rs| && rs[i].success
  }

  /** Filtering a concatenation filters each part. */
  lemma {:induction false} SuccessesAppend(a: seq<RecordResult>, b: seq<RecordResult>)
    ensures Successes(a + b) == Successes(a) + Successes(b)
  {
    if |a| > 0 {
      assert (a + b)[1..] == a[1..] + b;
      SuccessesAppend(a[1..], b);
    } else {
      assert a + b == b;
    }
  }

  /** One more result adds its own position exactly when it succeeded. */
  lemma SuccessAtSnoc(init: seq<RecordResult>, last: RecordResult)
    ensures SuccessAt(init + [last]) == SuccessAt(init) + (if last.success then {|init|} else {})
    ensures |init| !in SuccessAt(init)
  {
    var rs := init + [last];
    forall i: nat | i < |init| ensures rs[i] == init[i] { }
  }

  /** The filter keeps one result per successful position. */
  lemma {:induction false} SuccessesCount(rs: seq<RecordResult>)
    ensures |Successes(rs)| == |SuccessAt(rs)|
    decreases |rs|
  {
    if |rs| > 0 {
      var init := rs[..|rs| - 1];
      var last := rs[|rs| - 1];
      assert rs == init + [last];
      SuccessesCount(init);
      SuccessesAppend(init, [last]);
      SuccessAtSnoc(init, last);
      assert [last][1..] == [];
      calc {
        |Successes(rs)|;
        |Successes(init) + Successes([last])|;
        |SuccessAt(init)| + |Successes([last])|;
      }
    }
  }

  /** The index of the first successful result, found by a search of its own. */
  function FirstSuccess(rs: seq<RecordResult>): (o: Option<nat>)
    ensures o.Some? ==> o.value < |rs| && rs[o.value].success
    ensures o.Some? ==> forall i :: 0 <= i < o.value ==> !rs[i].success
    ensures o.None? ==> forall i :: 0 <= i < |rs| ==> !rs[i].success
  {
    if |rs| == 0 then None
    else if rs[0].success then Some(0)
    else
      match FirstSuccess(rs[1..])
      case None => None
      case Some(j) => Some(j + 1)
  }

  /** The filtered list starts with the first successful result. */
  lemma {:induction false} SuccessesHead(rs: seq<RecordResult>)
    ensures |Successes(rs)| > 0 <==> FirstSuccess(rs).Some?
    ensures FirstSuccess(rs).Some? ==> Successes(rs)[0] == rs[FirstSuccess(rs).value]
  {
    if |rs| > 0 && !rs[0].success {
      SuccessesHead(rs[1..]);
    }
  }

  /** The per-record results of a reply that succeeded and carried them. */
  predicate HasResults(reply: Reply) {
    reply.Got? && reply.resp.success && reply.resp.results.Some?
  }

  function ResultsOf(reply: Reply): seq<RecordResult>
    requires HasResults(reply)
  {
    reply.resp.results.value
  }

  /** The usual create/update rule: `successfulRecords[0].data` when a
      record succeeded, otherwise null; a failed call or a throw gives null. */
  function WriteResult(reply: Reply): (r: Option<Value>)
    ensures r.Some? ==> HasResults(reply)
    ensures HasResults(reply) ==>
      r == match FirstSuccess(ResultsOf(reply))
           case None => None
           case Some(j) => ResultsOf(reply)[j].data
  {
    if HasResults(reply) then
      var ok := Successes(ResultsOf(reply));
      SuccessesHead(ResultsOf(reply));
      if |ok| > 0 then ok[0].data else None
    else None
  }

  /** The usual delete rule: `successfulDeletions.length > 0`. */
  function AnySucceeded(reply: Reply): (b: bool)
    ensures b <==> HasResults(reply) && exists i :: 0 <= i < |ResultsOf(reply)| && ResultsOf(reply)[i].success
  {
    if HasResults(reply) then
      var ok := Successes(ResultsOf(reply));
      assert |ok| > 0 ==> ok[0] in ResultsOf(reply);
      |ok| > 0
    else false
  }

  /** The bulk delete rule: `successfulDeletions.length === ids.length`. */
  function CountMatches(reply: Reply, n: nat): (b: bool)
    ensures b <==> HasResults(reply) && |SuccessAt(ResultsOf(reply))| == n
    ensures b ==> HasResults(reply) && n <= |ResultsOf(reply)|
    ensures HasResults(reply) && |ResultsOf(reply)| == n ==>
      (b <==> forall i :: 0 <= i < n ==> ResultsOf(reply)[i].success)
  {
    if HasResults(reply) then
      SuccessesCount(ResultsOf(reply));
      |Successes(ResultsOf(reply))| == n
    else false
  }

  /** The issue rule: no success is a failure even when no ids were given;
      otherwise the successes must number the ids. */
  function AllOfSome(reply: Reply, n: nat): (b: bool)
    ensures b <==> CountMatches(reply, n) && n > 0
    ensures b <==> HasResults(reply) && n > 0 && |SuccessAt(ResultsOf(reply))| == n
    ensures b ==> AnySucceeded(reply)
  {
    if HasResults(reply) then
      var ok := Successes(ResultsOf(reply));
      assert |ok| > 0 ==> ok[0] in ResultsOf(reply);
      |ok| > 0 && |ok| == n
    else false
  }

  /** The comment rule: only `results[0]` is looked at. */
  function FirstResult(reply: Reply): (r: Option<Value>)
    ensures r.Some? ==> HasResults(reply) && |ResultsOf(reply)| > 0 && ResultsOf(reply)[0].success
  {
    if HasResults(reply) && |ResultsOf(reply)| > 0 && ResultsOf(reply)[0].success then
      ResultsOf(reply)[0].data
    else None
  }

  /** The comment rule and the usual rule agree when the first result
      succeeded, and the comment rule alone reports null when a later
      result succeeded after a first failure. */
  lemma FirstResultVersusWriteResult(reply: Reply)
    ensures HasResults(reply) && |ResultsOf(reply)| > 0 && ResultsOf(reply)[0].success ==>
      FirstResult(reply) == WriteResult(reply)
    ensures HasResults(reply) && |ResultsOf(reply)| > 0 && !ResultsOf(reply)[0].success ==>
      FirstResult(reply) == None
  {
  }

  /** The null convention of `getById`: `!response || !response.data`
      gives null, and so does a throw. */
  function FoundOrNull(reply: Reply): (r: Option<Value>)
    ensures r.Some? <==> reply.Got? && TruthyOpt(reply.resp.data)
    ensures r.Some? ==> Truthy(r.value) && r == reply.resp.data
  {
    if reply.Got? && TruthyOpt(reply.resp.data) then reply.resp.data else None
  }

  /** The raise convention of `getById`: a missing record and any thrown
      error alike become one fixed message. */
  function FoundOrRaise(reply: Reply, notFound: string): (r: Outcome<Value>)
    ensures r.Raise? ==> r.message == notFound
    ensures r.Ok? <==> FoundOrNull(reply).Some?
    ensures r.Ok? ==> Some(r.value) == FoundOrNull(reply)
  {
    match FoundOrNull(reply)
    case Some(v) => Ok(v)
    case None => Raise(notFound)
  }

  /** The `success` convention: `response.data` (possibly undefined) when
      the response succeeded, otherwise null. */
  function DataIfSuccess(reply: Reply): (r: Option<Value>)
    ensures r.Some? ==> reply.Got? && reply.resp.success
    ensures reply.Got? && reply.resp.success ==> r == reply.resp.data
  {
    if reply.Got? && reply.resp.success then reply.resp.data else None
  }

  /** `new Error(record.message)` for the first failed record that carries a
      truthy message, in list order. */
  function FirstFailureMessage(rs: seq<RecordResult>): (o: Option<string>)
    ensures o.Some? ==> exists i :: 0 <= i < |rs| && !rs[i].success && TruthyOpt(rs[i].message)
                                    && o.value == ToStr(rs[i].message.value)
                                    && forall j :: 0 <= j < i ==> rs[j].success || !TruthyOpt(rs[j].message)
    ensures o.None? ==> forall i :: 0 <= i < |rs| && !rs[i].success ==> !TruthyOpt(rs[i].message)
  {
    if |rs| == 0 then None
    else if !rs[0].success && TruthyOpt(rs[0].message) then Some(ToStr(rs[0].message.value))
    else
      var o := FirstFailureMessage(rs[1..]);
      assert forall i :: 1 <= i < |rs| ==> rs[i] == rs[1..][i - 1];
      assert o.Some? ==> exists i :: 1 <= i < |rs| && !rs[i].success && TruthyOpt(rs[i].message)
                                     && o.value == ToStr(rs[i].message.value)
                                     && forall j :: 0 <= j < i ==> rs[j].success || !TruthyOpt(rs[j].message) by {
        if o.Some? {
          var j :| 0 <= j < |rs[1..]| && !rs[1..][j].success && TruthyOpt(rs[1..][j].message)
                   && o.value == ToStr(rs[1..][j].message.value)
                   && forall k :: 0 <= k < j ==> rs[1..][k].success || !TruthyOpt(rs[1..][k].message);
          assert rs[j + 1] == rs[1..][j];
          forall k | 0 <= k < j + 1 ensures rs[k].success || !TruthyOpt(rs[k].message) {
            if k > 0 { assert rs[k] == rs[1..][k - 1]; }
          }
        }
      }
      o
  }

  /** `results.every(r => r.success)`. */
  predicate Every(rs: seq<RecordResult>) {
    forall i :: 0 <= i < |rs| ==> rs[i].success
  }

  /** The team-member delete rule: a failed call rethrows its message, a
      failed record with a message throws that message, and otherwise the
      result is whether every record succeeded (true without results). */
  function DeleteEvery(reply: Reply): (r: Outcome<bool>)
    ensures r == Ok(true) <==>
      (reply.Got? && reply.resp.success && (reply.resp.results.None? || Every(reply.resp.results.value)))
    ensures r == Ok(false) ==> HasResults(reply) && !Every(ResultsOf(reply))
    ensures r.Raise? && HasResults(reply) ==> !Every(ResultsOf(reply))
    ensures reply.Threw? ==> r == Raise(reply.error)
    ensures reply.Got? && !reply.resp.success ==> r == Raise(ToStr(reply.resp.message))
    ensures HasResults(reply) && FirstFailureMessage(ResultsOf(reply)).Some? ==>
      r == Raise(FirstFailureMessage(ResultsOf(reply)).value)
    ensures HasResults(reply) && FirstFailureMessage(ResultsOf(reply)).None? ==>
      r == Ok(Every(ResultsOf(reply)))
  {
    match reply
    case Threw(e) => Raise(e)
    case Got(resp) =>
      if !resp.success then Raise(ToStr(resp.message))
      else if resp.results.None? then Ok(true)
      else
        var rs := resp.results.value;
        var failed := |Successes(rs)| < |rs|;
        if failed && FirstFailureMessage(rs).Some? then Raise(FirstFailureMessage(rs).value)
        else Ok(|Successes(rs)| == |rs|)
  }

  /** A failed record explains itself when it carries a field error or a
      truthy message. */
  predicate Explains(r: RecordResult) {
    !r.success && (|r.errors| > 0 || TruthyOpt(r.message))
  }

  /** The text thrown for a record that explains itself: its first field
      error as `label: message`, else its message. */
  function RecordErrorText(r: RecordResult): string
    requires Explains(r)
  {
    if |r.errors| > 0 then ToStr(r.errors[0].fieldLabel) + ": " + ToStr(r.errors[0].message)
    else ToStr(r.message.value)
  }

  /** `throw new Error(...)` for the first failed record: its first field
      error as `label: message`, else its message when truthy; a failed
      record with neither is passed over. */
  function FirstRecordError(rs: seq<RecordResult>): (o: Option<string>)
    ensures o.Some? ==> exists i :: 0 <= i < |rs| && Explains(rs[i]) && o.value == RecordErrorText(rs[i])
                                    && forall j :: 0 <= j < i ==> !Explains(rs[j])
    ensures o.None? ==> forall i :: 0 <= i < |rs| && !rs[i].success ==>
                                    |rs[i].errors| == 0 && !TruthyOpt(rs[i].message)
  {
    if |rs| == 0 then None
    else if !rs[0].success && |rs[0].errors| > 0 then
      Some(ToStr(rs[0].errors[0].fieldLabel) + ": " + ToStr(rs[0].errors[0].message))
    else if !rs[0].success && TruthyOpt(rs[0].message) then Some(ToStr(rs[0].message.value))
    else
      var o := FirstRecordError(rs[1..]);
      assert forall i :: 1 <= i < |rs| ==> rs[i] == rs[1..][i - 1];
      assert o.Some? ==> exists i :: 1 <= i < |rs| && Explains(rs[i]) && o.value == RecordErrorText(rs[i])
                                     && forall j :: 0 <= j < i ==> !Explains(rs[j]) by {
        if o.Some? {
          var j :| 0 <= j < |rs[1..]| && Explains(rs[1..][j]) && o.value == RecordErrorText(rs[1..][j])
                   && forall k :: 0 <= k < j ==> !Explains(rs[1..][k]);
          assert rs[j + 1] == rs[1..][j];
          forall k | 0 <= k < j + 1 ensures !Explains(rs[k]) {
            if k > 0 { assert rs[k] == rs[1..][k - 1]; }
          }
        }
      }
      o
  }

  /** The team-member create/update rule: like `WriteResult`, but a failed
      call, a thrown error, or a failed record that explains itself raises. */
  function WriteOrRaise(reply: Reply): (r: Outcome<Option<Value>>)
    ensures r.Ok? ==> r.value == WriteResult(reply)
    ensures reply.Got? && !reply.resp.success ==> r == Raise(ToStr(reply.resp.message))
    ensures HasResults(reply) && Every(ResultsOf(reply)) ==> r.Ok?
    ensures reply.Threw? ==> r == Raise(reply.error)
    ensures HasResults(reply) && FirstRecordError(ResultsOf(reply)).Some? ==>
      r == Raise(FirstRecordError(ResultsOf(reply)).value)
    ensures HasResults(reply) && FirstRecordError(ResultsOf(reply)).None? ==>
      r == Ok(WriteResult(reply))
  {
    match reply
    case Threw(e) => Raise(e)
    case Got(resp) =>
      if !resp.success then Raise(ToStr(resp.message))
      else if resp.results.None? then Ok(None)
      else
        match FirstRecordError(resp.results.value)
        case Some(m) => Raise(m)
        case None => Ok(WriteResult(reply))
  }
}

=== FILE: seqs.dfy ===
/** `Array.prototype.filter` and counting by a predicate. */
module Seqs {

  /** `s.filter(f)`. */
  function Filter<T(!new)>(s: seq<T>, f: T -> bool): (r: seq<T>)
    ensures |r| <= |s|
    ensures forall i :: 0 <= i < |r| ==> f(r[i])
  {
    if |s| == 0 then []
    else
      var rest := Filter(s[1..], f);
      if f(s[0]) then [s[0]] + rest else rest
  }

  /** The filter keeps exactly the elements that pass. */
  lemma {:induction false} FilterMembers<T(!new)>(s: seq<T>, f: T -> bool)
    ensures forall x :: x in Filter(s, f) <==> x in s && f(x)
  {
    if |s| > 0 {
      FilterMembers(s[1..], f);
      assert forall x :: x in s <==> x == s[0] || x in s[1..];
    }
  }

  /** Filtering keeps the order: the filter of a concatenation is the
      concatenation of the filters. */
  lemma {:induction false} FilterAppend<T(!new)>(s: seq<T>, t: seq<T>, f: T -> bool)
    ensures Filter(s + t, f) == Filter(s, f) + Filter(t, f)
  {
    if |s| > 0 {
      assert (s + t)[1..] == s[1..] + t;
      FilterAppend(s[1..], t, f);
    } else {
      assert s + t == t;
    }
  }

  /** Two tests that agree on every element filter alike. */
  lemma {:induction false} FilterAgree<T(!new)>(s: seq<T>, f: T -> bool, g: T -> bool)
    requires forall i :: 0 <= i < |s| ==> f(s[i]) == g(s[i])
    ensures Filter(s, f) == Filter(s, g)
  {
    if |s| > 0 {
      assert forall i :: 0 <= i < |s| - 1 ==> s[1..][i] == s[i + 1];
      FilterAgree(s[1..], f, g);
    }
  }

  /** The filter keeps every passing element as often as it occurs and
      drops every other. */
  lemma {:induction false} FilterMultiplicity<T(!new)>(s: seq<T>, f: T -> bool, x: T)
    ensures multiset(Filter(s, f))[x] == if f(x) then multiset(s)[x] else 0
  {
    if |s| > 0 {
      FilterMultiplicity(s[1..], f, x);
      assert s == [s[0]] + s[1..];
    }
  }

  /** Filtering everything away leaves the empty list. */
  lemma {:induction false} FilterNone<T(!new)>(s: seq<T>, f: T -> bool)
    requires forall i :: 0 <= i < |s| ==> !f(s[i])
    ensures Filter(s, f) == []
  {
    if |s| > 0 {
      assert forall i :: 0 <= i < |s| - 1 ==> s[1..][i] == s[i + 1];
      FilterNone(s[1..], f);
    }
  }

  /** `s.filter(f).length`. */
  function Count<T(!new)>(s: seq<T>, f: T -> bool): (n: nat)
    ensures n <= |s|
  {
    |Filter(s, f)|
  }

  /** Elements satisfying two predicates that exclude each other are
      counted apart: together they are never more than the list. */
  lemma {:induction false} CountDisjoint<T(!new)>(s: seq<T>, f: T -> bool, g: T -> bool)
    requires forall i :: 0 <= i < |s| ==> !(f(s[i]) && g(s[i]))
    ensures Count(s, f) + Count(s, g) <= |s|
  {
    if |s| > 0 {
      assert forall i :: 0 <= i < |s| - 1 ==> s[1..][i] == s[i + 1];
      CountDisjoint(s[1..], f, g);
    }
  }

  /** A test that is one of two exclusive tests counts what both count. */
  lemma {:induction false} CountEither<T(!new)>(s: seq<T>, f: T -> bool, g: T -> bool, h: T -> bool)
    requires forall i :: 0 <= i < |s| ==> h(s[i]) == (f(s[i]) || g(s[i])) && !(f(s[i]) && g(s[i]))
    ensures Count(s, h) == Count(s, f) + Count(s, g)
  {
    if |s| > 0 {
      assert forall i :: 0 <= i < |s| - 1 ==> s[1..][i] == s[i + 1];
      CountEither(s[1..], f, g, h);
    }
  }

  /** A list and its complement under `f` share out the list's elements. */
  lemma {:induction false} FilterSplit<T(!new)>(s: seq<T>, f: T -> bool, g: T -> bool)
    requires forall x :: g(x) == !f(x)
    ensures multiset(Filter(s, f)) + multiset(Filter(s, g)) == multiset(s)
  {
    if |s| > 0 {
      FilterSplit(s[1..], f, g);
      assert s == [s[0]] + s[1..];
    }
  }

  /** `[...new Set(s)]`: each element once, at its first occurrence. */
  function Distinct<T(==,!new)>(s: seq<T>): (r: seq<T>)
    ensures |r| <= |s|
    ensures forall x :: x in r <==> x in s
    ensures NoDup(r)
  {
    if |s| == 0 then []
    else
      var init := s[..|s| - 1];
      var p := Distinct(init);
      var x := s[|s| - 1];
      assert s == init + [x];
      if x in p then p else p + [x]
  }

  /** No element occurs twice. */
  predicate NoDup<T(==)>(s: seq<T>) {
    forall i, j :: 0 <= i < j < |s| ==> s[i] != s[j]
  }

  lemma {:induction false} NoDupAtMostOnce<T>(s: seq<T>, x: T)
    requires NoDup(s)
    ensures multiset(s)[x] <= 1
  {
    if |s| > 0 {
      var init := s[..|s| - 1];
      assert s == init + [s[|s| - 1]];
      assert NoDup(init);
      NoDupAtMostOnce(init, x);
      if x == s[|s| - 1] {
        assert x !in init;
      }
    }
  }

  /** A rearrangement of a list without repeats has none either. */
  lemma NoDupPermuted<T>(s: seq<T>, t: seq<T>)
    requires NoDup(s) && multiset(t) == multiset(s)
    ensures NoDup(t)
  {
    forall i, j | 0 <= i < j < |t| ensures t[i] != t[j] {
      if t[i] == t[j] {
        assert t == t[..j] + t[j..];
        assert t[i] in multiset(t[..j]);
        assert t[j] in multiset(t[j..]);
        NoDupAtMostOnce(s, t[i]);
        assert false;
      }
    }
  }

  /** Filtering keeps the relative order of the elements it keeps: the
      `i`-th and `j`-th kept elements sit at positions `a < b` of `s`. */
  lemma {:induction false} FilterIndices<T(!new)>(s: seq<T>, f: T -> bool, i: int, j: int) returns (a: nat, b: nat)
    requires 0 <= i < j < |Filter(s, f)|
    ensures a < b < |s| && s[a] == Filter(s, f)[i] && s[b] == Filter(s, f)[j]
  {
    var r := Filter(s, f);
    var rest := Filter(s[1..], f);
    if f(s[0]) {
      assert r == [s[0]] + rest;
      if i == 0 {
        FilterMembers(s[1..], f);
        var b' := IndexIn(s[1..], rest[j - 1]);
        a, b := 0, b' + 1;
      } else {
        var a', b' := FilterIndices(s[1..], f, i - 1, j - 1);
        a, b := a' + 1, b' + 1;
      }
    } else {
      var a', b' := FilterIndices(s[1..], f, i, j);
      a, b := a' + 1, b' + 1;
    }
  }

  /** A position of an element of `s`. */
  lemma IndexIn<T>(s: seq<T>, x: T) returns (k: nat)
    requires x in s
    ensures k < |s| && s[k] == x
  {
    k :| 0 <= k < |s| && s[k] == x;
  }
}

=== FILE: summary.dfy ===
/** `getTimeSummaryByProject`: time entries grouped by project, read back
    in the order JavaScript lists an object's own keys, each group's dates
    made distinct and sorted. */
module TimeSummary {
  import opened Text
  import opened Values
  import opened Seqs

  /** `entry.project_id_c?.Id || entry.project_id_c`. */
  function GroupValue(e: Record): Option<Value> {
    Or(Prop(Get(e, "project_id_c"), "Id"), Get(e, "project_id_c"))
  }

  /** The property key the group is stored under: `String` of that value. */
  function KeyOf(e: Record): string {
    ToStrOpt(GroupValue(e))
  }

  /** One accumulated group. The hours total is not modelled. */
  datatype Group = Group(key: string, projectId: Option<Value>, totalEntries: nat, dates: seq<Option<Value>>)

  /** The position of the group stored under `k`, if any. */
  function IndexOfKey(gs: seq<Group>, k: string): (o: Option<nat>)
    ensures o.Some? ==> o.value < |gs| && gs[o.value].key == k
    ensures o.None? ==> forall i :: 0 <= i < |gs| ==> gs[i].key != k
  {
    if |gs| == 0 then None
    else if gs[|gs| - 1].key == k then Some(|gs| - 1)
    else IndexOfKey(gs[..|gs| - 1], k)
  }

  /** One step of the `reduce`: open a group on a key's first entry, then
      count the entry and push its date. */
  function Add(gs: seq<Group>, e: Record): seq<Group> {
    var k := KeyOf(e);
    match IndexOfKey(gs, k)
    case None => gs + [Group(k, GroupValue(e), 1, [Get(e, "date_c")])]
    case Some(i) => gs[i := gs[i].(totalEntries := gs[i].totalEntries + 1, dates := gs[i].dates + [Get(e, "date_c")])]
  }

  /** The dates of the entries stored under `k`, in entry order. */
  function DatesFor(entries: seq<Record>, k: string): (ds: seq<Option<Value>>)
    ensures |ds| <= |entries|
  {
    if |entries| == 0 then []
    else
      var last := entries[|entries| - 1];
      DatesFor(entries[..|entries| - 1], k) + (if KeyOf(last) == k then [Get(last, "date_c")] else [])
  }

  predicate DistinctKeys(gs: seq<Group>) {
    forall i, j :: 0 <= i < j < |gs| ==> gs[i].key != gs[j].key
  }

  /** The keys the entries carry. */
  function KeySet(entries: seq<Record>): (ks: set<string>)
    ensures forall j :: 0 <= j < |entries| ==> KeyOf(entries[j]) in ks
  {
    if |entries| == 0 then {}
    else
      var init := entries[..|entries| - 1];
      assert forall j :: 0 <= j < |init| ==> init[j] == entries[j];
      KeySet(init) + {KeyOf(entries[|entries| - 1])}
  }

  predicate HasKey(gs: seq<Group>, k: string) {
    IndexOfKey(gs, k).Some?
  }

  /** The groups in the order they were opened (see `GroupsKeys` and
      `GroupsDates` for what they hold). */
  function Groups(entries: seq<Record>): (gs: seq<Group>)
    ensures DistinctKeys(gs)
    decreases |entries|
  {
    if |entries| == 0 then []
    else
      var prev := Groups(entries[..|entries| - 1]);
      var e := entries[|entries| - 1];
      AddDistinct(prev, e);
      Add(prev, e)
  }

  /** `Add` opens at most one group, under a new key. */
  lemma AddDistinct(gs: seq<Group>, e: Record)
    requires DistinctKeys(gs)
    ensures DistinctKeys(Add(gs, e))
    ensures forall k :: HasKey(Add(gs, e), k) <==> HasKey(gs, k) || k == KeyOf(e)
  {
    var r := Add(gs, e);
    match IndexOfKey(gs, KeyOf(e))
    case None =>
      assert forall k :: HasKey(r, k) <==> HasKey(gs, k) || k == KeyOf(e) by {
        forall k ensures HasKey(r, k) <==> HasKey(gs, k) || k == KeyOf(e) {
          if HasKey(gs, k) {
            var i := IndexOfKey(gs, k).value;
            assert r[i].key == k;
          }
          if k == KeyOf(e) {
            assert r[|gs|].key == k;
          }
          if HasKey(r, k) && k != KeyOf(e) {
            var i := IndexOfKey(r, k).value;
            assert i < |gs| && gs[i].key == k;
          }
        }
      }
    case Some(i) =>
      assert forall m :: 0 <= m < |r| ==> r[m].key == gs[m].key;
      assert forall k :: HasKey(r, k) <==> HasKey(gs, k) || k == KeyOf(e) by {
        forall k ensures HasKey(r, k) <==> HasKey(gs, k) || k == KeyOf(e) {
          if HasKey(gs, k) {
            var m := IndexOfKey(gs, k).value;
            assert r[m].key == k;
          }
          if HasKey(r, k) {
            var m := IndexOfKey(r, k).value;
            assert gs[m].key == k;
          }
        }
      }
  }

  /** There is a group for exactly the keys the entries carry. */
  lemma {:induction false} GroupsKeys(entries: seq<Record>)
    ensures forall k :: HasKey(Groups(entries), k) <==> k in KeySet(entries)
    decreases |entries|
  {
    if |entries| > 0 {
      var init := entries[..|entries| - 1];
      GroupsKeys(init);
      AddDistinct(Groups(init), entries[|entries| - 1]);
    }
  }

  /** A key no entry carries has no dates. */
  lemma {:induction false} DatesForAbsent(entries: seq<Record>, k: string)
    requires k !in KeySet(entries)
    ensures DatesFor(entries, k) == []
    decreases |entries|
  {
    if |entries| > 0 {
      DatesForAbsent(entries[..|entries| - 1], k);
    }
  }

  /** Each group holds the dates of its entries, in entry order, and
      counts them. */
  lemma {:induction false} GroupsDates(entries: seq<Record>)
    ensures forall i :: 0 <= i < |Groups(entries)| ==>
      Groups(entries)[i].dates == DatesFor(entries, Groups(entries)[i].key)
    ensures forall i :: 0 <= i < |Groups(entries)| ==>
      Groups(entries)[i].totalEntries == |Groups(entries)[i].dates|
    decreases |entries|
  {
    if |entries| > 0 {
      var init := entries[..|entries| - 1];
      var e := entries[|entries| - 1];
      var prev := Groups(init);
      var gs := Groups(entries);
      var k := KeyOf(e);
      GroupsDates(init);
      assert gs == Add(prev, e);
      match IndexOfKey(prev, k)
      case None =>
        GroupsKeys(init);
        DatesForAbsent(init, k);
        assert gs == prev + [Group(k, GroupValue(e), 1, [Get(e, "date_c")])];
      case Some(i) =>
        assert forall m :: 0 <= m < |gs| && m != i ==> gs[m] == prev[m] && prev[m].key != k;
    }
  }

  /** The position of the first entry that carries key `k`. */
  function FirstAt(entries: seq<Record>, k: string): (j: nat)
    requires k in KeySet(entries)
    ensures j < |entries| && KeyOf(entries[j]) == k
    ensures forall m :: 0 <= m < j ==> KeyOf(entries[m]) != k
    decreases |entries|
  {
    var init := entries[..|entries| - 1];
    assert forall m :: 0 <= m < |init| ==> init[m] == entries[m];
    if k in KeySet(init) then FirstAt(init, k)
    else
      assert forall m :: 0 <= m < |init| ==> KeyOf(init[m]) in KeySet(init);
      |init|
  }

  /** Every group is stored under a key some entry carries. */
  lemma GroupKeysCarried(entries: seq<Record>)
    ensures forall i :: 0 <= i < |Groups(entries)| ==> Groups(entries)[i].key in KeySet(entries)
  {
    var gs := Groups(entries);
    GroupsKeys(entries);
    forall i | 0 <= i < |gs| ensures gs[i].key in KeySet(entries) {
      assert HasKey(gs, gs[i].key);
    }
  }

  /** Appending an entry leaves the first positions of earlier keys alone. */
  lemma FirstAtSnoc(entries: seq<Record>, q: string)
    requires |entries| > 0 && q in KeySet(entries[..|entries| - 1])
    ensures q in KeySet(entries)
    ensures FirstAt(entries, q) == FirstAt(entries[..|entries| - 1], q)
  {
  }

  /** Groups whose keys first appear in the order of the groups. */
  predicate InFirstOrder(entries: seq<Record>, gs: seq<Group>) {
    && (forall i :: 0 <= i < |gs| ==> gs[i].key in KeySet(entries))
    && (forall i, j :: 0 <= i < j < |gs| ==> FirstAt(entries, gs[i].key) < FirstAt(entries, gs[j].key))
  }

  /** The step: earlier keys keep their first positions, and a new group
      opens under a key that first appears last. */
  lemma AddInFirstOrder(entries: seq<Record>, prev: seq<Group>, e: Record)
    requires |entries| > 0 && e == entries[|entries| - 1]
    requires forall k :: HasKey(prev, k) <==> k in KeySet(entries[..|entries| - 1])
    requires InFirstOrder(entries[..|entries| - 1], prev)
    ensures InFirstOrder(entries, Add(prev, e))
  {
    var init := entries[..|entries| - 1];
    var gs := Add(prev, e);
    var k := KeyOf(e);
    forall m | 0 <= m < |prev|
      ensures prev[m].key in KeySet(entries)
      ensures FirstAt(entries, prev[m].key) == FirstAt(init, prev[m].key)
    {
      FirstAtSnoc(entries, prev[m].key);
    }
    match IndexOfKey(prev, k)
    case None =>
      assert !HasKey(prev, k);
      assert FirstAt(entries, k) == |init|;
      assert gs == prev + [Group(k, GroupValue(e), 1, [Get(e, "date_c")])];
    case Some(i) =>
      assert forall m :: 0 <= m < |gs| ==> gs[m].key == prev[m].key;
  }

  /** The groups come in the order their keys first appear. */
  lemma {:induction false} GroupsOrder(entries: seq<Record>)
    ensures forall i :: 0 <= i < |Groups(entries)| ==> Groups(entries)[i].key in KeySet(entries)
    ensures forall i, j :: 0 <= i < j < |Groups(entries)| ==>
      FirstAt(entries, Groups(entries)[i].key) < FirstAt(entries, Groups(entries)[j].key)
    decreases |entries|
  {
    if |entries| > 0 {
      var init := entries[..|entries| - 1];
      GroupsOrder(init);
      GroupsKeys(init);
      AddInFirstOrder(entries, Groups(init), entries[|entries| - 1]);
    }
  }

  /** Group `g` carries the project value of the first entry under its key. */
  predicate KeepsFirstValue(entries: seq<Record>, g: Group) {
    g.key in KeySet(entries) && g.projectId == GroupValue(entries[FirstAt(entries, g.key)])
  }

  lemma KeepsFirstValueSnoc(entries: seq<Record>, g: Group)
    requires |entries| > 0 && KeepsFirstValue(entries[..|entries| - 1], g)
    ensures KeepsFirstValue(entries, g)
  {
    var init := entries[..|entries| - 1];
    FirstAtSnoc(entries, g.key);
    assert entries[FirstAt(init, g.key)] == init[FirstAt(init, g.key)];
  }

  /** `Add` opens a group with the value of the entry that opens it. */
  lemma AddKeepsFirstValue(entries: seq<Record>, prev: seq<Group>, e: Record)
    requires |entries| > 0 && e == entries[|entries| - 1]
    requires forall k :: HasKey(prev, k) <==> k in KeySet(entries[..|entries| - 1])
    requires forall m :: 0 <= m < |prev| ==> KeepsFirstValue(entries, prev[m])
    ensures forall i :: 0 <= i < |Add(prev, e)| ==> KeepsFirstValue(entries, Add(prev, e)[i])
  {
    var k := KeyOf(e);
    var gs := Add(prev, e);
    match IndexOfKey(prev, k)
    case None =>
      assert !HasKey(prev, k);
      assert FirstAt(entries, k) == |entries| - 1;
      assert gs == prev + [Group(k, GroupValue(e), 1, [Get(e, "date_c")])];
      assert KeepsFirstValue(entries, gs[|prev|]);
    case Some(i) =>
      assert forall m :: 0 <= m < |gs| && m != i ==> gs[m] == prev[m];
      assert gs[i].key == prev[i].key && gs[i].projectId == prev[i].projectId;
  }

  /** Each group keeps the project value of its first entry. */
  lemma {:induction false} GroupsProjectId(entries: seq<Record>)
    ensures forall i :: 0 <= i < |Groups(entries)| ==> KeepsFirstValue(entries, Groups(entries)[i])
    decreases |entries|
  {
    if |entries| > 0 {
      var init := entries[..|entries| - 1];
      var prev := Groups(init);
      GroupsProjectId(init);
      GroupsKeys(init);
      forall m | 0 <= m < |prev| ensures KeepsFirstValue(entries, prev[m]) {
        KeepsFirstValueSnoc(entries, prev[m]);
      }
      AddKeepsFirstValue(entries, prev, entries[|entries| - 1]);
    }
  }

  /** The entries counted over all groups. */
  function TotalEntries(gs: seq<Group>): nat {
    if |gs| == 0 then 0 else TotalEntries(gs[..|gs| - 1]) + gs[|gs| - 1].totalEntries
  }

  lemma {:induction false} TotalEntriesUpdate(gs: seq<Group>, i: int, g: Group)
    requires 0 <= i < |gs|
    ensures TotalEntries(gs[i := g]) == TotalEntries(gs) - gs[i].totalEntries + g.totalEntries
    decreases |gs|
  {
    var n := |gs| - 1;
    if i < n {
      assert gs[i := g][..n] == gs[..n][i := g];
      TotalEntriesUpdate(gs[..n], i, g);
    } else {
      assert gs[i := g][..n] == gs[..n];
    }
  }

  /** Each step counts one more entry. */
  lemma AddTotal(gs: seq<Group>, e: Record)
    ensures TotalEntries(Add(gs, e)) == TotalEntries(gs) + 1
  {
    match IndexOfKey(gs, KeyOf(e))
    case None =>
      assert Add(gs, e)[..|gs|] == gs;
    case Some(i) =>
      TotalEntriesUpdate(gs, i, Add(gs, e)[i]);
  }

  /** Every entry is counted in exactly one group. */
  lemma {:induction false} GroupsTotal(entries: seq<Record>)
    ensures TotalEntries(Groups(entries)) == |entries|
    decreases |entries|
  {
    if |entries| > 0 {
      var init := entries[..|entries| - 1];
      GroupsTotal(init);
      AddTotal(Groups(init), entries[|entries| - 1]);
    }
  }

  /** A property key that is an array index: the decimal text, without a
      leading zero, of an integer below 2^32 - 1. */
  predicate IsIndexKey(k: string) {
    && |k| > 0
    && (forall i :: 0 <= i < |k| ==> IsDigit(k[i]))
    && (|k| == 1 || k[0] != '0')
    && DigitsValue(k) < 0xFFFF_FFFF
  }

  /** The key of a project stored under a number below 2^32 - 1 is an
      array index, read back as that number. */
  lemma IndexKeyOfNat(n: nat)
    requires n < 0xFFFF_FFFF
    ensures IsIndexKey(NatToString(n)) && DigitsValue(NatToString(n)) == n
  {
  }

  predicate IsIndexGroup(g: Group) {
    IsIndexKey(g.key)
  }

  predicate IsNamedGroup(g: Group) {
    !IsIndexKey(g.key)
  }

  predicate AllIndex(s: seq<Group>) {
    forall i :: 0 <= i < |s| ==> IsIndexGroup(s[i])
  }

  /** Index-keyed groups in ascending numeric order. */
  predicate Ascending(s: seq<Group>)
    requires AllIndex(s)
  {
    forall i :: 0 <= i < |s| - 1 ==> DigitsValue(s[i].key) <= DigitsValue(s[i + 1].key)
  }

  function InsertByIndex(g: Group, s: seq<Group>): (r: seq<Group>)
    requires IsIndexGroup(g) && AllIndex(s)
    ensures AllIndex(r)
    ensures multiset(r) == multiset(s) + multiset{g}
  {
    if |s| == 0 then [g]
    else if DigitsValue(g.key) <= DigitsValue(s[0].key) then [g] + s
    else
      assert s == [s[0]] + s[1..];
      [s[0]] + InsertByIndex(g, s[1..])
  }

  lemma {:induction false} InsertByIndexAscending(g: Group, s: seq<Group>)
    requires IsIndexGroup(g) && AllIndex(s) && Ascending(s)
    ensures Ascending(InsertByIndex(g, s))
    ensures |s| > 0 ==> InsertByIndex(g, s)[0] == g || InsertByIndex(g, s)[0] == s[0]
  {
    if |s| > 0 && DigitsValue(g.key) > DigitsValue(s[0].key) {
      InsertByIndexAscending(g, s[1..]);
    }
  }

  function SortByIndex(s: seq<Group>): (r: seq<Group>)
    requires AllIndex(s)
    ensures |r| == |s|
    ensures AllIndex(r) && Ascending(r)
    ensures multiset(r) == multiset(s)
  {
    if |s| == 0 then []
    else
      assert s == [s[0]] + s[1..];
      var rest := SortByIndex(s[1..]);
      InsertByIndexAscending(s[0], rest);
      InsertByIndex(s[0], rest)
  }

  /** `Object.values(acc)`: the groups under array-index keys in ascending
      numeric order, then the rest in the order they were opened. */
  function ObjectValues(gs: seq<Group>): (r: seq<Group>)
    ensures |r| == |Filter(gs, IsIndexGroup)| + |Filter(gs, IsNamedGroup)|
  {
    SortByIndex(Filter(gs, IsIndexGroup)) + Filter(gs, IsNamedGroup)
  }

  /** `Object.values` lists every group once. */
  lemma ObjectValuesPermutes(gs: seq<Group>)
    ensures multiset(ObjectValues(gs)) == multiset(gs)
    ensures |ObjectValues(gs)| == |gs|
  {
    FilterSplit(gs, IsIndexGroup, IsNamedGroup);
    assert |multiset(ObjectValues(gs))| == |multiset(gs)|;
  }

  /** The index-keyed groups lead, in ascending numeric order. */
  lemma ObjectValuesIndexPrefix(gs: seq<Group>)
    ensures var n := |Filter(gs, IsIndexGroup)|; var ov := ObjectValues(gs);
      && (forall i :: 0 <= i < n ==> IsIndexGroup(ov[i]))
      && (forall i :: 0 <= i < n - 1 ==> DigitsValue(ov[i].key) <= DigitsValue(ov[i + 1].key))
  {
    var sorted := SortByIndex(Filter(gs, IsIndexGroup));
    assert forall i :: 0 <= i < |sorted| ==> ObjectValues(gs)[i] == sorted[i];
  }

  /** The other groups follow in the order they were opened. */
  lemma ObjectValuesNamedSuffix(gs: seq<Group>)
    ensures var n := |Filter(gs, IsIndexGroup)|; var ov := ObjectValues(gs);
      forall i :: n <= i < |ov| ==> ov[i] == Filter(gs, IsNamedGroup)[i - n]
  {
    var idx := Filter(gs, IsIndexGroup);
    var sorted := SortByIndex(idx);
    var named := Filter(gs, IsNamedGroup);
    var ov := sorted + named;
    assert ObjectValues(gs) == ov;
    assert |sorted| == |idx|;
    forall i | |idx| <= i < |ov|
      ensures ov[i] == named[i - |idx|]
    {
    }
  }

  /** The index-keyed groups lead, ascending; the others follow in the
      order they were opened. */
  lemma ObjectValuesOrder(gs: seq<Group>)
    ensures var n := |Filter(gs, IsIndexGroup)|; var ov := ObjectValues(gs);
      && |ov| == n + |Filter(gs, IsNamedGroup)|
      && (forall i :: 0 <= i < n ==> IsIndexGroup(ov[i]))
      && (forall i :: 0 <= i < n - 1 ==> DigitsValue(ov[i].key) <= DigitsValue(ov[i + 1].key))
      && (forall i :: n <= i < |ov| ==> ov[i] == Filter(gs, IsNamedGroup)[i - n])
  {
    ObjectValuesIndexPrefix(gs);
    ObjectValuesNamedSuffix(gs);
  }

  /** No named group comes before an index-keyed one, and the index keys
      ascend. */
  lemma ObjectValuesIndexFirst(gs: seq<Group>)
    ensures forall i, j :: 0 <= i < j < |ObjectValues(gs)| && IsIndexGroup(ObjectValues(gs)[j]) ==>
      IsIndexGroup(ObjectValues(gs)[i])
    ensures forall i :: 0 <= i < |ObjectValues(gs)| - 1 && IsIndexGroup(ObjectValues(gs)[i + 1]) ==>
      DigitsValue(ObjectValues(gs)[i].key) <= DigitsValue(ObjectValues(gs)[i + 1].key)
  {
    ObjectValuesOrder(gs);
  }

  /** A named group sits after all the integer-like ones. */
  lemma NamedAfterIndex(gs: seq<Group>, i: int)
    requires 0 <= i < |ObjectValues(gs)| && IsNamedGroup(ObjectValues(gs)[i])
    ensures |Filter(gs, IsIndexGroup)| <= i
  {
    ObjectValuesIndexPrefix(gs);
    if i < |Filter(gs, IsIndexGroup)| {
      assert false;
    }
  }

  /** Two named groups keep the order they had when opened. */
  lemma ObjectValuesNamedOrder(gs: seq<Group>, i: int, j: int) returns (a: nat, b: nat)
    requires 0 <= i < j < |ObjectValues(gs)| && IsNamedGroup(ObjectValues(gs)[i])
    ensures a < b < |gs| && gs[a] == ObjectValues(gs)[i] && gs[b] == ObjectValues(gs)[j]
  {
    var n := |Filter(gs, IsIndexGroup)|;
    NamedAfterIndex(gs, i);
    ObjectValuesNamedSuffix(gs);
    var named := Filter(gs, IsNamedGroup);
    assert ObjectValues(gs)[i] == named[i - n] && ObjectValues(gs)[j] == named[j - n];
    a, b := FilterIndices(gs, IsNamedGroup, i - n, j - n);
  }

  /** The sort order on dates: by their text, undefined last. */
  predicate DateLe(a: Option<Value>, b: Option<Value>) {
    b.None? || (a.Some? && StrLe(ToStr(a.value), ToStr(b.value)))
  }

  predicate DatesSorted(s: seq<Option<Value>>) {
    forall i :: 0 <= i < |s| - 1 ==> DateLe(s[i], s[i + 1])
  }

  /** Puts `x` after every date that does not sort above it. */
  function InsertDate(x: Option<Value>, s: seq<Option<Value>>): (r: seq<Option<Value>>)
    ensures multiset(r) == multiset(s) + multiset{x}
    ensures |r| > 0 && (r[0] == x || (|s| > 0 && r[0] == s[0]))
    ensures DatesSorted(s) ==> DatesSorted(r)
  {
    if |s| == 0 then [x]
    else if !DateLe(s[0], x) then
      assert DateLe(x, s[0]) by {
        if x.Some? && s[0].Some? { StrLeTotal(ToStr(x.value), ToStr(s[0].value)); }
      }
      [x] + s
    else
      assert s == [s[0]] + s[1..];
      [s[0]] + InsertDate(x, s[1..])
  }

  /** `dates.sort()`: a stable insertion sort, each date placed after the
      earlier ones it does not sort below. */
  function SortDates(s: seq<Option<Value>>): (r: seq<Option<Value>>)
    ensures DatesSorted(r)
    ensures multiset(r) == multiset(s)
  {
    if |s| == 0 then []
    else
      assert s == s[..|s| - 1] + [s[|s| - 1]];
      InsertDate(s[|s| - 1], SortDates(s[..|s| - 1]))
  }

  /** The last pass: each group's dates made distinct and sorted. */
  function Finalize(g: Group): (r: Group)
    ensures r.key == g.key && r.projectId == g.projectId && r.totalEntries == g.totalEntries
  {
    g.(dates := SortDates(Distinct(g.dates)))
  }

  /** The dates come out once each, sorted, and none is lost. */
  lemma FinalizeDates(g: Group)
    ensures DatesSorted(Finalize(g).dates)
    ensures NoDup(Finalize(g).dates)
    ensures forall x :: x in Finalize(g).dates <==> x in g.dates
  {
    var ds := Distinct(g.dates);
    var sorted := SortDates(ds);
    assert forall x :: x in sorted <==> x in ds by {
      forall x ensures x in sorted <==> x in ds {
        assert x in sorted <==> x in multiset(sorted);
        assert x in ds <==> x in multiset(ds);
      }
    }
    NoDupPermuted(ds, sorted);
  }

  /** Some entry's key is an inherited name. Under such a key the
      accumulator finds an inherited value instead of a group, the
      `dates.push` that follows throws, and the catch answers []. */
  predicate HitsInherited(entries: seq<Record>) {
    exists j :: 0 <= j < |entries| && KeyOf(entries[j]) in InheritedNames
  }

  /** `getTimeSummaryByProject` over the listed entries: the groups in
      `Object.values` order, each finalized. */
  function Summary(entries: seq<Record>): (r: seq<Group>)
    ensures HitsInherited(entries) ==> r == []
    ensures !HitsInherited(entries) ==> |r| == |Groups(entries)|
    ensures !HitsInherited(entries) ==> |r| == |ObjectValues(Groups(entries))|
    ensures !HitsInherited(entries) ==>
      forall i :: 0 <= i < |r| ==> r[i] == Finalize(ObjectValues(Groups(entries))[i])
  {
    if HitsInherited(entries) then []
    else
      var ov := ObjectValues(Groups(entries));
      ObjectValuesPermutes(Groups(entries));
      seq(|ov|, i requires 0 <= i < |ov| => Finalize(ov[i]))
  }

  /** A group of the summary is a key some entry carries, with the project
      id of its first entry, the number of its entries and their dates, once
      each and sorted. */
  lemma SummaryGroupAt(entries: seq<Record>, i: int)
    requires !HitsInherited(entries) && 0 <= i < |Summary(entries)|
    ensures var g := Summary(entries)[i];
      && g.key in KeySet(entries)
      && g.totalEntries == |DatesFor(entries, g.key)|
      && DatesSorted(g.dates) && NoDup(g.dates)
      && (forall x :: x in g.dates <==> x in DatesFor(entries, g.key))
      && g.projectId == GroupValue(entries[FirstAt(entries, g.key)])
  {
    var gs := Groups(entries);
    var ov := ObjectValues(gs);
    var m: nat;
    ObjectValuesPermutes(gs);
    assert ov[i] in multiset(gs);
    m := IndexIn(gs, ov[i]);
    GroupsDates(entries);
    GroupKeysCarried(entries);
    GroupsProjectId(entries);
    assert KeepsFirstValue(entries, gs[m]);
    FinalizeDates(ov[i]);
  }

  /** Every key the entries carry has a group in the summary. */
  lemma SummaryCovers(entries: seq<Record>, k: string) returns (i: nat)
    requires !HitsInherited(entries) && k in KeySet(entries)
    ensures i < |Summary(entries)| && Summary(entries)[i].key == k
  {
    var gs := Groups(entries);
    var ov := ObjectValues(gs);
    GroupsKeys(entries);
    assert HasKey(gs, k);
    var m := IndexOfKey(gs, k).value;
    ObjectValuesPermutes(gs);
    assert gs[m] in multiset(ov);
    i := IndexIn(ov, gs[m]);
  }

  /** In the summary the array-index keys come first, in ascending
      numeric order. */
  lemma SummaryIndexFirst(entries: seq<Record>)
    requires !HitsInherited(entries)
    ensures forall i, j :: 0 <= i < j < |Summary(entries)| && IsIndexKey(Summary(entries)[j].key) ==>
      IsIndexKey(Summary(entries)[i].key)
    ensures forall i :: 0 <= i < |Summary(entries)| - 1 && IsIndexKey(Summary(entries)[i + 1].key) ==>
      DigitsValue(Summary(entries)[i].key) <= DigitsValue(Summary(entries)[i + 1].key)
  {
    ObjectValuesIndexFirst(Groups(entries));
  }

  /** The other keys follow in the order their first entries came. */
  lemma SummaryNamedOrder(entries: seq<Record>, i: int, j: int)
    requires !HitsInherited(entries)
    requires 0 <= i < j < |Summary(entries)| && !IsIndexKey(Summary(entries)[i].key)
    ensures Summary(entries)[i].key in KeySet(entries) && Summary(entries)[j].key in KeySet(entries)
    ensures FirstAt(entries, Summary(entries)[i].key) < FirstAt(entries, Summary(entries)[j].key)
  {
    var gs := Groups(entries);
    var ov := ObjectValues(gs);
    var a, b := ObjectValuesNamedOrder(gs, i, j);
    GroupsOrder(entries);
  }
}

=== FILE: task.dfy ===
/** The task service: the record `create` sends, the record `update`
    sends, the two shortcuts built on `update`, and the by-project filter.
    `today` and `now` stand for the clock readings the service takes. */
module TaskService {
  import opened Values
  import opened Payload
  import opened Filters
  import opened Remote

  /** `getById`: the record, or null (never an error) when it is missing
      or the store throws. */
  function GetById(reply: Reply): (r: Option<Value>)
    ensures r.Some? <==> reply.Got? && TruthyOpt(reply.resp.data)
    ensures r.Some? ==> r == reply.resp.data
  {
    FoundOrNull(reply)
  }

  /** `delete`: true exactly when some record was deleted; a failed call,
      a reply without results or a throw is false. */
  function Delete(reply: Reply): (b: bool)
    ensures b <==> HasResults(reply) && exists i :: 0 <= i < |ResultsOf(reply)| && ResultsOf(reply)[i].success
  {
    AnySucceeded(reply)
  }

  /** `Name` survives in `create`'s record unless `Name || title || name`
      is undefined, which happens only when `name` is the operand reached
      and is itself undefined. */
  predicate CreateHasName(d: Record) {
    TruthyAt(d, "Name") || TruthyAt(d, "title") || "name" in d
  }

  /** The fields of `create`'s record other than `Name`: the project is
      parsed or null, the creation time is the clock's. */
  function CreateFields(d: Record, today: string, now: string): (r: Record)
    ensures r.Keys == {"Tags", "description_c", "completed_c", "priority_c", "start_date_c",
                       "due_date_c", "created_at_c", "status_c", "project_id_c"}
    ensures r["created_at_c"] == VStr(now)
    ensures ParsedOr(r, "project_id_c", d, "project_id_c", "projectId")
  {
    map[
      "Tags" := OrKeys(d, ["Tags"], VStr("")),
      "description_c" := OrKeys(d, ["description_c", "description"], VStr("")),
      "completed_c" := OrKeys(d, ["completed_c"], VBool(false)),
      "priority_c" := OrKeys(d, ["priority_c", "priority"], VStr("Medium")),
      "start_date_c" := OrKeys(d, ["start_date_c", "startDate"], VStr(today)),
      "due_date_c" := OrKeys(d, ["due_date_c", "dueDate"], VStr("")),
      "created_at_c" := VStr(now),
      "status_c" := OrKeys(d, ["status_c", "status"], VStr("To Do")),
      "project_id_c" := ParsedOrNull(d, ["project_id_c", "projectId"])]
  }

  /** The defaults of `create`: each field takes its first truthy source,
      else its fallback. */
  lemma CreateDefaults(d: Record, today: string, now: string)
    ensures OneOr(CreateFields(d, today, now), "Tags", d, "Tags", VStr(""))
    ensures OneOr(CreateFields(d, today, now), "completed_c", d, "completed_c", VBool(false))
    ensures TwoOr(CreateFields(d, today, now), "priority_c", d, "priority_c", "priority", VStr("Medium"))
    ensures TwoOr(CreateFields(d, today, now), "status_c", d, "status_c", "status", VStr("To Do"))
  {
  }

  /** The text and date defaults of `create`. */
  lemma CreateTextDefaults(d: Record, today: string, now: string)
    ensures TwoOr(CreateFields(d, today, now), "description_c", d, "description_c", "description", VStr(""))
    ensures TwoOr(CreateFields(d, today, now), "start_date_c", d, "start_date_c", "startDate", VStr(today))
    ensures TwoOr(CreateFields(d, today, now), "due_date_c", d, "due_date_c", "dueDate", VStr(""))
  {
  }

  /** `create`'s record: the fields above, and `Name` from
      `Name || title || name`, absent when that chain ends undefined. */
  function Create(d: Record, today: string, now: string): (r: Record)
    ensures r.Keys == CreateFields(d, today, now).Keys + (if CreateHasName(d) then {"Name"} else {})
    ensures forall k :: k in r && k != "Name" ==> r[k] == CreateFields(d, today, now)[k]
    ensures Get(r, "Name") ==
      if TruthyAt(d, "Name") then Some(d["Name"]) else if TruthyAt(d, "title") then Some(d["title"]) else Get(d, "name")
  {
    var name := Or(Get(d, "Name"), Or(Get(d, "title"), Get(d, "name")));
    var fields := CreateFields(d, today, now);
    if name.Some? then fields["Name" := name.value] else fields
  }

  /** The statements of `update`, one rule per field, in source order. */
  function UpdateRules(): seq<Rule> {
    [ Rule("Name", ["Name", "name", "title"], Raw),
      Rule("Tags", ["Tags"], Raw),
      Rule("description_c", ["description_c", "description"], Raw),
      Rule("completed_c", ["completed_c", "completed"], Raw),
      Rule("priority_c", ["priority_c", "priority"], Raw),
      Rule("start_date_c", ["start_date_c", "startDate"], Raw),
      Rule("due_date_c", ["due_date_c", "dueDate"], Raw),
      Rule("status_c", ["status_c", "status"], Raw),
      Rule("project_id_c", ["project_id_c", "projectId"], Int) ]
  }

  lemma UpdateRulesDistinct()
    ensures DistinctTargets(UpdateRules())
    ensures "Id" !in Targets(UpdateRules())
  {
    var rules := UpdateRules();
    assert rules[0].dst == "Name";
  }

  /** `update`'s record: the parsed id, and per field the value of its
      last supplied source (see `UpdateName`, `UpdateAliasWins` and
      `UpdateKeys`). */
  function Update(id: Value, d: Record): (r: Record)
    ensures "Id" in r && r["Id"] == ParseInt(id)
  {
    UpdateRulesDistinct();
    Stamped(ParseInt(id), d, UpdateRules())
  }

  /** `update` sends the id and the fields of the rules whose sources were
      supplied, nothing more. */
  lemma UpdateKeys(id: Value, d: Record, allowed: set<string>)
    requires OnlyTouches(d.Keys, UpdateRules(), allowed, 0)
    ensures Update(id, d).Keys <= {"Id"} + allowed
  {
    UpdateRulesDistinct();
    StampedKeys(ParseInt(id), d, UpdateRules(), allowed);
  }

  /** A field other than the id is sent only when one of its sources was
      supplied. */
  lemma UpdateWritesOnlySupplied(id: Value, d: Record, k: string)
    ensures k in Update(id, d) && k != "Id" ==>
      exists i, j :: 0 <= i < |UpdateRules()| && UpdateRules()[i].dst == k &&
                     0 <= j < |UpdateRules()[i].srcs| && UpdateRules()[i].srcs[j] in d
  {
    UpdateRulesDistinct();
    StampedSupplied(ParseInt(id), d, UpdateRules(), k);
  }

  /** For `Name`, `title` overrides `name`, which overrides `Name`. */
  lemma UpdateName(id: Value, d: Record)
    ensures Get(Update(id, d), "Name") ==
      if "title" in d then Some(d["title"])
      else if "name" in d then Some(d["name"])
      else Get(d, "Name")
  {
    UpdateRulesDistinct();
    BuildAt(d, UpdateRules(), map["Id" := ParseInt(id)], 0);
    LastSuppliedOfThree(d, "Name", "name", "title");
  }

  /** In every two-source field the alias, assigned second, wins over the
      storage name; a field with neither source supplied is not sent. */
  lemma UpdateAliasWins(id: Value, d: Record, i: int, dst: string, name: string, alias: string, conv: Conv)
    requires 0 <= i < |UpdateRules()| && UpdateRules()[i] == Rule(dst, [name, alias], conv)
    ensures Get(Update(id, d), dst) ==
      if alias in d then Convert(conv, d[alias])
      else if name in d then Convert(conv, d[name])
      else None
  {
    UpdateRulesDistinct();
    StampedPair(ParseInt(id), d, UpdateRules(), i, dst, name, alias, conv);
  }

  /** Create and update disagree when both names are supplied: `create`
      keeps the truthy storage name, `update` takes the alias. */
  lemma CreateUpdateDisagree(id: Value, d: Record, today: string, now: string)
    requires TruthyAt(d, "Name") && "name" in d && "title" !in d
    ensures Get(Create(d, today, now), "Name") == Some(d["Name"])
    ensures Get(Update(id, d), "Name") == Some(d["name"])
  {
    UpdateName(id, d);
  }

  /** `markComplete`: `update` with `completed_c: true` alone. */
  function MarkComplete(id: Value): (r: Record)
    ensures "Id" in r && r["Id"] == ParseInt(id)
    ensures "completed_c" in r && r["completed_c"] == VBool(true)
  {
    var d := map["completed_c" := VBool(true)];
    UpdateAliasWins(id, d, 3, "completed_c", "completed_c", "completed", Raw);
    Update(id, d)
  }

  /** `markComplete` sends nothing but the id and the completion flag. */
  lemma MarkCompleteOnly(id: Value)
    ensures MarkComplete(id).Keys <= {"Id", "completed_c"}
  {
    var d := map["completed_c" := VBool(true)];
    assert d.Keys == {"completed_c"};
    UpdateKeys(id, d, {"completed_c"});
  }

  /** `status === 'Done' || status === 'Completed'`. */
  predicate IsDoneStatus(status: Value) {
    StrictEq(status, VStr("Done")) || StrictEq(status, VStr("Completed"))
  }

  /** Strict equality with a string is plain equality: only the two
      status strings mark a task done. */
  lemma IsDoneStatusIff(status: Value)
    ensures IsDoneStatus(status) <==> status == VStr("Done") || status == VStr("Completed")
  {
  }

  /** `updateStatus`: writes the status, and marks the task completed
      exactly when the status is `Done` or `Completed`. */
  function UpdateStatus(id: Value, status: Value): (r: Record)
    ensures "Id" in r && r["Id"] == ParseInt(id)
    ensures "status_c" in r && r["status_c"] == status
    ensures "completed_c" in r && r["completed_c"] == VBool(IsDoneStatus(status))
  {
    var d := map["status_c" := status, "completed_c" := VBool(IsDoneStatus(status))];
    UpdateAliasWins(id, d, 3, "completed_c", "completed_c", "completed", Raw);
    UpdateAliasWins(id, d, 7, "status_c", "status_c", "status", Raw);
    Update(id, d)
  }

  /** `updateStatus` sends nothing but the id, the status and the flag. */
  lemma UpdateStatusOnly(id: Value, status: Value)
    ensures UpdateStatus(id, status).Keys <= {"Id", "status_c", "completed_c"}
  {
    var d := map["status_c" := status, "completed_c" := VBool(IsDoneStatus(status))];
    assert d.Keys == {"status_c", "completed_c"};
    UpdateKeys(id, d, {"status_c", "completed_c"});
  }

  /** `getByProjectId`'s filter. */
  function ByProject(projectId: Value): seq<Condition> {
    ByParsedId("project_id_c", projectId)
  }
}

=== FILE: tasklist.dfy ===
/** The task-list service: the record `create` sends, the record `update`
    sends, the lookup convention of `getById`, and the two filters. */
module TaskListService {
  import opened Text
  import opened Values
  import opened Payload
  import opened Filters
  import opened Remote

  /** `Name || name` is undefined only when `name` is reached and absent. */
  predicate CreateHasName(d: Record) {
    TruthyAt(d, "Name") || "name" in d
  }

  /** The fields of `create`'s record other than `Name`: the two links are
      parsed from the truthy storage name, else the truthy alias, else null. */
  function CreateFields(d: Record, now: string): (r: Record)
    ensures r.Keys == {"Tags", "description_c", "tasks_c", "created_at_c", "milestone_id_c", "project_id_c"}
    ensures r["created_at_c"] == VStr(now)
    ensures ParsedOr(r, "milestone_id_c", d, "milestone_id_c", "milestoneId")
    ensures ParsedOr(r, "project_id_c", d, "project_id_c", "projectId")
  {
    map[
      "Tags" := OrKeys(d, ["Tags"], VStr("")),
      "description_c" := OrKeys(d, ["description_c", "description"], VStr("")),
      "tasks_c" := OrKeys(d, ["tasks_c"], VStr("")),
      "created_at_c" := VStr(now),
      "milestone_id_c" := ParsedOrNull(d, ["milestone_id_c", "milestoneId"]),
      "project_id_c" := ParsedOrNull(d, ["project_id_c", "projectId"])]
  }

  /** The text defaults of `create`. */
  lemma CreateDefaults(d: Record, now: string)
    ensures OneOr(CreateFields(d, now), "Tags", d, "Tags", VStr(""))
    ensures TwoOr(CreateFields(d, now), "description_c", d, "description_c", "description", VStr(""))
    ensures OneOr(CreateFields(d, now), "tasks_c", d, "tasks_c", VStr(""))
  {
  }

  /** `create`'s record: the fields above and `Name` from `Name || name`. */
  function Create(d: Record, now: string): (r: Record)
    ensures r.Keys == CreateFields(d, now).Keys + (if CreateHasName(d) then {"Name"} else {})
    ensures forall k :: k in r && k != "Name" ==> r[k] == CreateFields(d, now)[k]
    ensures Get(r, "Name") == if TruthyAt(d, "Name") then Some(d["Name"]) else Get(d, "name")
  {
    var name := Or(Get(d, "Name"), Get(d, "name"));
    var fields := CreateFields(d, now);
    if name.Some? then fields["Name" := name.value] else fields
  }

  /** The statements of `update`, one rule per field, in source order. */
  function UpdateRules(): seq<Rule> {
    [ Rule("Name", ["Name", "name"], Raw),
      Rule("Tags", ["Tags"], Raw),
      Rule("description_c", ["description_c", "description"], Raw),
      Rule("tasks_c", ["tasks_c"], Raw),
      Rule("milestone_id_c", ["milestone_id_c", "milestoneId"], Int),
      Rule("project_id_c", ["project_id_c", "projectId"], Int) ]
  }

  lemma UpdateRulesDistinct()
    ensures DistinctTargets(UpdateRules())
    ensures "Id" !in Targets(UpdateRules())
  {
    var rules := UpdateRules();
    assert rules[0].dst == "Name";
  }

  /** `update`'s record: the parsed id and the supplied fields. */
  function Update(id: Value, d: Record): (r: Record)
    ensures "Id" in r && r["Id"] == ParseInt(id)
  {
    UpdateRulesDistinct();
    Stamped(ParseInt(id), d, UpdateRules())
  }

  /** A field other than the id is sent only when one of its sources was
      supplied. */
  lemma UpdateWritesOnlySupplied(id: Value, d: Record, k: string)
    ensures k in Update(id, d) && k != "Id" ==>
      exists i, j :: 0 <= i < |UpdateRules()| && UpdateRules()[i].dst == k &&
                     0 <= j < |UpdateRules()[i].srcs| && UpdateRules()[i].srcs[j] in d
  {
    UpdateRulesDistinct();
    StampedSupplied(ParseInt(id), d, UpdateRules(), k);
  }

  /** In each two-source field the alias, assigned second, wins; a field
      with neither source supplied is not sent. */
  lemma UpdateAliasWins(id: Value, d: Record, i: int, dst: string, name: string, alias: string, conv: Conv)
    requires 0 <= i < |UpdateRules()| && UpdateRules()[i] == Rule(dst, [name, alias], conv)
    ensures Get(Update(id, d), dst) ==
      if alias in d then Convert(conv, d[alias])
      else if name in d then Convert(conv, d[name])
      else None
  {
    UpdateRulesDistinct();
    StampedPair(ParseInt(id), d, UpdateRules(), i, dst, name, alias, conv);
  }

  /** `getById`: the record, or "Task list not found" when it is missing or
      the store throws. */
  function GetById(reply: Reply): (r: Outcome<Value>)
    ensures r.Raise? <==> !(reply.Got? && TruthyOpt(reply.resp.data))
    ensures r.Raise? ==> r.message == "Task list not found"
    ensures r.Ok? ==> Some(r.value) == reply.resp.data
  {
    FoundOrRaise(reply, "Task list not found")
  }

  /** `getByMilestoneId`'s filter: the task lists of one milestone. */
  function ByMilestone(milestoneId: Value): (cs: seq<Condition>)
    ensures |cs| == 1 && cs[0].field == "milestone_id_c" && cs[0].op == EqualTo
    ensures milestoneId.VNum? ==> cs[0].values == [milestoneId]
  {
    ByParsedId("milestone_id_c", milestoneId)
  }

  /** `getByProjectId`'s filter: the task lists of one project. */
  function ByProject(projectId: Value): (cs: seq<Condition>)
    ensures |cs| == 1 && cs[0].field == "project_id_c" && cs[0].op == EqualTo
    ensures projectId.VNum? ==> cs[0].values == [projectId]
  {
    ByParsedId("project_id_c", projectId)
  }

  /** A milestone or project id given as the decimal text of an integer
      selects the same task lists as the integer itself. */
  lemma ByIdOfText(n: int)
    ensures ByMilestone(VStr(IntToString(n))) == ByMilestone(VNum(n))
    ensures ByProject(VStr(IntToString(n))) == ByProject(VNum(n))
  {
    ByParsedIdOfText("milestone_id_c", n);
    ByParsedIdOfText("project_id_c", n);
  }

  /** `delete`: true exactly when some record was deleted. */
  function Delete(reply: Reply): (b: bool)
    ensures b <==> HasResults(reply) && exists i :: 0 <= i < |ResultsOf(reply)| && ResultsOf(reply)[i].success
  {
    AnySucceeded(reply)
  }
}

=== FILE: teammember.dfy ===
/** The team-member service: the allow-listed record `create` and `update`
    send, the id guards, the search filter and the workload statistics. */
module TeamMemberService {
  import opened Text
  import opened Values
  import opened Payload
  import opened Remote
  import opened Filters
  import opened Seqs

  const InvalidId := "Invalid team member ID"

  /** The fields the prepared record may carry, in the order the helper
      assigns them. */
  const PreparedFields: seq<string> :=
    ["Name", "email_c", "role_c", "department_c", "status_c", "avatar_c", "phone_c",
     "location_c", "start_date_c", "skills_c", "current_workload_c", "max_capacity_c",
     "completed_tasks_this_month_c", "total_tasks_this_month_c",
     "average_task_completion_time_c", "Tags"]

  /** The fields written as `String(v || '')`. */
  const TextFields: seq<string> :=
    ["Name", "email_c", "role_c", "department_c", "status_c", "avatar_c", "phone_c",
     "location_c", "skills_c", "Tags"]

  /** The fields written as `Number(v) || 0`. */
  const CountFields: seq<string> :=
    ["current_workload_c", "max_capacity_c", "completed_tasks_this_month_c",
     "total_tasks_this_month_c"]

  const StartDate := "start_date_c"
  const AverageTime := "average_task_completion_time_c"

  /** How the helper converts each field: the date as given, the average
      time through `parseFloat(v) || 0`. */
  function ConvOf(k: string): (c: Conv)
    ensures c.Raw? || c.StrOrEmpty? || c.NumOrZero? || c.FloatOrZero?
  {
    if k in TextFields then StrOrEmpty
    else if k in CountFields then NumOrZero
    else if k == AverageTime then FloatOrZero
    else Raw
  }

  lemma ConvOfFields(k: string)
    ensures k in TextFields ==> ConvOf(k) == StrOrEmpty
    ensures k in CountFields ==> ConvOf(k) == NumOrZero
    ensures ConvOf(AverageTime) == FloatOrZero && ConvOf(StartDate) == Raw
  {
  }

  lemma ConvertTotal(c: Conv, v: Value)
    requires c.Raw? || c.StrOrEmpty? || c.NumOrZero? || c.FloatOrZero?
    ensures Convert(c, v).Some?
  {
  }

  /** `prepareTeamMemberData`: one statement per field, each writing the
      field from itself when it is not undefined. */
  function PrepareRules(): (rules: seq<Rule>)
    ensures |rules| == |PreparedFields|
    ensures forall i :: 0 <= i < |rules| ==>
      rules[i] == Rule(PreparedFields[i], [PreparedFields[i]], ConvOf(PreparedFields[i]))
  {
    seq(|PreparedFields|, i requires 0 <= i < |PreparedFields| =>
      Rule(PreparedFields[i], [PreparedFields[i]], ConvOf(PreparedFields[i])))
  }

  lemma PreparedFieldsDistinct()
    ensures DistinctKeys(PreparedFields)
    ensures "Id" !in PreparedFields
  {
  }

  lemma PrepareRulesDistinct()
    ensures DistinctTargets(PrepareRules())
  {
    PreparedFieldsDistinct();
  }

  function Prepare(d: Record): Record {
    Apply(d, PrepareRules(), map[])
  }

  /** A prepared field is the conversion of the supplied value, and is
      absent when the caller left it undefined. */
  lemma PrepareAt(d: Record, i: int)
    requires 0 <= i < |PreparedFields|
    ensures Get(Prepare(d), PreparedFields[i]) ==
      if PreparedFields[i] in d then Convert(ConvOf(PreparedFields[i]), d[PreparedFields[i]]) else None
    ensures PreparedFields[i] in Prepare(d) <==> PreparedFields[i] in d
  {
    PrepareRulesDistinct();
    BuildSingle(d, PrepareRules(), map[], i);
    if PreparedFields[i] in d {
      ConvertTotal(ConvOf(PreparedFields[i]), d[PreparedFields[i]]);
    }
  }

  /** Fields outside the allow-list are dropped. */
  lemma PrepareOff(d: Record, k: string)
    requires k !in PreparedFields
    ensures k !in Prepare(d)
  {
    PrepareRulesDistinct();
    assert forall i :: 0 <= i < |PrepareRules()| ==> PrepareRules()[i].dst != k;
    BuildOff(d, PrepareRules(), map[], k);
  }

  /** The prepared record holds exactly the allow-listed fields the caller
      supplied (a supplied `null` included). */
  lemma PrepareKeys(d: Record, k: string)
    ensures k in Prepare(d) <==> k in d && k in PreparedFields
  {
    if k in PreparedFields {
      var i := IndexIn(PreparedFields, k);
      PrepareAt(d, i);
    } else {
      PrepareOff(d, k);
    }
  }

  /** A supplied allow-listed field is written through its conversion. */
  lemma PrepareValue(d: Record, k: string)
    requires k in d && k in PreparedFields
    ensures k in Prepare(d) && Some(Prepare(d)[k]) == Convert(ConvOf(k), d[k])
  {
    var i := IndexIn(PreparedFields, k);
    PrepareAt(d, i);
  }

  /** What `String(v || '')` and `Number(v) || 0` give. */
  lemma ConvertText(v: Value)
    ensures Convert(StrOrEmpty, v) == Some(VStr(if Truthy(v) then ToStr(v) else ""))
  {
  }

  lemma ConvertCount(v: Value)
    ensures Convert(NumOrZero, v).Some? && Convert(NumOrZero, v).value.VNum?
    ensures v.VNum? ==> Convert(NumOrZero, v) == Some(v)
    ensures ToNumber(v).VNaN? ==> Convert(NumOrZero, v) == Some(VNum(0))
  {
  }

  /** Text fields are strings: a falsy value (null, 0, "", false) becomes "". */
  lemma PrepareText(d: Record, k: string)
    requires k in d && k in TextFields
    ensures k in Prepare(d)
    ensures Prepare(d)[k] == VStr(if Truthy(d[k]) then ToStr(d[k]) else "")
  {
    PrepareValue(d, k);
    ConvOfFields(k);
    ConvertText(d[k]);
  }

  /** Count fields are numbers: a number is kept, and anything that does
      not convert (NaN) becomes 0. */
  lemma PrepareCount(d: Record, k: string)
    requires k in d && k in CountFields
    ensures k in Prepare(d) && Prepare(d)[k].VNum?
    ensures d[k].VNum? ==> Prepare(d)[k] == d[k]
    ensures ToNumber(d[k]).VNaN? ==> Prepare(d)[k] == VNum(0)
  {
    PrepareValue(d, k);
    ConvOfFields(k);
    ConvertCount(d[k]);
  }

  lemma ConvertFloat(v: Value)
    ensures Convert(FloatOrZero, v).Some? && Convert(FloatOrZero, v).value.VNum?
    ensures ParseFloat(v).VNaN? ==> Convert(FloatOrZero, v) == Some(VNum(0))
    ensures v.VNum? ==> Convert(FloatOrZero, v) == Some(v)
  {
  }

  /** The average time is parsed as a number, 0 when it does not parse; the
      start date is passed through as given. */
  lemma PrepareOthers(d: Record)
    ensures AverageTime in d ==> AverageTime in Prepare(d) && Prepare(d)[AverageTime].VNum?
    ensures AverageTime in d && ParseFloat(d[AverageTime]).VNaN? ==> Prepare(d)[AverageTime] == VNum(0)
    ensures AverageTime in d && d[AverageTime].VNum? ==> Prepare(d)[AverageTime] == d[AverageTime]
    ensures StartDate in d ==> StartDate in Prepare(d) && Prepare(d)[StartDate] == d[StartDate]
  {
    ConvOfFields(AverageTime);
    if AverageTime in d {
      PrepareValue(d, AverageTime);
      ConvertFloat(d[AverageTime]);
    }
    if StartDate in d { PrepareValue(d, StartDate); }
  }

  /** Each conversion of the helper, applied to its own output, changes
      nothing. */
  lemma ConvertIdempotent(k: string, v: Value)
    ensures Convert(ConvOf(k), v).Some?
    ensures Convert(ConvOf(k), Convert(ConvOf(k), v).value) == Convert(ConvOf(k), v)
  {
  }

  /** Preparing twice agrees with preparing once, field by field. */
  lemma PrepareIdempotentAt(d: Record, k: string)
    ensures Get(Prepare(Prepare(d)), k) == Get(Prepare(d), k)
  {
    var p := Prepare(d);
    if k in PreparedFields {
      var i := IndexIn(PreparedFields, k);
      PrepareAt(d, i);
      PrepareAt(p, i);
      ConvertIdempotent(k, if k in d then d[k] else VNull);
    } else {
      PrepareOff(d, k);
      PrepareOff(p, k);
    }
  }

  /** Preparing a prepared record gives it back. */
  lemma PrepareIdempotent(d: Record)
    ensures Prepare(Prepare(d)) == Prepare(d)
  {
    forall k ensures Get(Prepare(Prepare(d)), k) == Get(Prepare(d), k) {
      PrepareIdempotentAt(d, k);
    }
    GetExt(Prepare(Prepare(d)), Prepare(d));
  }

  /** `create`'s record is the prepared record. */
  function Create(d: Record): (r: Record)
    ensures "Id" !in r
  {
    PreparedFieldsDistinct();
    PrepareKeys(d, "Id");
    Prepare(d)
  }

  /** `update`'s record: an id that does not parse raises before anything
      is sent; otherwise the prepared record with the parsed id set after
      preparing. */
  function Update(id: Value, d: Record): (r: Outcome<Record>)
    ensures r.Raise? <==> ParseInt(id).VNaN?
    ensures r.Raise? ==> r.message == InvalidId
    ensures r.Ok? ==> "Id" in r.value && r.value["Id"] == ParseInt(id) && r.value["Id"].VNum?
  {
    if ParseInt(id).VNaN? then Raise(InvalidId) else Ok(Prepare(d)["Id" := ParseInt(id)])
  }

  /** Apart from its id, `update` sends what `create` would. */
  lemma UpdateIsCreateWithId(id: Value, d: Record)
    requires !ParseInt(id).VNaN?
    ensures Update(id, d).Ok?
    ensures forall k :: k != "Id" ==> Get(Update(id, d).value, k) == Get(Create(d), k)
    ensures Update(id, d).value.Keys == Create(d).Keys + {"Id"}
  {
    var p := Prepare(d);
    assert Create(d) == p;
    assert Update(id, d) == Ok(p["Id" := ParseInt(id)]);
    SetOthers(p, "Id", ParseInt(id));
  }

  /** `getById`: an id that does not parse, a failed call and a thrown
      error all give null; otherwise the response's data. */
  function GetById(id: Value, reply: Reply): (r: Option<Value>)
    ensures ParseInt(id).VNaN? ==> r.None?
    ensures r.Some? ==> reply.Got? && reply.resp.success && r == reply.resp.data
    ensures !ParseInt(id).VNaN? && reply.Got? && reply.resp.success ==> r == reply.resp.data
  {
    if ParseInt(id).VNaN? then None else DataIfSuccess(reply)
  }

  /** `deleteById`: the id guard raises; otherwise the call's verdict,
      true exactly when the call succeeded and every record did. */
  function DeleteById(id: Value, reply: Reply): (r: Outcome<bool>)
    ensures ParseInt(id).VNaN? ==> r == Raise(InvalidId)
    ensures r == Ok(true) <==>
      !ParseInt(id).VNaN? && reply.Got? && reply.resp.success &&
      (reply.resp.results.None? || Every(reply.resp.results.value))
    ensures !ParseInt(id).VNaN? && reply.Threw? ==> r == Raise(reply.error)
  {
    if ParseInt(id).VNaN? then Raise(InvalidId) else DeleteEvery(reply)
  }

  /** The single `field EqualTo value` condition `getByStatus` and
      `getByDepartment` send. */
  function WhereEquals(field: string, v: Value): (cs: seq<Condition>)
    ensures Fields(cs) == [field]
    ensures forall i :: 0 <= i < |cs| ==> cs[i].op == EqualTo && cs[i].values == [v]
  {
    [Condition(field, EqualTo, [v])]
  }

  /** The id fetches are the equality filter on the parsed id. */
  lemma WhereEqualsParsedId(field: string, id: Value)
    ensures ByParsedId(field, id) == WhereEquals(field, ParseInt(id))
  {
  }

  const ByStatusField := "status_c"
  const ByDepartmentField := "department_c"

  /** The fields `search` looks in. */
  const SearchFields: seq<string> := ["Name", "email_c", "role_c", "department_c"]

  /** `search`: the lowercased query in any of the four fields. A query that
      is not a string has no `toLowerCase`, and the error is caught, so
      nothing is fetched (`None`) and the result is empty. */
  function Search(query: Value): (g: Option<Group>)
    ensures g.Some? <==> query.VStr?
    ensures g.Some? ==> g.value.connective == AnyOf && |g.value.subGroups| == |SearchFields|
    ensures g.Some? ==> forall i :: 0 <= i < |g.value.subGroups| ==>
      g.value.subGroups[i].connective == AnyOf &&
      g.value.subGroups[i].conditions == [Condition(SearchFields[i], Contains, [VStr(ToLower(query.s))])]
  {
    if !query.VStr? then None
    else
      var term := VStr(ToLower(query.s));
      Some(Group(AnyOf, seq(|SearchFields|, i requires 0 <= i < |SearchFields| =>
        SubGroup([Condition(SearchFields[i], Contains, [term])], AnyOf))))
  }

  /** The search is case-insensitive: a query and its lowercase form send
      the same filter. */
  lemma SearchIgnoresCase(s: string)
    ensures Search(VStr(s)) == Search(VStr(ToLower(s)))
  {
    ToLowerIdempotent(s);
  }

  /** `m.status_c === 'Active'`. */
  predicate IsActive(m: Record) {
    Get(m, "status_c") == Some(VStr("Active"))
  }

  /** `(m[k] || 0)` for a numeric field. */
  function Amount(m: Record, k: string): (n: int)
    ensures TruthyAt(m, k) && m[k].VNum? ==> n == m[k].n
    ensures !TruthyAt(m, k) ==> n == 0
  {
    if TruthyAt(m, k) && m[k].VNum? then m[k].n else 0
  }

  /** `(current_workload_c || 0) > (max_capacity_c || 0)`. */
  predicate IsOverloaded(m: Record) {
    Amount(m, "current_workload_c") > Amount(m, "max_capacity_c")
  }

  predicate IsActiveOverloaded(m: Record) {
    IsActive(m) && IsOverloaded(m)
  }

  /** The sum of `(m[k] || 0)` over the members, left to right. */
  function Total(ms: seq<Record>, k: string): int {
    if |ms| == 0 then 0 else Total(ms[..|ms| - 1], k) + Amount(ms[|ms| - 1], k)
  }

  datatype Stats = Stats(totalMembers: nat, activeMembers: nat, averageWorkload: int,
                         capacityUtilization: int, overloadedMembers: nat)

  const NoStats := Stats(0, 0, 0, 0, 0)

  /** `getWorkloadStats`. `fetched` is the member list of a successful
      fetch (`data || []`), `None` when the call failed or threw. */
  function WorkloadStats(fetched: Option<seq<Record>>): (st: Stats)
    ensures fetched.None? ==> st == NoStats
    ensures fetched.Some? ==> st.totalMembers == |fetched.value|
    ensures st.overloadedMembers <= st.activeMembers <= st.totalMembers
    ensures st.activeMembers == 0 ==> st.averageWorkload == 0
    ensures fetched.Some? && st.activeMembers > 0 ==>
      var w := Total(Filter(fetched.value, IsActive), "current_workload_c");
      2 * st.activeMembers * st.averageWorkload - st.activeMembers <= 2 * w
      < 2 * st.activeMembers * st.averageWorkload + st.activeMembers
  {
    match fetched
    case None => NoStats
    case Some(all) =>
      var active := Filter(all, IsActive);
      var capacity := Total(active, "max_capacity_c");
      var workload := Total(active, "current_workload_c");
      Stats(|all|, |active|,
            if |active| > 0 then RoundDiv(workload, |active|) else 0,
            if capacity > 0 then RoundDiv(workload * 100, capacity) else 0,
            Count(active, IsOverloaded))
  }

  /** Filtering by one predicate and then another keeps what both accept. */
  lemma {:induction false} FilterActiveOverloaded(ms: seq<Record>)
    ensures Filter(Filter(ms, IsActive), IsOverloaded) == Filter(ms, IsActiveOverloaded)
  {
    if |ms| > 0 {
      FilterActiveOverloaded(ms[1..]);
      assert ms == [ms[0]] + ms[1..];
      FilterAppend([ms[0]], ms[1..], IsActive);
      FilterAppend(Filter([ms[0]], IsActive), Filter(ms[1..], IsActive), IsOverloaded);
      FilterAppend([ms[0]], ms[1..], IsActiveOverloaded);
    }
  }

  /** The overloaded count is the number of members that are both active
      and over capacity; inactive members never count. */
  lemma OverloadedAreActive(all: seq<Record>)
    ensures WorkloadStats(Some(all)).overloadedMembers == Count(all, IsActiveOverloaded)
  {
    FilterActiveOverloaded(all);
  }

  /** Utilization is zero without capacity, and otherwise the rounded
      percentage of capacity in use. */
  lemma Utilization(all: seq<Record>)
    ensures var c := Total(Filter(all, IsActive), "max_capacity_c");
            var w := Total(Filter(all, IsActive), "current_workload_c");
            var u := WorkloadStats(Some(all)).capacityUtilization;
            (c <= 0 ==> u == 0) && (c > 0 ==> 2 * c * u - c <= 200 * w < 2 * c * u + c)
  {
  }

  /** Members that are not active leave every figure but the total alone. */
  lemma InactiveIgnored(all: seq<Record>, m: Record)
    requires !IsActive(m)
    ensures var s0 := WorkloadStats(Some(all));
            var s1 := WorkloadStats(Some(all + [m]));
            s1.totalMembers == s0.totalMembers + 1 && s1.activeMembers == s0.activeMembers &&
            s1.averageWorkload == s0.averageWorkload &&
            s1.capacityUtilization == s0.capacityUtilization &&
            s1.overloadedMembers == s0.overloadedMembers
  {
    FilterAppend(all, [m], IsActive);
    assert Filter(all + [m], IsActive) == Filter(all, IsActive);
  }
}

=== FILE: teammembercard.dfy ===
/** The team-member card: the status badge, the workload colours, the
    width of the workload bar and the task-completion figure. Quotients are
    exact rationals rather than binary floating point. */
module TeamMemberCard {
  import opened Values

  const ActiveClass := "status-completed"
  const AwayClass := "status-in-progress"
  const InactiveClass := "status-on-hold"

  /** What `statusColors[status] || statusColors.Inactive` yields: one of
      the table's classes, or, under an inherited property name, the
      inherited member itself. */
  datatype Badge = Class(name: string) | InheritedMember(key: string)

  /** `getStatusBadge`. The status is looked up as a property name. */
  function StatusBadge(status: Option<Value>): (b: Badge)
    ensures ToStrOpt(status) == "Active" <==> b == Class(ActiveClass)
    ensures ToStrOpt(status) == "Away" <==> b == Class(AwayClass)
    ensures b.InheritedMember? <==> ToStrOpt(status) in InheritedNames
    ensures b.InheritedMember? ==> b.key == ToStrOpt(status)
    ensures b == Class(InactiveClass) <==>
      ToStrOpt(status) != "Active" && ToStrOpt(status) != "Away" && ToStrOpt(status) !in InheritedNames
  {
    var key := ToStrOpt(status);
    if key == "Active" then Class(ActiveClass)
    else if key == "Away" then Class(AwayClass)
    else if key == "Inactive" then Class(InactiveClass)
    else if key in InheritedNames then InheritedMember(key)
    else Class(InactiveClass)
  }

  /** The three statuses the table knows, as strings, get their own classes. */
  lemma StatusBadgeOfStatuses()
    ensures StatusBadge(Some(VStr("Active"))) == Class(ActiveClass)
    ensures StatusBadge(Some(VStr("Away"))) == Class(AwayClass)
    ensures StatusBadge(Some(VStr("Inactive"))) == Class(InactiveClass)
    ensures StatusBadge(None) == Class(InactiveClass)
  {
  }

  /** `Number(v)` of an optional value; undefined is NaN. */
  function NumberOf(o: Option<Value>): (r: Value)
    ensures r.VNum? || r.VNaN?
  {
    if o.Some? then ToNumber(o.value) else VNaN
  }

  /** `(w / c) * 100 >= k` for a positive `k`, with JavaScript's division:
      a zero divisor gives an infinity of the dividend's sign, or NaN for
      0 / 0, and NaN compares false. */
  predicate PercentAtLeast(w: Value, c: Value, k: nat)
    requires w.VNum? || w.VNaN?
    requires c.VNum? || c.VNaN?
  {
    if w.VNaN? || c.VNaN? then false
    else if c.n > 0 then 100 * w.n >= k * c.n
    else if c.n < 0 then 100 * w.n <= k * c.n
    else w.n > 0
  }

  datatype Level = Over | Near | Under

  /** The thresholds both colour helpers share: at least 100 percent, at
      least 80 percent, or less. */
  function LevelOf(workload: Option<Value>, capacity: Option<Value>): Level {
    var w := NumberOf(workload);
    var c := NumberOf(capacity);
    if PercentAtLeast(w, c, 100) then Over
    else if PercentAtLeast(w, c, 80) then Near
    else Under
  }

  /** `getWorkloadColor`. */
  function WorkloadColor(workload: Option<Value>, capacity: Option<Value>): (cls: string)
    ensures cls == "text-red-600" <==> LevelOf(workload, capacity) == Over
    ensures cls == "text-yellow-600" <==> LevelOf(workload, capacity) == Near
    ensures cls == "text-green-600" <==> LevelOf(workload, capacity) == Under
  {
    match LevelOf(workload, capacity)
    case Over => "text-red-600"
    case Near => "text-yellow-600"
    case Under => "text-green-600"
  }

  /** `getWorkloadBarColor`. */
  function WorkloadBarColor(workload: Option<Value>, capacity: Option<Value>): (cls: string)
    ensures cls == "bg-red-500" <==> LevelOf(workload, capacity) == Over
    ensures cls == "bg-yellow-500" <==> LevelOf(workload, capacity) == Near
    ensures cls == "bg-green-500" <==> LevelOf(workload, capacity) == Under
  {
    match LevelOf(workload, capacity)
    case Over => "bg-red-500"
    case Near => "bg-yellow-500"
    case Under => "bg-green-500"
  }

  /** The text and the bar always agree on the colour. */
  lemma ColoursAgree(workload: Option<Value>, capacity: Option<Value>)
    ensures WorkloadColor(workload, capacity) == "text-red-600" <==> WorkloadBarColor(workload, capacity) == "bg-red-500"
    ensures WorkloadColor(workload, capacity) == "text-yellow-600" <==> WorkloadBarColor(workload, capacity) == "bg-yellow-500"
    ensures WorkloadColor(workload, capacity) == "text-green-600" <==> WorkloadBarColor(workload, capacity) == "bg-green-500"
  {
  }

  /** For numbers with a positive capacity: red from full capacity up,
      yellow from four fifths of it, green below. */
  lemma LevelOfNumbers(w: int, c: int)
    requires c > 0
    ensures LevelOf(Some(VNum(w)), Some(VNum(c))) == Over <==> w >= c
    ensures LevelOf(Some(VNum(w)), Some(VNum(c))) == Near <==> 5 * w >= 4 * c && w < c
    ensures LevelOf(Some(VNum(w)), Some(VNum(c))) == Under <==> 5 * w < 4 * c
  {
  }

  /** The colours read the raw values: with a null or zero capacity any
      positive workload is red (it divides to infinity) and everything else
      green; with the capacity missing the quotient is NaN, which is green. */
  lemma LevelWithoutCapacity(w: int, capacity: Option<Value>)
    requires capacity.None? || capacity == Some(VNum(0)) || capacity == Some(VNull)
    ensures LevelOf(Some(VNum(w)), capacity) == (if w > 0 && capacity.Some? then Over else Under)
  {
  }

  /** A bar width in percent: an exact quotient `num / den`, NaN, or minus
      infinity. */
  datatype Width = Exact(num: int, den: nat) | NotANumber | MinusInfinity

  /** `Math.min(((w || 0) / (c || 1)) * 100, 100)`. */
  function BarWidth(workload: Option<Value>, capacity: Option<Value>): (r: Width)
    ensures r.Exact? ==> r.den > 0 && r.num <= 100 * r.den
  {
    var w := ToNumber(OrElse(workload, VNum(0)));
    var c := ToNumber(OrElse(capacity, VNum(1)));
    if w.VNaN? || c.VNaN? then NotANumber
    else if c.n == 0 then
      (if w.n > 0 then Exact(100, 1) else if w.n < 0 then MinusInfinity else NotANumber)
    else
      var num := if c.n > 0 then 100 * w.n else -100 * w.n;
      var den := if c.n > 0 then c.n else -c.n;
      if num >= 100 * den then Exact(100, 1) else Exact(num, den)
  }

  /** For numbers, the bar is the workload's share of capacity, capped at
      100 percent; a missing or zero capacity counts as 1. */
  lemma BarWidthOfNumbers(w: int, capacity: Option<Value>, c: int)
    requires c > 0
    requires capacity == Some(VNum(c)) || (c == 1 && (capacity.None? || capacity == Some(VNum(0))))
    ensures BarWidth(Some(VNum(w)), capacity) == if w >= c then Exact(100, 1) else Exact(100 * w, c)
  {
  }

  /** The bar is full exactly when the colour is red, for numbers with a
      positive capacity. */
  lemma FullBarIsRed(w: int, c: int)
    requires c > 0
    ensures BarWidth(Some(VNum(w)), Some(VNum(c))) == Exact(100, 1) <==>
            WorkloadColor(Some(VNum(w)), Some(VNum(c))) == "text-red-600"
  {
    LevelOfNumbers(w, c);
    if w < c {
      assert BarWidth(Some(VNum(w)), Some(VNum(c))) == Exact(100 * w, c);
      assert Exact(100 * w, c) != Exact(100, 1) by {
        if c == 1 { assert 100 * w < 100; }
      }
    }
  }

  /** The task-completion percentage:
      `(t || 0) > 0 ? Math.round(((d || 0) / (t || 0)) * 100) : 0`. */
  function Completion(done: Option<Value>, total: Option<Value>): (r: Value)
    ensures r.VNum? || r.VNaN?
    ensures !TruthyOpt(total) ==> r == VNum(0)
  {
    var t := ToNumber(OrElse(total, VNum(0)));
    var d := ToNumber(OrElse(done, VNum(0)));
    if !(t.VNum? && t.n > 0) then VNum(0)
    else if d.VNaN? then VNaN
    else VNum(RoundDiv(100 * d.n, t.n))
  }

  /** Cancelling a positive factor from both sides of two comparisons. */
  lemma ProductBounds(t: int, lo: int, x: int, hi: int)
    requires t > 0 && t * lo <= t * x < t * hi
    ensures lo <= x < hi
  {
  }

  /** An exact quotient needs no rounding. */
  lemma RoundDivWhole(a: int, t: int, q: int)
    requires t > 0 && a == t * q
    ensures RoundDiv(a, t) == q
  {
    var r := RoundDiv(a, t);
    assert t * (2 * r - 1) == 2 * t * r - t && t * (2 * r + 1) == 2 * t * r + t;
    assert t * (2 * q) == 2 * a;
    ProductBounds(t, 2 * r - 1, 2 * q, 2 * r + 1);
  }

  /** For numbers with tasks this month, the figure is the share done,
      rounded to the nearest percent; none done is 0 and all done is 100. */
  lemma CompletionOfNumbers(d: int, t: int)
    requires t > 0
    ensures Completion(Some(VNum(d)), Some(VNum(t))).VNum?
    ensures var p := Completion(Some(VNum(d)), Some(VNum(t))).n;
            2 * t * p - t <= 200 * d < 2 * t * p + t
    ensures d == 0 ==> Completion(Some(VNum(d)), Some(VNum(t))) == VNum(0)
    ensures d == t ==> Completion(Some(VNum(d)), Some(VNum(t))) == VNum(100)
  {
    var p := RoundDiv(100 * d, t);
    assert Completion(Some(VNum(d)), Some(VNum(t))) == VNum(p);
    if d == t {
      RoundDivWhole(100 * d, t, 100);
    }
    if d == 0 {
      RoundDivWhole(100 * d, t, 0);
    }
  }
}

=== FILE: text.dfy ===
/** String helpers with the meaning JavaScript gives them: `trim`, ASCII
    `toLowerCase`, `includes`, `startsWith`, and decimal digits. */
module Text {

  /** The characters `String.prototype.trim` removes: WhiteSpace (tab,
      vertical tab, form feed, the Zs space separators, no-break space, byte
      order mark) and LineTerminator. */
  predicate IsSpace(c: char) {
    || c == '\t' || c == '\n' || c == '\U{000B}' || c == '\U{000C}' || c == '\r'
    || c == ' ' || c == '\U{00A0}' || c == '\U{1680}'
    || ('\U{2000}' <= c <= '\U{200A}')
    || c == '\U{2028}' || c == '\U{2029}' || c == '\U{202F}' || c == '\U{205F}'
    || c == '\U{3000}' || c == '\U{FEFF}'
  }

  predicate AllSpace(s: string) {
    forall i :: 0 <= i < |s| ==> IsSpace(s[i])
  }

  /** Drops leading white space. */
  function TrimStart(s: string): (r: string)
    ensures |r| <= |s| && r == s[|s| - |r|..]
    ensures AllSpace(s[..|s| - |r|])
    ensures r == [] || !IsSpace(r[0])
  {
    if |s| > 0 && IsSpace(s[0]) then
      var r := TrimStart(s[1..]);
      assert s[..|s| - |r|] == [s[0]] + s[1..][..|s| - 1 - |r|];
      assert s[1..][|s| - 1 - |r|..] == s[|s| - |r|..];
      r
    else s
  }

  /** Drops trailing white space. */
  function TrimEnd(s: string): (r: string)
    ensures |r| <= |s| && r == s[..|r|]
    ensures AllSpace(s[|r|..])
    ensures r == [] || !IsSpace(r[|r| - 1])
  {
    if |s| > 0 && IsSpace(s[|s| - 1]) then
      var r := TrimEnd(s[..|s| - 1]);
      assert s[|r|..] == s[..|s| - 1][|r|..] + [s[|s| - 1]];
      r
    else s
  }

  /** `s.trim()`. */
  function Trim(s: string): (r: string)
    ensures r == [] || (!IsSpace(r[0]) && !IsSpace(r[|r| - 1]))
  {
    TrimEnd(TrimStart(s))
  }

  lemma TrimKeeps(s: string)
    requires s != [] && !IsSpace(s[0]) && !IsSpace(s[|s| - 1])
    ensures TrimStart(s) == s && TrimEnd(s) == s && Trim(s) == s
  {
  }

  /** A string trims to "" exactly when it is all white space. */
  lemma TrimEmptyIffAllSpace(s: string)
    ensures Trim(s) == [] <==> AllSpace(s)
  {
    var t := TrimStart(s);
    if Trim(s) == [] {
      assert AllSpace(t[|TrimEnd(t)|..]);
      assert t[0..] == t;
      assert t == [];
      assert s[..|s|] == s;
    } else {
      var r := Trim(s);
      assert t[..|r|] == r;
      assert s[|s| - |t|] == t[0] == r[0];
    }
  }

  function LowerChar(c: char): char {
    if 'A' <= c <= 'Z' then (c as int + 32) as char else c
  }

  /** `s.toLowerCase()` on the ASCII letters. */
  function ToLower(s: string): (r: string)
    ensures |r| == |s|
    ensures forall i :: 0 <= i < |s| ==> r[i] == LowerChar(s[i])
  {
    seq(|s|, i requires 0 <= i < |s| => LowerChar(s[i]))
  }

  /** Lowercasing twice changes nothing. */
  lemma ToLowerIdempotent(s: string)
    ensures ToLower(ToLower(s)) == ToLower(s)
  {
  }

  predicate IsPrefix(p: string, s: string) {
    |p| <= |s| && s[..|p|] == p
  }

  /** `sub` occurs in `s` starting at index `i`. */
  predicate OccursAt(s: string, sub: string, i: int) {
    0 <= i && i + |sub| <= |s| && s[i..i + |sub|] == sub
  }

  /** `s.includes(sub)`, computed by trying every start position. */
  function Contains(s: string, sub: string): (b: bool)
    ensures b <==> exists i :: OccursAt(s, sub, i)
    decreases |s|
  {
    if IsPrefix(sub, s) then
      assert OccursAt(s, sub, 0);
      true
    else if |s| == 0 then
      false
    else
      var b := Contains(s[1..], sub);
      assert b ==> exists i :: OccursAt(s, sub, i) by {
        if b {
          var i :| OccursAt(s[1..], sub, i);
          assert s[1..][i..i + |sub|] == s[i + 1..i + 1 + |sub|];
          assert OccursAt(s, sub, i + 1);
        }
      }
      assert (exists i :: OccursAt(s, sub, i)) ==> b by {
        if exists i :: OccursAt(s, sub, i) {
          var i :| OccursAt(s, sub, i);
          assert i != 0;
          assert s[1..][i - 1..i - 1 + |sub|] == s[i..i + |sub|];
          assert OccursAt(s[1..], sub, i - 1);
        }
      }
      b
  }

  /** The characters of a regular-expression `\w`. */
  predicate IsWordChar(c: char) {
    ('a' <= c <= 'z') || ('A' <= c <= 'Z') || ('0' <= c <= '9') || c == '_'
  }

  predicate IsDigit(c: char) {
    '0' <= c <= '9'
  }

  function DigitValue(c: char): nat
    requires IsDigit(c)
  {
    c as int - '0' as int
  }

  /** Length of the longest all-digit prefix of `s`. */
  function DigitRun(s: string): (n: nat)
    ensures n <= |s|
    ensures forall i :: 0 <= i < n ==> IsDigit(s[i])
    ensures n == |s| || !IsDigit(s[n])
  {
    if |s| > 0 && IsDigit(s[0]) then
      var n := 1 + DigitRun(s[1..]);
      assert forall i :: 1 <= i < n ==> s[i] == s[1..][i - 1];
      n
    else 0
  }

  /** On a string of digits the run covers the whole string. */
  lemma {:induction false} DigitRunAll(s: string)
    requires forall i :: 0 <= i < |s| ==> IsDigit(s[i])
    ensures DigitRun(s) == |s|
  {
    if |s| > 0 {
      DigitRunAll(s[1..]);
    }
  }

  /** The number a string of decimal digits denotes. */
  function DigitsValue(s: string): nat
    requires forall i :: 0 <= i < |s| ==> IsDigit(s[i])
  {
    if |s| == 0 then 0 else 10 * DigitsValue(s[..|s| - 1]) + DigitValue(s[|s| - 1])
  }

  function DigitChar(d: nat): char
    requires d < 10
  {
    ('0' as int + d) as char
  }

  /** The decimal text of a natural number. */
  function NatToString(n: nat): (s: string)
    ensures |s| > 0
    ensures forall i :: 0 <= i < |s| ==> IsDigit(s[i])
    ensures DigitsValue(s) == n
    ensures n > 0 ==> s[0] != '0'
  {
    if n < 10 then [DigitChar(n)]
    else
      var s := NatToString(n / 10) + [DigitChar(n % 10)];
      assert s[..|s| - 1] == NatToString(n / 10);
      s
  }

  /** The decimal text of an integer, as `String(n)` writes it. */
  function IntToString(n: int): string {
    if n < 0 then "-" + NatToString(-n) else NatToString(n)
  }

  /** The default order of `Array.prototype.sort` on strings: character
      by character, a proper prefix first. */
  predicate StrLe(a: string, b: string)
    decreases |a|
  {
    |a| == 0 || (|b| > 0 && (a[0] < b[0] || (a[0] == b[0] && StrLe(a[1..], b[1..]))))
  }

  /** Any two strings are ordered one way or the other. */
  lemma {:induction false} StrLeTotal(a: string, b: string)
    ensures StrLe(a, b) || StrLe(b, a)
    decreases |a|
  {
    if |a| > 0 && |b| > 0 && a[0] == b[0] {
      StrLeTotal(a[1..], b[1..]);
    }
  }
}

=== FILE: timeentry.dfy ===
/** The time-entry service: the records `create` and `update` send, the
    delete rules, and the where-clauses of its fetches. */
module TimeEntryService {
  import opened Text
  import opened Values
  import opened Payload
  import opened Filters
  import opened Remote

  const NotFound := "Time entry not found"

  /** `getById`: the record, or "Time entry not found" when it is missing
      or the store throws. */
  function GetById(reply: Reply): (r: Outcome<Value>)
    ensures r.Raise? <==> !(reply.Got? && TruthyOpt(reply.resp.data))
    ensures r.Raise? ==> r.message == NotFound
    ensures r.Ok? ==> Some(r.value) == reply.resp.data
  {
    FoundOrRaise(reply, NotFound)
  }

  /** The fields of `create`'s record. `today` is the date part of the
      clock reading `now`. */
  function Create(d: Record, today: string, now: string): (r: Record)
    ensures r.Keys == {"Name", "Tags", "description_c", "date_c", "duration_c", "created_at_c",
                       "project_id_c", "task_id_c"}
    ensures r["created_at_c"] == VStr(now)
    ensures ParsedOr(r, "project_id_c", d, "project_id_c", "projectId")
    ensures ParsedOr(r, "task_id_c", d, "task_id_c", "taskId")
  {
    map[
      "Name" := OrKeys(d, ["Name"], VStr("Time Entry")),
      "Tags" := OrKeys(d, ["Tags"], VStr("")),
      "description_c" := OrKeys(d, ["description_c", "description"], VStr("")),
      "date_c" := OrKeys(d, ["date_c", "date"], VStr(today)),
      "duration_c" := ParseFloat(OrKeys(d, ["duration_c", "duration"], VNum(0))),
      "created_at_c" := VStr(now),
      "project_id_c" := ParsedOrNull(d, ["project_id_c", "projectId"]),
      "task_id_c" := ParsedOrNull(d, ["task_id_c", "taskId"])]
  }

  /** The defaults of `create`: a falsy name becomes "Time Entry", the
      texts fall back to "", the date to today. */
  lemma CreateDefaults(d: Record, today: string, now: string)
    ensures OneOr(Create(d, today, now), "Name", d, "Name", VStr("Time Entry"))
    ensures OneOr(Create(d, today, now), "Tags", d, "Tags", VStr(""))
    ensures TwoOr(Create(d, today, now), "description_c", d, "description_c", "description", VStr(""))
    ensures TwoOr(Create(d, today, now), "date_c", d, "date_c", "date", VStr(today))
  {
    CreateName(d, today, now);
    CreateTags(d, today, now);
    CreateDescription(d, today, now);
    CreateDate(d, today, now);
  }

  lemma CreateName(d: Record, today: string, now: string)
    ensures OneOr(Create(d, today, now), "Name", d, "Name", VStr("Time Entry"))
  {
    assert Create(d, today, now)["Name"] == OrKeys(d, ["Name"], VStr("Time Entry"));
    OrKeysOfOne(d, "Name", VStr("Time Entry"));
  }

  lemma CreateTags(d: Record, today: string, now: string)
    ensures OneOr(Create(d, today, now), "Tags", d, "Tags", VStr(""))
  {
    assert Create(d, today, now)["Tags"] == OrKeys(d, ["Tags"], VStr(""));
    OrKeysOfOne(d, "Tags", VStr(""));
  }

  lemma CreateDescription(d: Record, today: string, now: string)
    ensures TwoOr(Create(d, today, now), "description_c", d, "description_c", "description", VStr(""))
  {
    assert Create(d, today, now)["description_c"] == OrKeys(d, ["description_c", "description"], VStr(""));
    OrKeysOfTwo(d, "description_c", "description", VStr(""));
  }

  lemma CreateDate(d: Record, today: string, now: string)
    ensures TwoOr(Create(d, today, now), "date_c", d, "date_c", "date", VStr(today))
  {
    assert Create(d, today, now)["date_c"] == OrKeys(d, ["date_c", "date"], VStr(today));
    OrKeysOfTwo(d, "date_c", "date", VStr(today));
  }

  /** The duration is the parsed first truthy source, and 0 without one. */
  lemma CreateDuration(d: Record, today: string, now: string)
    ensures Create(d, today, now)["duration_c"] ==
      if TruthyAt(d, "duration_c") then ParseFloat(d["duration_c"])
      else if TruthyAt(d, "duration") then ParseFloat(d["duration"])
      else VNum(0)
  {
  }

  /** The statements of `update`, one rule per field, in source order. */
  function UpdateRules(): seq<Rule> {
    [ Rule("Name", ["Name"], Raw),
      Rule("Tags", ["Tags"], Raw),
      Rule("description_c", ["description_c", "description"], Raw),
      Rule("date_c", ["date_c", "date"], Raw),
      Rule("duration_c", ["duration_c", "duration"], Float),
      Rule("project_id_c", ["project_id_c", "projectId"], Int),
      Rule("task_id_c", ["task_id_c", "taskId"], IntOrNull) ]
  }

  lemma UpdateRulesDistinct()
    ensures DistinctTargets(UpdateRules())
    ensures "Id" !in Targets(UpdateRules())
  {
    var rules := UpdateRules();
    assert rules[0].dst == "Name";
  }

  /** `update`'s record: the parsed id and the supplied fields. */
  function Update(id: Value, d: Record): (r: Record)
    ensures "Id" in r && r["Id"] == ParseInt(id)
  {
    UpdateRulesDistinct();
    Stamped(ParseInt(id), d, UpdateRules())
  }

  /** `update` sends the id and the fields of the rules whose sources were
      supplied, nothing more. */
  lemma UpdateKeys(id: Value, d: Record, allowed: set<string>)
    requires OnlyTouches(d.Keys, UpdateRules(), allowed, 0)
    ensures Update(id, d).Keys <= {"Id"} + allowed
  {
    UpdateRulesDistinct();
    StampedKeys(ParseInt(id), d, UpdateRules(), allowed);
  }

  /** A field other than the id is sent only when one of its sources was
      supplied. */
  lemma UpdateWritesOnlySupplied(id: Value, d: Record, k: string)
    ensures k in Update(id, d) && k != "Id" ==>
      exists i, j :: 0 <= i < |UpdateRules()| && UpdateRules()[i].dst == k &&
                     0 <= j < |UpdateRules()[i].srcs| && UpdateRules()[i].srcs[j] in d
  {
    UpdateRulesDistinct();
    StampedSupplied(ParseInt(id), d, UpdateRules(), k);
  }

  /** In each two-source field the alias, assigned second, wins; a field
      with neither source supplied is not sent. */
  lemma UpdateAliasWins(id: Value, d: Record, i: int, dst: string, name: string, alias: string, conv: Conv)
    requires 0 <= i < |UpdateRules()| && UpdateRules()[i] == Rule(dst, [name, alias], conv)
    ensures Get(Update(id, d), dst) ==
      if alias in d then Convert(conv, d[alias])
      else if name in d then Convert(conv, d[name])
      else None
  {
    UpdateRulesDistinct();
    StampedPair(ParseInt(id), d, UpdateRules(), i, dst, name, alias, conv);
  }

  /** An explicit null project link is sent as `parseInt(null)`, which is
      NaN: unlike the task link, it is not mapped to null. */
  lemma UpdateNullProject(id: Value, d: Record)
    requires Get(d, "projectId") == Some(VNull)
    ensures Get(Update(id, d), "project_id_c") == Some(VNaN)
  {
    var rules := UpdateRules();
    assert rules[5] == Rule("project_id_c", ["project_id_c", "projectId"], Int);
    assert Convert(Int, d["projectId"]) == Some(VNaN);
    UpdateAliasWins(id, d, 5, "project_id_c", "project_id_c", "projectId", Int);
  }

  /** An explicit null, or any falsy, task link is cleared to null. */
  lemma UpdateFalsyTask(id: Value, d: Record)
    requires "taskId" in d && !Truthy(d["taskId"])
    ensures Get(Update(id, d), "task_id_c") == Some(VNull)
  {
    var rules := UpdateRules();
    assert rules[6] == Rule("task_id_c", ["task_id_c", "taskId"], IntOrNull);
    assert Convert(IntOrNull, d["taskId"]) == Some(VNull);
    UpdateAliasWins(id, d, 6, "task_id_c", "task_id_c", "taskId", IntOrNull);
  }

  /** `delete`: true exactly when some record was deleted. */
  function Delete(reply: Reply): (b: bool)
    ensures b <==> HasResults(reply) && exists i :: 0 <= i < |ResultsOf(reply)| && ResultsOf(reply)[i].success
  {
    AnySucceeded(reply)
  }

  /** `bulkDelete`: true exactly when the successes number the ids. */
  function BulkDelete(reply: Reply, ids: seq<Value>): (b: bool)
    ensures b <==> HasResults(reply) && |SuccessAt(ResultsOf(reply))| == |ids|
    ensures b ==> HasResults(reply) && |ids| <= |ResultsOf(reply)|
    ensures HasResults(reply) && |ResultsOf(reply)| == |ids| ==>
      (b <==> forall i :: 0 <= i < |ids| ==> ResultsOf(reply)[i].success)
    ensures !HasResults(reply) ==> !b
  {
    CountMatches(reply, |ids|)
  }

  /** With no ids, a bulk delete that got results back reports success even
      though nothing was deleted. */
  lemma BulkDeleteOfNothing(resp: Response)
    requires resp.success && resp.results == Some([])
    ensures BulkDelete(Got(resp), [])
  {
  }

  /** `getByProjectId`'s and `getByTaskId`'s filters. */
  function ByProject(projectId: Value): seq<Condition> {
    ByParsedId("project_id_c", projectId)
  }

  function ByTask(taskId: Value): seq<Condition> {
    ByParsedId("task_id_c", taskId)
  }

  /** `getTimesByProject`'s where-clause: the project, then a lower date
      bound when `start` is truthy, then an upper one when `end` is. */
  function TimesByProject(projectId: Value, start: Option<Value>, end: Option<Value>): (cs: seq<Condition>)
    ensures |cs| == 1 + (if TruthyOpt(start) then 1 else 0) + (if TruthyOpt(end) then 1 else 0)
    ensures cs[0] == Condition("project_id_c", EqualTo, [ParseInt(projectId)])
    ensures TruthyOpt(start) ==> cs[1] == Condition("date_c", GreaterThanOrEqualTo, [start.value])
    ensures TruthyOpt(end) ==> cs[|cs| - 1] == Condition("date_c", LessThanOrEqualTo, [end.value])
    ensures forall i :: 1 <= i < |cs| ==> cs[i].field == "date_c"
  {
    var base := [Condition("project_id_c", EqualTo, [ParseInt(projectId)])];
    var withStart := if TruthyOpt(start) then base + [Condition("date_c", GreaterThanOrEqualTo, [start.value])] else base;
    if TruthyOpt(end) then withStart + [Condition("date_c", LessThanOrEqualTo, [end.value])] else withStart
  }

  /** `getTimesByDateRange`'s where-clause: both bounds, whatever they are;
      an undefined bound is sent as null. */
  function TimesByDateRange(start: Option<Value>, end: Option<Value>): (cs: seq<Condition>)
    ensures |cs| == 2 && Fields(cs) == ["date_c", "date_c"]
    ensures cs[0].op == GreaterThanOrEqualTo && cs[1].op == LessThanOrEqualTo
    ensures cs[0].values == [if start.Some? then start.value else VNull]
    ensures cs[1].values == [if end.Some? then end.value else VNull]
  {
    [ Condition("date_c", GreaterThanOrEqualTo, [OrUndefined(start)]),
      Condition("date_c", LessThanOrEqualTo, [OrUndefined(end)]) ]
  }

  /** An undefined operand, which the store receives as null. */
  function OrUndefined(o: Option<Value>): Value {
    if o.Some? then o.value else VNull
  }

  /** What `searchEntries` fetches. */
  datatype SearchPlan =
    | ListAll                             // delegates to `getAll`
    | ListWhere(conditions: seq<Condition>)
    | NoEntries                           // the call threw; the catch returns []

  /** `searchEntries`: no term or a blank one lists everything; a text
      term becomes one Contains condition on the description, trimmed; a
      truthy term that is not text has no `trim`, and the throw is caught. */
  function SearchEntries(term: Option<Value>): (p: SearchPlan)
    ensures p == ListAll <==> !TruthyOpt(term) || IsBlankText(term.value)
    ensures p.ListWhere? <==> term.Some? && term.value.VStr? && !IsBlankText(term.value)
    ensures p.ListWhere? ==>
              term.Some? && term.value.VStr?
              && p.conditions == [Condition("description_c", Contains, [VStr(Trim(term.value.s))])]
  {
    if !TruthyOpt(term) then ListAll
    else if !term.value.VStr? then NoEntries
    else if IsBlankText(term.value) then ListAll
    else ListWhere([Condition("description_c", Contains, [VStr(Trim(term.value.s))])])
  }

  /** Text that trims to nothing. */
  predicate IsBlankText(v: Value) {
    v.VStr? && Trim(v.s) == ""
  }

  /** A term of white space alone lists everything. */
  lemma SearchBlankListsAll(s: string)
    requires AllSpace(s)
    ensures SearchEntries(Some(VStr(s))) == ListAll
  {
    TrimEmptyIffAllSpace(s);
  }
}

=== FILE: values.dfy ===
/** The JavaScript values the services handle, with the coercions the
    services apply to them (`||`, `parseInt`, `Number`, `String`, `===`).
    A record is a map from property names to values; a property that is
    absent from the map is `undefined`. */
module Values {
  import opened Text

  datatype Option<+T> = None | Some(value: T)

  /** The outcome of an operation that may throw: its value, or the message
      of the `Error` it throws. */
  datatype Outcome<+T> = Ok(value: T) | Raise(message: string)

  /** A JavaScript value. Numbers are integers; `VNaN` is the number NaN.
      `VObj` is a plain object (a looked-up record such as `{Id, Name}`). */
  datatype Value =
    | VNull
    | VBool(b: bool)
    | VNum(n: int)
    | VNaN
    | VStr(s: string)
    | VObj(fields: map<string, Value>)

  /** An object as the services see it; a missing key reads as `undefined`. */
  type Record = map<string, Value>

  /** The names every plain object inherits from `Object.prototype`: a
      lookup `o[k]` under one of them finds a truthy inherited value even
      when `o` has no such property of its own. */
  const InheritedNames: set<string> := {
    "constructor", "hasOwnProperty", "isPrototypeOf", "propertyIsEnumerable",
    "toLocaleString", "toString", "valueOf", "__proto__",
    "__defineGetter__", "__defineSetter__", "__lookupGetter__", "__lookupSetter__"}

  /** JavaScript truthiness: null, false, 0, NaN and "" are falsy. */
  predicate Truthy(v: Value) {
    match v
    case VNull => false
    case VBool(b) => b
    case VNum(n) => n != 0
    case VNaN => false
    case VStr(s) => s != ""
    case VObj(_) => true
  }

  /** Truthiness of a possibly-undefined value (undefined is falsy). */
  predicate TruthyOpt(o: Option<Value>) {
    o.Some? && Truthy(o.value)
  }

  /** `d[k]`, with `None` for undefined. */
  function Get(d: Record, k: string): Option<Value> {
    if k in d then Some(d[k]) else None
  }

  /** Two records that read the same under every key are the same record. */
  lemma GetExt(a: Record, b: Record)
    requires forall k :: Get(a, k) == Get(b, k)
    ensures a == b
  {
    assert forall k :: k in a <==> Get(a, k).Some?;
    assert forall k :: k in b <==> Get(b, k).Some?;
    assert a.Keys == b.Keys;
  }

  /** Setting one key adds it and leaves every other key as it was. */
  lemma SetOthers(d: Record, key: string, v: Value)
    ensures forall k :: k != key ==> Get(d[key := v], k) == Get(d, k)
    ensures d[key := v].Keys == d.Keys + {key}
  {
  }

  /** `d[k]` is truthy. */
  predicate TruthyAt(d: Record, k: string) {
    k in d && Truthy(d[k])
  }

  /** `a || b`: the first operand when it is truthy, else the second. */
  function Or(a: Option<Value>, b: Option<Value>): Option<Value> {
    if TruthyOpt(a) then a else b
  }

  /** `a || dflt` for a defined fallback `dflt`. */
  function OrElse(a: Option<Value>, dflt: Value): Value {
    if TruthyOpt(a) then a.value else dflt
  }

  /** Optional property read `o?.k`: undefined unless `o` is an object
      that has the property. */
  function Prop(o: Option<Value>, k: string): Option<Value> {
    if o.Some? && o.value.VObj? then Get(o.value.fields, k) else None
  }

  /** `a === b` on the values the services compare: NaN equals nothing, and
      objects are compared by identity, which no two of our values share. */
  predicate StrictEq(a: Value, b: Value) {
    a == b && !a.VNaN? && !a.VObj?
  }

  /** The value of the digits after an optional sign, or NaN without digits. */
  function SignedDigits(t: string): (r: Value)
    ensures r.VNum? || r.VNaN?
  {
    var neg := |t| > 0 && t[0] == '-';
    var body := if |t| > 0 && (t[0] == '-' || t[0] == '+') then t[1..] else t;
    var n := DigitRun(body);
    if n == 0 then VNaN
    else
      var m: int := DigitsValue(body[..n]);
      VNum(if neg then -m else m)
  }

  /** `parseInt(v)`: leading white space, an optional sign, and the longest
      run of decimal digits; NaN when there are no digits. */
  function ParseInt(v: Value): (r: Value)
    ensures r.VNum? || r.VNaN?
    ensures v.VNum? ==> r == v
    ensures !v.VNum? && !v.VStr? ==> r == VNaN
  {
    match v
    case VNum(n) => VNum(n)
    case VStr(s) => SignedDigits(TrimStart(s))
    case _ => VNaN
  }

  /** `parseInt(o)` for a possibly-undefined operand. */
  function ParseIntOpt(o: Option<Value>): Value {
    if o.Some? then ParseInt(o.value) else VNaN
  }

  /** `parseFloat(v)`. Numbers are integers here, so the numeric prefix is
      the integer prefix `parseInt` reads. */
  function ParseFloat(v: Value): (r: Value)
    ensures r.VNum? || r.VNaN?
  {
    ParseInt(v)
  }

  /** `Number(v)`: the whole trimmed text must be a signed integer; the
      empty text is 0. */
  function ToNumber(v: Value): (r: Value)
    ensures r.VNum? || r.VNaN?
    ensures v.VNum? ==> r == v
  {
    match v
    case VNull => VNum(0)
    case VBool(b) => VNum(if b then 1 else 0)
    case VNum(n) => VNum(n)
    case VNaN => VNaN
    case VStr(s) =>
      var t := Trim(s);
      if t == "" then VNum(0)
      else
        var body := if t[0] == '-' || t[0] == '+' then t[1..] else t;
        if |body| > 0 && DigitRun(body) == |body| then SignedDigits(t) else VNaN
    case VObj(_) => VNaN
  }

  /** `Math.round(a / b)` for a positive divisor, on exact quotients: the
      nearest integer, halves rounded up. */
  function RoundDiv(a: int, b: int): (r: int)
    requires b > 0
    ensures 2 * b * r - b <= 2 * a < 2 * b * r + b
  {
    var r := (2 * a + b) / (2 * b);
    assert 2 * b * r <= 2 * a + b < 2 * b * r + 2 * b;
    r
  }

  /** `String(v)`. */
  function ToStr(v: Value): string {
    match v
    case VNull => "null"
    case VBool(b) => if b then "true" else "false"
    case VNum(n) => IntToString(n)
    case VNaN => "NaN"
    case VStr(s) => s
    case VObj(_) => "[object Object]"
  }

  /** `String(o)` / template interpolation of a possibly-undefined value. */
  function ToStrOpt(o: Option<Value>): string {
    if o.Some? then ToStr(o.value) else "undefined"
  }

  /** A run of digits is read as the number it denotes. */
  lemma SignedDigitsOfRun(digits: string)
    requires |digits| > 0 && forall i :: 0 <= i < |digits| ==> IsDigit(digits[i])
    ensures SignedDigits(digits) == VNum(DigitsValue(digits))
  {
    assert IsDigit(digits[0]);
    DigitRunAll(digits);
    assert digits[..|digits|] == digits;
  }

  /** A run of digits after a minus sign is read as the negated number. */
  lemma SignedDigitsOfNegatedRun(digits: string)
    requires |digits| > 0 && forall i :: 0 <= i < |digits| ==> IsDigit(digits[i])
    ensures SignedDigits("-" + digits) == VNum(-(DigitsValue(digits) as int))
  {
    var t := "-" + digits;
    assert t[0] == '-';
    assert t[1..] == digits;
    DigitRunAll(digits);
    assert digits[..|digits|] == digits;
  }

  /** `parseInt` reads back the decimal text `String` writes for an integer. */
  lemma ParseIntOfString(n: int)
    ensures ParseInt(VStr(IntToString(n))) == VNum(n)
  {
    IntToStringTrimmed(n);
    if n < 0 {
      SignedDigitsOfNegatedRun(NatToString(-n));
    } else {
      SignedDigitsOfRun(NatToString(n));
    }
  }

  /** The text `String` writes for an integer has no white space to trim. */
  lemma IntToStringTrimmed(n: int)
    ensures TrimStart(IntToString(n)) == IntToString(n)
    ensures Trim(IntToString(n)) == IntToString(n)
  {
    var s := IntToString(n);
    var digits := if n < 0 then NatToString(-n) else NatToString(n);
    assert s == if n < 0 then "-" + digits else digits;
    assert IsDigit(s[|s| - 1]);
    TrimKeeps(s);
  }

  /** On a trimmed signed run of digits, `Number` and `parseInt` agree. */
  lemma ToNumberOfDigits(t: string)
    requires t != "" && Trim(t) == t && TrimStart(t) == t
    requires var body := if t[0] == '-' || t[0] == '+' then t[1..] else t;
             |body| > 0 && DigitRun(body) == |body|
    ensures ToNumber(VStr(t)) == ParseInt(VStr(t))
  {
  }

  /** `Number` reads back the decimal text `String` writes for an integer. */
  lemma ToNumberOfString(n: int)
    ensures ToNumber(VStr(IntToString(n))) == VNum(n)
  {
    var s := IntToString(n);
    IntToStringTrimmed(n);
    var digits := if n < 0 then NatToString(-n) else NatToString(n);
    assert s == if n < 0 then "-" + digits else digits;
    var body := if n < 0 then s[1..] else s;
    assert body == digits;
    DigitRunAll(digits);
    ToNumberOfDigits(s);
    ParseIntOfString(n);
  }
}
